=== FILE: README.md ===
# JSON-to-worldbook plugin: a verified model of its core

The plugin runs inside a role-play chat host. It turns model replies into
world-book entries and adds a few assistant features on top. This project
models in Dafny the parts of it that are plain sequence and string logic, and
proves what they promise.

- **Tolerant JSON handling** (`index.js`):
  - `fixJson` repairs text with a chain of regular-expression rewrites. It then
    runs one balancing scan that counts `{}` and `[]` outside double-quoted
    strings and appends the missing closers.
  - `extractJson` unwraps a chat-completion envelope and normalises the text.
    It tries a whole-text parse, then balanced-bracket candidates
    (longest first, raw before repaired), then the span from the first `{` to
    the last `}`.
  - `jsonToYaml` renders a value as block-style YAML-like text.
- **Custom tasks** (`modules/custom-tasks/index.js`):
  - the task list editors: save, toggle, delete, export, import and the edit
    index, in the class `CustomTasks.TaskStore`;
  - building the request of a generate task: the layer-range clamp and the
    `{{var}}` substitution chain;
  - injection of the enabled "parallel" tasks into an outgoing prompt. It gates
    on the interval and inserts before the prompt, after the leading system
    block, or at a depth from the end.
- **Ask Amber** (`modules/story-assistant/ask-amber.js`):
  - the lazily installed settings;
  - the message builder, with its defaults, the optional world-information and
    history parts and the closing message;
  - the key, depth and order rules for saving a reply as a world-book entry.
- **Character extraction** (`modules/story-assistant/character-extract.js`):
  - the four-message prompt;
  - the parser that reads character names back from the list entry;
  - the case-insensitive filter for new characters;
  - the append-only save of the list entry.
- **Story-assistant registry** (`modules/story-assistant/index.js`): the module
  map kept in insertion order, registration with validation, lookup, and the
  empty case of the feature list.

Modules:

| file | module | contents |
|---|---|---|
| `text.dfy` | `Text` | string primitives: `trim`, `split`, `join`, `indexOf`, global replacement, ASCII lower case, decimal rendering, and lemmas about them |
| `sequences.dfy` | `Sequences` | filter, insertion, flat-map, subsequence (`Embeds`) |
| `json_value.dfy` | `JsonValue` | the values `JSON.parse` yields, truthiness, `??`, property access, `String(x)` |
| `json_repair.dfy` | `JsonRepair` | `fixJson` |
| `json_extract.dfy` | `JsonExtract` | `extractJson` |
| `yaml.dfy` | `YamlText` | `jsonToYaml` |
| `templates.dfy` | `Templates` | the `replaceVars` chains |
| `chat_context.dfy` | `ChatContext` | host context defaults, the layer clamp, history formatting |
| `worldbook.dfy` | `Worldbook` | world-book entries, find-by-comment, the create-or-update write |
| `custom_tasks.dfy` | `CustomTasks` | custom tasks |
| `ask_amber.dfy` | `AskAmber` | Ask Amber |
| `character_extract.dfy` | `CharacterExtract` | character extraction |
| `story_assistant.dfy` | `StoryAssistant` | the module registry |

The stateful code is modelled as classes whose fields the methods update:
- `CustomTasks.TaskStore` (the task list and the edit index);
- `CustomTasks.PromptEvent` (the outgoing prompt);
- `AskAmber.PluginSettings`;
- `Worldbook.WorldData`;
- `StoryAssistant.Manager` (the registry and the dependencies).

The loops of the source are methods with loop invariants, each proved equal
to a specification function:
- the balancing scan and the closer loops of `fixJson`;
- the candidate scan and the candidate trials of `extractJson`;
- the name-line loop of `getExistingCharacters`;
- the task loop and the system-block loop of the injection;
- the `push` sequence of `buildMessages`.

What the source promises is then proved about those functions.

The host's asynchronous services become parameters:
- `JSON.parse`: `string -> Option<Json>`, where `None` means it threw;
- the world-information text;
- `getChatHistory`;
- the tag filters;
- `escapeHtml`;
- the entry the host creates;
- fresh ids and timestamps;
- the answer to `confirm()`.

## Model

| member | source | states |
|---|---|---|
| JsonValue.Coalesce | modules/custom-tasks/index.js:1459 | `a ?? b`: `b` exactly when `a` is null or undefined, otherwise `a` |
| JsonValue.Lookup | index.js:76-77 | a property is found exactly when some entry has that key, and the value found is that entry's value |
| JsonValue.Prop | index.js:76 | optional chaining `v?.name` yields something only for an object |
| JsonValue.First | index.js:76 | `v?.[0]` yields something only for an array, a string or an object |
| JsonValue.ToJsString | index.js:78 | `String(x)`: a string is itself, `null` is "null", an empty array is "" |
| JsonRepair.LexAppend | index.js:48-57 | the scanner state and the net counts advance one character at a time, and only counted characters change a count |
| JsonRepair.EscapeOnlyInString | index.js:50 | a pending escape can only arise inside a string |
| JsonRepair.NetWithoutQuotes | index.js:48-57 | text without a double quote is counted character for character and leaves the scanner outside any string |
| JsonRepair.QuotedTextIgnored | index.js:51-53 | brackets inside a double-quoted string are not counted, and the closing quote leaves the string |
| JsonRepair.EscapedQuoteInString | index.js:50 | inside a string, `\"` does not end the string |
| JsonRepair.BackslashOutsideString | index.js:50-51 | outside a string, a backslash escapes nothing and the quote after it opens a string |
| JsonRepair.AppendClosers | index.js:58-59 | appending `n` closers of one kind lowers that kind's net count by `n` and leaves the other kind's count alone |
| JsonRepair.Span | index.js:40-45 | a greedy character-class run: it covers only class characters and stops at the first other one |
| JsonRepair.SpanIsFirst | index.js:40-45 | any run that ends at a non-class character is the greedy run |
| JsonRepair.MixedKeyAt | index.js:39-40 | a mixed-quote key matches only in the shape `"key':` or `'key":` |
| JsonRepair.MixedKeyComplete | index.js:39-40 | every mixed-quote key of that shape matches and becomes `"key":` |
| JsonRepair.SingleQuotedValueAt | index.js:41 | a single-quoted value matches only when it is followed by `,`, `}` or `]` |
| JsonRepair.SingleQuotedValueComplete | index.js:41 | every such value matches and becomes `:"value"` followed by its delimiter |
| JsonRepair.BareKeyAt | index.js:42 | a bare key matches only after `{` or `,`, as an identifier followed by `:` |
| JsonRepair.BareKeyComplete | index.js:42 | every bare key of that shape matches and is wrapped in double quotes |
| JsonRepair.TrailingCommaAt | index.js:43 | a match is a comma, white space, then `}` or `]`, and only the closer is kept |
| JsonRepair.TrailingCommaComplete | index.js:43 | every such comma matches |
| JsonRepair.BareWordValueAt | index.js:44-45 | `: undefined` and `: NaN` match only as whole words after a colon, and become `: null` |
| JsonRepair.BareWordComplete | index.js:44-45 | every such value matches |
| JsonRepair.MatchAt | index.js:39-45 | every match makes progress and stays inside the text |
| JsonRepair.Rewrite | index.js:39-45 | one global replacement; text without the pattern's first character (and, for a bare key, without `{`) comes out unchanged |
| JsonRepair.RewriteChain | index.js:39-45 | the seven replacements in order; text without quotes, colons, commas or `{` passes through unchanged |
| JsonRepair.MatcherOf | index.js:39-45 | every rewrite pattern's matcher makes progress |
| JsonRepair.RewriteWithoutMatch | index.js:39-45 | a global replace with no match leaves the text unchanged |
| JsonRepair.RewriteAtFirstMatch | index.js:39-45 | a global replace keeps the text before the first match, replaces the match, and continues after it |
| JsonRepair.NoMatchWithoutTrigger | index.js:39-45 | nothing matches at a position that lacks the pattern's first character |
| JsonRepair.TrailingCommaRemoved | index.js:43 | the first trailing comma before `}` or `]` is removed together with its white space |
| JsonRepair.BareWordBecomesNull | index.js:44-45 | the first `: undefined` or `: NaN` becomes `: null` |
| JsonRepair.QuoteStepAsWrittenIsIdentity | index.js:38 | the quote step as written changes nothing, curly quotes included |
| JsonRepair.NormalizeQuotes | index.js:38 | curly double quotes become `"` and curly single quotes `'`, and every other character is kept |
| JsonRepair.Rewritten | index.js:37-45 | text without quotes, colons, commas or `{` comes out only trimmed: the quote step as written changes nothing, and no replacement matches |
| JsonRepair.Closed | index.js:58-59 | the text is kept whole as a prefix and only `}` and `]` follow it |
| JsonRepair.Repaired | index.js:34-61 | empty input is returned unchanged; otherwise the rewritten text is a prefix of the result and only closers follow it |
| JsonRepair.IntendedRepairAgrees | index.js:38 | on text without curly quotes the repair with the corrected quote step equals the repair as written |
| JsonRepair.FixJson | index.js:34-61 | the method returns what `Repaired` specifies, with the quote step as written |
| JsonRepair.CountDelimiters | index.js:47-57 | the scan's counters end at the net count of `{}` and of `[]` outside strings |
| JsonRepair.AppendMissingClosers | index.js:58-59 | the loops append max(0, b) `}` and then max(0, k) `]` |
| JsonRepair.RepairBalances | index.js:47-59 | when the rewritten text does not end inside a string, the repaired text has no unclosed bracket of either kind, and surplus closers are left as they were |
| JsonExtract.StripControl | index.js:86 | removes exactly the control characters and keeps clean text unchanged |
| JsonExtract.CrlfToLf | index.js:87 | no carriage return remains, and text without one is unchanged |
| JsonExtract.Normalize | index.js:84-87 | the normalised text has no control character and no carriage return |
| JsonExtract.BomAlreadyTrimmed | index.js:84-85 | after `trim` the byte-order-mark replacement has nothing left to remove |
| JsonExtract.NormalizeKeepsCleanText | index.js:84-87 | already clean, trimmed text is its own normal form |
| JsonExtract.BlankTextNormalizesToEmpty | index.js:84-88 | white-space-only text normalises to the empty string |
| JsonExtract.CloseFrom | index.js:104-117 | the closing index found is the first index after the opener where the depth returns to zero |
| JsonExtract.CandidatesFrom | index.js:101-119 | the candidates lie inside the text, in increasing order and without overlap |
| JsonExtract.Candidates | index.js:98-119 | every candidate is a balanced chunk from an opener to its first return to depth zero; they come in text order without overlap, and text without an opener has none |
| JsonExtract.CandidatesWellFormed | index.js:101-119 | each candidate starts with the opener, is balanced, and first reaches depth zero at its last character |
| JsonExtract.UncoveredOpenersNeverClose | index.js:101-119 | an opener that no candidate covers never balances, so scanning moves on from the next index |
| JsonExtract.InsertByLength | index.js:122 | the insertion step of the sort, by JavaScript `.length` (UTF-16 code units), is a permutation that adds one candidate |
| JsonExtract.SortByLength | index.js:122 | the sort by UTF-16 length is a permutation of the candidates |
| JsonExtract.SortOrdersCandidates | index.js:122 | the sorted candidates are longest first by UTF-16 length, with equal lengths kept in scan order |
| JsonExtract.CandidateStartsIncrease | index.js:101-119 | the scan yields candidates in increasing start order, as a stable sort needs |
| JsonExtract.FirstSuccess | index.js:125-132 | a result from the candidate trials has the wanted shape |
| JsonExtract.FirstSuccessIsFirst | index.js:125-132 | the trials give a result exactly when some candidate parses, raw or repaired, to the wanted shape, and the result is that of the first such candidate |
| JsonExtract.LongerCandidatesFail | index.js:122-132 | when a candidate is chosen, no candidate with a greater UTF-16 length would have succeeded |
| JsonExtract.Fallback | index.js:135-143 | the fallback gives an object, and only when a `{` comes before a `}` |
| JsonExtract.FallbackChunk | index.js:140-141 | the fallback chunk yields only an object |
| JsonExtract.EnvelopeContent | index.js:76-77 | the first choice's message content when it is neither null nor missing, otherwise `content` when present, otherwise `reasoning_content`; nothing for a non-object |
| JsonExtract.ExtractText | index.js:84-145 | a result extracted from text has the wanted shape |
| JsonExtract.Extract | index.js:69-146 | a result has the wanted shape, and a falsy input gives null |
| JsonExtract.ExtractNullCases | index.js:73-82 | an array is returned as it is only when an array is wanted; an object when an array is wanted gives null; an object with a truthy `choices` and no content gives null, and one without `choices` is returned when an object is wanted |
| JsonExtract.ResultHasWantedShape | index.js:91 | every non-null result is an array when an array is wanted, otherwise a non-array object |
| JsonExtract.EnvelopeIsUnwrapped | index.js:75-78 | the content of the first choice's message is extracted as trimmed text, and an array is never wanted from an envelope |
| JsonExtract.PlainObjectPassesThrough | index.js:79 | an object with no content and no `choices` is returned as it is |
| JsonExtract.BlankTextGivesNull | index.js:84-88 | blank text gives null |
| JsonExtract.WholeTextFirst | index.js:94-95 | when the whole normalised text parses to the wanted shape, that is the result |
| JsonExtract.ExtractJson | index.js:69-146 | the method returns what `Extract` specifies, with `fixJson` as written and the sort by UTF-16 length |
| JsonExtract.ExtractFromText | index.js:84-145 | the method returns what `ExtractText` specifies, with `fixJson` as written and the sort by UTF-16 length |
| JsonExtract.ScanCandidates | index.js:98-119 | the nested scanning loops collect exactly the specified candidates |
| JsonExtract.FindClose | index.js:104-117 | the inner loop finds the specified closing index, or none |
| JsonExtract.TryCandidates | index.js:125-132 | the trial loop returns the first success |
| JsonExtract.TryFallback | index.js:135-143 | the fallback step returns what `Fallback` specifies |
| JsonExtract.TryChunk | index.js:140-141 | the chunk step returns what `FallbackChunk` specifies |
| YamlText.JsonToYaml | index.js:175-178 | null and undefined render as "", and a scalar as `String(x)` |
| YamlText.BlockLayout | index.js:179-192 | every line of a rendered array or object is indented by at least the indent, and a non-empty one starts indented |
| YamlText.ItemLayout | index.js:180-182 | every item line starts at the indent |
| YamlText.EntryLayout | index.js:185-191 | every entry line starts at the indent |
| YamlText.Block | index.js:175-192 | null and empty containers render as "", and a scalar as `String(x)` |
| YamlText.ItemLine | index.js:180-182 | an item line starts with the indent and `- `, followed by `String(x)` for a scalar |
| YamlText.EntryLine | index.js:185-191 | an entry starts with the indent, the key and `:`; a non-empty nested value continues on the next line, a scalar after a space |
| YamlText.EmptyValuesInline | index.js:187-188 | for any entry of any rendered object, an empty array value is the line `key: []` and an empty object the line `key: {}` among the object's lines |
| YamlText.ItemsDashed | index.js:180-182 | among the lines of any rendered array, a single-line scalar item is the line `- x` at the indent, and a nested item's lines follow `- ` with its first line on the same line |
| YamlText.NestedValueBelowKey | index.js:189 | among the lines of any rendered object, `key:` stands alone on its line and is followed by exactly the lines of the value rendered two spaces deeper |
| Templates.SubstituteSnoc | modules/custom-tasks/index.js:714-722 | the replacement chain is one global replacement per variable, applied in order |
| Templates.Substitute | modules/custom-tasks/index.js:714-722 | with no variables, or on text without an opening brace, the template comes out unchanged |
| Templates.PlainTextKept | modules/custom-tasks/index.js:714-722 | one global replacement leaves text without an opening brace unchanged |
| Templates.OtherPlaceholderAbsent | modules/custom-tasks/index.js:714-722 | one variable's placeholder never occurs inside another's |
| Templates.SubstituteOne | modules/custom-tasks/index.js:714-722 | a placeholder in plain text is replaced by its own variable's value and by nothing else, wherever that variable sits in the chain |
| Templates.NoBraceNoPlaceholder | modules/custom-tasks/index.js:714-722 | text without an opening brace holds no placeholder |
| ChatContext.ClampLayers | modules/custom-tasks/index.js:671-675 | for a non-empty chat, 1 ≤ start ≤ end ≤ total; an in-range start and end are kept; a missing or zero end means the last layer |
| ChatContext.SelectLayers | modules/custom-tasks/index.js:677-679 | the slice holds end − start + 1 consecutive messages from layer `start`, and nothing from an empty chat |
| ChatContext.UserName | modules/custom-tasks/index.js:662 | the user's name, or `{{user}}` when it is empty; never empty |
| ChatContext.CharName | modules/custom-tasks/index.js:663 | the character card's name, else the host's character name, else `{{char}}`; never empty |
| ChatContext.Description | modules/custom-tasks/index.js:660 | the card's description, else its data description, else "" without a card |
| ChatContext.LastMessage | modules/custom-tasks/index.js:1420 | the text of the last chat message, "" for an empty chat |
| ChatContext.FilterTags | modules/custom-tasks/index.js:687-695 | blank include tags: the exclude filter on the content; include tags set: the include filter's text, passed through the exclude filter exactly when `applyExcludeAfterInclude` is on and that text is non-empty |
| ChatContext.HistoryCount | modules/story-assistant/ask-amber.js:166 | the configured count when it is set and non-zero, otherwise 50 |
| ChatContext.FormatHistory | modules/custom-tasks/index.js:682-699 | no messages give ""; one message gives its `name: content` line; the text starts with the first message's line, ends with the last one's, and holds every line |
| ChatContext.FormatHistoryCons | modules/custom-tasks/index.js:683-699 | the history of `[m] + ms` is m's line, `"\n\n"`, then the history of ms: the lines in message order joined by a blank line |
| ChatContext.LayerLinesShown | modules/custom-tasks/index.js:671-699 | every message of the clamped layer range appears as its history line in the formatted history |
| ChatContext.WindowLinesShown | modules/custom-tasks/index.js:671-699 | the selected layers are the slice `chat[start-1..end]`, and every message of it appears as its `name: content` line in the window's history |
| Worldbook.Assign | modules/story-assistant/ask-amber.js:526-536 | the entry keeps its uid and takes the given comment, content, keys, position, depth and order; it becomes selective and enabled |
| Worldbook.FindByComment | modules/story-assistant/character-extract.js:136-145 | finds the first entry with the comment, and none only when no entry has it |
| Worldbook.ExistingContent | modules/story-assistant/character-extract.js:139-141 | the found entry's content, or "" when there is none |
| Worldbook.Upserted | modules/story-assistant/character-extract.js:136-174 | at most one entry is added; an entry with another comment is unchanged and any entry is either unchanged or assigned the fields; one is appended exactly when no entry has the name and the host created one |
| Worldbook.UpsertShape | modules/story-assistant/character-extract.js:136-174 | a write updates the found entry in place or appends the created one; every other entry is unchanged |
| Worldbook.WrittenEntryFound | modules/story-assistant/character-extract.js:164-174 | after a write, looking the name up finds an entry with the written fields |
| Worldbook.SecondWriteUpdates | modules/story-assistant/character-extract.js:136-145 | a second write under the same name updates and does not append |
| Worldbook.WorldData.Write | modules/story-assistant/character-extract.js:136-177 | the book's entries become the create-or-update result |
| CustomTasks.SaveTaskResult | modules/custom-tasks/index.js:339-369 | a blank name changes nothing; an edit updates that task in place and keeps the length; otherwise exactly one task is appended; the edit index is reset after a save |
| CustomTasks.DefaultTask | modules/custom-tasks/index.js:63-77 | a generate task (not enabled) with the fresh id, empty name and prompts, no layer range, stamped now |
| CustomTasks.DefaultParallelTask | modules/custom-tasks/index.js:82-96 | a disabled parallel task with the fresh id, empty prompt, position "chat", depth 4, role "system", interval 0, stamped now |
| CustomTasks.WithTaskForm | modules/custom-tasks/index.js:322-334 | the form's trimmed name, four prompts and layer range are taken, and every other field is kept |
| CustomTasks.WithParallelForm | modules/custom-tasks/index.js:245-258 | the form's trimmed name, prompt and position are taken, with depth 4 for a blank depth, role "system" for an empty role and interval 0 for an unreadable one; every other field is kept |
| CustomTasks.SavedTaskCarriesForm | modules/custom-tasks/index.js:354-363 | the saved task carries the form's trimmed name, all four prompts and the layers; an edit keeps the length, its id, type and creation stamp, is stamped now and leaves every other task alone; a new task is a generate task under the fresh id appended to the list |
| CustomTasks.SaveParallelTaskResult | modules/custom-tasks/index.js:263-297 | a blank name or an empty prompt changes nothing; otherwise the task is updated in place or exactly one is appended |
| CustomTasks.SavedParallelTaskCarriesForm | modules/custom-tasks/index.js:245-290 | the saved parallel task carries the form, with depth 4 for a blank depth, role "system" when unset and interval 0 when unreadable |
| CustomTasks.Toggled | modules/custom-tasks/index.js:302-317 | only an in-range parallel task changes, and only in `enabled` and `updatedAt`; the length is kept |
| CustomTasks.Deleted | modules/custom-tasks/index.js:374-390 | an out-of-range index or a refused confirmation changes nothing; otherwise the list loses one task |
| CustomTasks.DeleteRemovesOne | modules/custom-tasks/index.js:386 | deletion removes exactly the task at the index, and the others keep their order |
| CustomTasks.ExportTask | modules/custom-tasks/index.js:395-405 | an in-range task is exported without its two timestamps and otherwise unchanged |
| CustomTasks.Imported | modules/custom-tasks/index.js:444-461 | the result is, in file order, the tasks of exactly the readable files with a name and a type, each with one of the fresh ids and new stamps and nothing else changed |
| CustomTasks.ExportImportRoundTrip | modules/custom-tasks/index.js:395-461 | importing an exported task gives the task back, with only a new id and new stamps |
| CustomTasks.TaskStore.constructor | modules/custom-tasks/index.js:13 | no tasks and no task being edited |
| CustomTasks.TaskStore.BeginEdit | modules/custom-tasks/index.js:1319-1324 | an in-range index becomes the edit index |
| CustomTasks.TaskStore.ClearEditing | modules/custom-tasks/index.js:1246-1286 | the edit index is reset and the tasks are kept |
| CustomTasks.TaskStore.SaveTask | modules/custom-tasks/index.js:339-369 | the list and the edit index become those `SaveTaskResult` specifies |
| CustomTasks.TaskStore.SaveParallelTask | modules/custom-tasks/index.js:263-297 | the list and the edit index become those `SaveParallelTaskResult` specifies |
| CustomTasks.TaskStore.ToggleParallelTask | modules/custom-tasks/index.js:302-317 | the list becomes `Toggled` and the edit index is kept |
| CustomTasks.TaskStore.DeleteTask | modules/custom-tasks/index.js:374-390 | the list becomes `Deleted` and the edit index is kept |
| CustomTasks.TaskStore.ImportTasks | modules/custom-tasks/index.js:425-477 | the imported tasks are appended in file order, and the count is the number of valid files |
| CustomTasks.TaskHistory | modules/custom-tasks/index.js:666-704 | without a start layer, the host history of `historyCount ?? 50` messages; with one, "" for an empty chat and otherwise exactly the messages of the clamped range, in order, each as its `name: content` line, joined by a blank line (`FormatHistory` of the window); every such line occurs |
| CustomTasks.TaskMessages | modules/custom-tasks/index.js:725-730 | at most four non-empty messages: every prompt that is non-empty after replacement is sent, in user/assistant order as a subsequence of the four |
| CustomTasks.NoMessagesIffAllEmpty | modules/custom-tasks/index.js:725-735 | nothing is sent exactly when all four prompts are empty after replacement |
| CustomTasks.RunTask | modules/custom-tasks/index.js:640-735 | an index out of range or a parallel task sends nothing; a request holds exactly `TaskMessages` of the task under its variables and history, one to four of them; the empty-prompts outcome occurs exactly when all four substituted prompts are empty |
| CustomTasks.LeadingSystem | modules/custom-tasks/index.js:1473-1480 | the length of the leading run of system messages |
| CustomTasks.InsertPosition | modules/custom-tasks/index.js:1463-1495 | "before" inserts at 0; "after" inserts after the leading system block; otherwise depth 0 or below appends and depth d inserts d from the end, clamped to the start |
| CustomTasks.InjectOne | modules/custom-tasks/index.js:1433-1495 | a task that is not due or has a blank prompt changes nothing; otherwise exactly its substituted prompt is inserted at its position, with its role |
| CustomTasks.InjectAll | modules/custom-tasks/index.js:1431-1496 | the prompt never shrinks, and it is unchanged when no task fires |
| CustomTasks.Injected | modules/custom-tasks/index.js:1398-1408 | disabled injection, no enabled parallel task, or a dry run leaves the prompt unchanged |
| CustomTasks.InjectAllGrows | modules/custom-tasks/index.js:1431-1496 | the prompt grows by one message per firing task, and the old messages keep their relative order |
| CustomTasks.InjectionKeepsPrompt | modules/custom-tasks/index.js:1393-1502 | the outgoing prompt keeps every earlier message in order and grows by exactly the number of firing enabled parallel tasks |
| CustomTasks.AfterSystemMessages | modules/custom-tasks/index.js:1473-1480 | the loop finds the end of the leading system block |
| CustomTasks.OnChatCompletionPromptReady | modules/custom-tasks/index.js:1393-1502 | the event's prompt becomes the injected prompt, and its dry-run flag is kept |
| CustomTasks.InjectTask | modules/custom-tasks/index.js:1431-1496 | one pass of the task loop updates the event's prompt as `InjectOne` specifies |
| CustomTasks.InjectInto | modules/custom-tasks/index.js:1433-1495 | one task's injection into a prompt, as `InjectOne` specifies |
| CustomTasks.Place | modules/custom-tasks/index.js:1463-1495 | the message is inserted at the task's position |
| AskAmber.StoredOrDefault | modules/story-assistant/ask-amber.js:75-84 | the stored settings when present, otherwise the defaults |
| AskAmber.OrDefault | modules/story-assistant/ask-amber.js:130 | an empty prompt falls back to the default |
| AskAmber.DefaultAmberSettings | modules/story-assistant/ask-amber.js:43-71 | non-empty default prompts and templates; entry defaults: empty name and keys, not constant, position 0, depth 4, order 100 |
| AskAmber.Speaker | modules/story-assistant/ask-amber.js:189 | never empty: the user's name for the user's messages, the message's own name for others that have one |
| AskAmber.HistoryText | modules/story-assistant/ask-amber.js:160-208 | without a start layer, the host history of `historyCount \|\| 50` messages; with one, "" for an empty chat and otherwise exactly the messages of the clamped range, in order, each as its `name: content` line, joined by a blank line (`FormatHistory` of the window); every such line occurs |
| AskAmber.Closing | modules/story-assistant/ask-amber.js:224-229 | a closing assistant message exactly when the stored `promptA2` is not blank, holding it with its variables replaced |
| AskAmber.AmberMessages | modules/story-assistant/ask-amber.js:92-232 | fails with "请输入您的问题" exactly when the question is blank; otherwise the two opening messages, the question's message and then the closing message when there is one |
| AskAmber.AmberMessagesRoles | modules/story-assistant/ask-amber.js:128-229 | user, assistant, user, and a fourth assistant message exactly when the stored closing prompt is not blank |
| AskAmber.QuestionComesLast | modules/story-assistant/ask-amber.js:140-221 | the third message is the question alone, or ends with a blank line followed by the question |
| AskAmber.SecondMessage | modules/story-assistant/ask-amber.js:216-221 | the third message joins the parts with blank lines |
| AskAmber.QuestionIsLastPart | modules/story-assistant/ask-amber.js:140-216 | the question is the last part, after the optional world-information and history parts |
| AskAmber.EmptySettingsFallBack | modules/story-assistant/ask-amber.js:130-168 | empty stored prompts and templates give the same first three messages as the defaults |
| AskAmber.EntryKeys | modules/story-assistant/ask-amber.js:529 | the keys are the comma-split, trimmed key text, or just the entry name when it is empty |
| AskAmber.KeysRoundTrip | modules/story-assistant/ask-amber.js:529 | already-trimmed key text is recovered by joining the keys with commas |
| AskAmber.ResultFields | modules/story-assistant/ask-amber.js:479-484 | the entry gets the name, content, keys, constant flag and position of the form; a depth (default 4) exactly at position 4; order default 100 |
| AskAmber.FormError | modules/story-assistant/ask-amber.js:469-499 | in order: no content, no entry name, no world book; nothing is refused exactly when all three are present |
| AskAmber.SavedReplyFound | modules/story-assistant/ask-amber.js:510-536 | a successful save leaves an entry under the name with the reply and the keys, a depth only at position 4, and a second save updates it |
| AskAmber.PluginSettings.GetAmberSettings | modules/story-assistant/ask-amber.js:75-84 | defaults are installed only when nothing is stored, and the stored settings are then returned |
| AskAmber.PluginSettings.BuildMessages | modules/story-assistant/ask-amber.js:92-232 | installs the settings and returns the specified messages or the blank-question error |
| AskAmber.PluginSettings.SaveResultToWorldbook | modules/story-assistant/ask-amber.js:465-550 | the reply is written only after the content, name and book tests pass, and only then are the entry defaults remembered |
| AskAmber.PushMessages | modules/story-assistant/ask-amber.js:125-231 | the `push` sequence builds the specified messages |
| AskAmber.PushOpening | modules/story-assistant/ask-amber.js:127-137 | the first two pushes build the opening pair |
| AskAmber.MessagesLaidOut | modules/story-assistant/ask-amber.js:125-231 | the opening pair, the joined parts and the closing message make up the result |
| AskAmber.UserPartsBuilt | modules/story-assistant/ask-amber.js:140-216 | the part pushes build the specified parts |
| CharacterExtract.ListName | modules/story-assistant/character-extract.js:117 | the list entry's name is never empty |
| CharacterExtract.ExtractVars | modules/story-assistant/character-extract.js:44-53 | seven variables in replacement order; a missing user or character name stays a placeholder |
| CharacterExtract.ExtractVarsWellNamed | modules/story-assistant/character-extract.js:44-53 | the variable names are distinct and brace-free |
| CharacterExtract.ExistingCharactersText | modules/story-assistant/character-extract.js:222-225 | the known-names text is empty exactly when no name is known |
| CharacterExtract.ExtractMessages | modules/story-assistant/character-extract.js:34-60 | exactly four messages, alternating user and assistant |
| CharacterExtract.ExtractMessagesShape | modules/story-assistant/character-extract.js:37-42 | an empty stored prompt gives the message of the default prompt |
| CharacterExtract.PlaceholderFilled | modules/story-assistant/character-extract.js:44-53 | each placeholder is replaced by its own value |
| CharacterExtract.SkipSpace | modules/story-assistant/character-extract.js:87 | `\s*`: skips exactly the white space |
| CharacterExtract.FirstColon | modules/story-assistant/character-extract.js:87 | the first `:` or `：` at or after a position |
| CharacterExtract.NameField | modules/story-assistant/character-extract.js:87 | a capture of the `name:` pattern is non-empty and has no line terminator |
| CharacterExtract.DashField | modules/story-assistant/character-extract.js:87 | a capture of the dash pattern comes from a line whose first non-space character is `-`; it is non-empty and has no line terminator |
| CharacterExtract.ParseLine | modules/story-assistant/character-extract.js:87-89 | a line names someone exactly when one of the two patterns matches; the `name:` pattern wins; the name is the trimmed capture |
| CharacterExtract.ExistingNames | modules/story-assistant/character-extract.js:84-91 | the loop collects the names of the lines, in line order |
| CharacterExtract.NameLineParsed | modules/story-assistant/character-extract.js:87-89 | a line `name: X`, with an optional dash and any letter case, contributes trimmed X |
| CharacterExtract.DashLineParsed | modules/story-assistant/character-extract.js:87-89 | a line `- X:` or `- X：` contributes trimmed X |
| CharacterExtract.LineWithoutColonIgnored | modules/story-assistant/character-extract.js:87-88 | a line without a colon contributes nothing |
| CharacterExtract.NamedLineFound | modules/story-assistant/character-extract.js:84-91 | every name a line contributes is among the names read |
| CharacterExtract.ExistingCharactersAsWritten | modules/story-assistant/character-extract.js:79-91 | with the setting unset no names are read; with it set, the same names as the corrected reader |
| CharacterExtract.ExistingCharacters | modules/story-assistant/character-extract.js:79-91 | the names read from the entry under the effective list name, which is the default name when the setting is unset; none when that entry is missing or empty |
| CharacterExtract.UnsetListNameIgnored | modules/story-assistant/character-extract.js:79 | with the setting unset, the list saved under the default name is not read back |
| CharacterExtract.GetExistingCharacters | modules/story-assistant/character-extract.js:67-98 | as written: no book gives no names; otherwise the names of the list entry under the list-name setting itself, none when it is unset |
| CharacterExtract.NewCharactersFiltered | modules/story-assistant/character-extract.js:254-258 | the new characters are exactly the items with a truthy name not listed in any letter case, in their original order, as a subsequence |
| CharacterExtract.NewCharacters | modules/story-assistant/character-extract.js:254-258 | the filter fails exactly when some item makes it throw; otherwise every kept item is one of the items and is new |
| CharacterExtract.NewContent | modules/story-assistant/character-extract.js:156 | no characters give ""; one character gives its YAML; the text starts with the first character's YAML, ends with the last one's, and holds every one |
| CharacterExtract.NewContentCons | modules/story-assistant/character-extract.js:156 | the content of `[c] + cs` is c's YAML, `"\n\n"`, then the content of cs: the YAMLs in order joined by a blank line |
| CharacterExtract.MergeContent | modules/story-assistant/character-extract.js:158-161 | for an empty list `added` and a blank line; otherwise the trimmed old content, a blank line, the added text and a blank line, exactly (the length is the sum of the four) |
| CharacterExtract.ExtractOutcome | modules/story-assistant/character-extract.js:243-263 | a non-array result is a failure, an empty array finds none, and what is saved is the non-empty filtered list |
| CharacterExtract.CharacterFields | modules/story-assistant/character-extract.js:164-174 | the entry is constant and named after the list; the set position, order and depth are used, with 0, 100 and 4 when unset; a depth is set exactly at position 4 |
| CharacterExtract.SaveCharacterList | modules/story-assistant/character-extract.js:105-186 | an invalid book or a failed load writes nothing; otherwise the merged list is written and the count reported |
| CharacterExtract.MergeReadsBack | modules/story-assistant/character-extract.js:156-161 | the names read from the merged content are the old ones followed by the new ones |
| CharacterExtract.SavedListReadsBack | modules/story-assistant/character-extract.js:156-177 | for the corrected reader (the intended half of the line-79 finding): after a save, the list reads back as the old names followed by the saved characters' names |
| CharacterExtract.SavedListReadsBackAsWritten | modules/story-assistant/character-extract.js:67-177 | for the reader as written, the same read-back holds when the list-name setting is set and non-empty |
| CharacterExtract.SavedCharacterKnown | modules/story-assistant/character-extract.js:79-174 | for the corrected reader (the intended half of the line-79 finding): a saved character's name is read back afterwards and is no longer new |
| CharacterExtract.SavedCharacterKnownAsWritten | modules/story-assistant/character-extract.js:67-258 | for the reader as written, a saved name is read back and is no longer new when the list-name setting is set and non-empty; unset, it is not (`UnsetListNameIgnored`) |
| StoryAssistant.PutValid | modules/story-assistant/index.js:41-44 | storing a record under its own id keeps the registry well formed |
| StoryAssistant.PutGet | modules/story-assistant/index.js:41-44 | the stored record is found under its id, and other ids are unaffected |
| StoryAssistant.PutExisting | modules/story-assistant/index.js:41-44 | storing under a present id replaces that record in place, with the count unchanged |
| StoryAssistant.PutNew | modules/story-assistant/index.js:41-44 | storing under a new id appends the record |
| StoryAssistant.ModuleOf | modules/story-assistant/index.js:62-64 | no module exactly for an unknown id |
| StoryAssistant.Registered | modules/story-assistant/index.js:24-47 | a rejected module leaves the registry alone; an accepted one is found under its id afterwards, every other id reads as before, and a well-formed registry stays well formed |
| StoryAssistant.RegisterThenGet | modules/story-assistant/index.js:41-64 | after a registration the module is found under its id, and other lookups are unchanged |
| StoryAssistant.RejectedIgnored | modules/story-assistant/index.js:25-34 | a null module, one without info, or info without an id leaves the registry unchanged |
| StoryAssistant.ReregisterKeepsPlace | modules/story-assistant/index.js:41-55 | re-registering an id replaces its entry in place, with the count unchanged |
| StoryAssistant.RegisterNewAppends | modules/story-assistant/index.js:41-55 | a new id is listed after all earlier ones |
| StoryAssistant.RegisterValid | modules/story-assistant/index.js:24-47 | registration keeps the registry well formed |
| StoryAssistant.ItemHtml | modules/story-assistant/index.js:77-86 | an item's markup starts with the whole item opening and ends with the item closing; it holds the id in its attribute followed directly by the icon (`icon \|\| '📦'`), the escaped name in the name field and the escaped description in the description field |
| StoryAssistant.FeatureList | modules/story-assistant/index.js:70-89 | the placeholder for no records; otherwise it starts with an item, which the placeholder never does |
| StoryAssistant.EveryModuleListed | modules/story-assistant/index.js:70-89 | every record's id and escaped name occur in the rendered list |
| StoryAssistant.EmptyListIffNoModules | modules/story-assistant/index.js:70-89 | the feature list is the placeholder exactly when no module is registered |
| StoryAssistant.Manager.constructor | modules/story-assistant/index.js:7-10 | an empty registry and no dependencies |
| StoryAssistant.Manager.InitStoryAssistant | modules/story-assistant/index.js:16-18 | records the dependencies and changes nothing else |
| StoryAssistant.Manager.RegisterModule | modules/story-assistant/index.js:24-47 | the registry becomes the registered one, and `init` is called exactly when the module has one and dependencies are set |
| StoryAssistant.Manager.GetRegisteredModules | modules/story-assistant/index.js:53-55 | one module per id, in insertion order |
| StoryAssistant.Manager.GetModule | modules/story-assistant/index.js:62-64 | the module stored under the id, or null |
| StoryAssistant.Manager.RenderFeatureList | modules/story-assistant/index.js:70-89 | the placeholder exactly when the registry is empty |

## Left out

- DOM and jQuery work is not modelled: panels, modals, event bindings, HTML
  other than the feature list, and status messages.
- `escapeHtml` uses a DOM element, so it is a parameter of the feature-list
  rendering.
- Host services are parameters. This covers `loadWorldInfo`, `saveWorldInfo`,
  `createWorldInfoEntry`, `getWorldInfoContent`, `getChatHistory`, the LLM
  calls, the tag filters and `saveSettingsDebounced`. The order and timing of
  the asynchronous calls is not modelled.
- `JSON.parse` is an abstract parameter; its RFC 8259 grammar is not modelled.
- Numbers are integers. `parseInt` on text that is not a number appears only as
  a missing value where the source defaults it (`|| 0`, `|| total`). A start
  layer that is not a number (NaN in the clamp) is not modelled. Float
  formatting in `String(x)` is not modelled.
- `toLowerCase` is an ASCII case fold.
- Replacement strings are inserted literally. JavaScript's `$` patterns in a
  replacement value are not modelled.
- `Date.now()` and the random task ids are parameters.
- File reading and downloading in import and export are not modelled. A file
  is its parsed task, or `None` when it cannot be read or parsed.
- The answer to `confirm()` is a parameter.
- Console logging is not modelled.
- A thrown exception is a `None` or error outcome of the function that throws.
  The `try`/`catch` blocks are not modelled otherwise.
- Settings objects are values. Aliasing between a stored object and the copy
  a caller holds is not modelled.
- `Object.values` and `Object.entries` are taken to list entries in stored
  order. JavaScript's integer-keys-first order is not modelled.
- `previewTaskPrompt` and `getPromptPreview` are not modelled. They repeat the
  clamp and message building of `runTask` and `buildMessages`.
- `runTask` after the request is not modelled: the LLM call, the result modal
  and saving the result.
- `askAmber`, `runAsk`, the settings panels, `renderStoryAssistantPanel`,
  `initStoryAssistantEvents`, `showFeatureList`, `showModuleSettings` and
  `refreshFeatureList` are UI and are not modelled.
- A feature module's `init` call is recorded with the module's key in
  `Manager.initCalls`. Its effects are not modelled.
- Of a module's `getModuleInfo()` result, only the id, name, description and
  icon are kept.
- The mutual exclusion of `isTaskRunning` in `runTask` is not modelled.
- `getCharacterWorldbook`, `getAvailableWorldbooks` and the host's list of
  world books are not modelled. A book is given, or is null when absent or
  invalid.
- `AskAmber.PluginSettings.SaveResultToWorldbook` does not model that the
  world book is saved back through the host.
- `JsonRepair.RepairBalances` is stated only for rewritten text that does not
  end inside a string. Closers appended after an unterminated string stay
  inside it.
- `ChatContext.ClampLayers` takes the start layer as an integer, so it does not
  cover a start that is not a number.
- The history count follows each source file:
  - `runTask` uses `historyCount ?? 50` (`modules/custom-tasks/index.js:702`);
  - Ask Amber and character extraction use `|| 50`.
- The envelope lookup reads `choices[0].message.content`, then `content`, then
  `reasoning_content` (`index.js:76-77`), exactly as the code does. A
  `reasoning_content` inside the message is not consulted.

## Findings

| source | as written | input that shows it | evidently intended | confidence | as-written member | corrected member |
|---|---|---|---|---|---|---|
| index.js:38 | the character classes `[""]` and `['']` hold straight quotes, so the quote step replaces each quote by itself | `“a”` keeps its curly quotes, and `JSON.parse` then rejects `{“a”: 1}` | curly double quotes become `"` and curly single quotes become `'` | not executed; the classes hold straight quotes in the file text | JsonRepair.QuoteStepAsWrittenIsIdentity | JsonRepair.NormalizeQuotes |
| modules/story-assistant/character-extract.js:79 | the list entry is looked up under `settings.characterListName` with no default, while it is saved under `characterListName \|\| '出场角色列表'` (line 117) | with the setting unset, a saved list `name: A` under `出场角色列表` reads back as no names, so A is reported as new again | the lookup uses the same default name as the save | not executed; the plugin's default settings (index.js:20-27) do not set `characterListName` | CharacterExtract.UnsetListNameIgnored | CharacterExtract.ExistingCharacters |

The operations follow the code as written. `JsonRepair.FixJson`,
`JsonExtract.ExtractJson` and `JsonExtract.ExtractFromText` use the quote
step as written, which changes nothing. The corrected repair is
`JsonRepair.RepairedIntended`, and `JsonRepair.IntendedRepairAgrees` proves
that it agrees with the repair as written on text without curly quotes.
`CharacterExtract.GetExistingCharacters` looks the list up as written
(`CharacterExtract.ExistingCharactersAsWritten`). The corrected lookup,
`CharacterExtract.ExistingCharacters`, uses the same default name as the save.

=== FILE: ask_amber.dfy ===
/**
 * "Ask Amber" of modules/story-assistant/ask-amber.js: a conversation with
 * an assistant persona.  The prompt is a fixed user/assistant/user exchange
 * (with an optional closing assistant message); the second user message
 * carries the question, optionally preceded by the world information and a
 * chat history.  A reply can be saved to the world book, which also
 * remembers the form's values as the next defaults.
 */
module AskAmber {
  import opened Text
  import opened Templates
  import opened ChatContext
  import opened Worldbook

  // ---------------------------------------------------------------------
  // Settings

  /** The form values remembered after a save. */
  datatype WorldbookDefaults = WorldbookDefaults(
    entryName: string,
    entryKeys: string,
    entryConstant: bool,
    entryPosition: int,
    entryDepth: int,
    entryOrder: int)

  /** `settings.askAmber`; a prompt the stored object lacks is `""`. */
  datatype AmberSettings = AmberSettings(
    promptU1: string,
    promptA1: string,
    worldInfoTemplate: string,
    chatHistoryTemplate: string,
    promptA2: string,
    worldbookDefaults: WorldbookDefaults)

  // The default prompts and templates.
  const DEFAULT_PROMPT_U1: string := "你是琥珀，我的女仆，我正在进行角色扮演游戏，现在需要你的帮助。"
  const DEFAULT_PROMPT_A1: string := "主人您好，我是琥珀，请问有什么需要帮助的吗？"
  const DEFAULT_WORLD_INFO_TEMPLATE: string := "【世界设定】\n<world_info>\n{{description}}\n{{worldInfo}}\n玩家角色：{{user}}\n{{persona}}\n</world_info>"
  const DEFAULT_CHAT_HISTORY_TEMPLATE: string := "【历史记录】\n<chat_history>\n{{chatHistory}}\n</chat_history>"
  const DEFAULT_PROMPT_A2: string := "了解！琥珀马上为您服务："

  /** `getDefaultAmberSettings()`. */
  function DefaultAmberSettings(): (d: AmberSettings)
    ensures d.promptU1 != "" && d.promptA1 != "" && d.promptA2 != ""
    ensures d.worldInfoTemplate != "" && d.chatHistoryTemplate != ""
    ensures d.worldbookDefaults.entryName == "" && d.worldbookDefaults.entryKeys == ""
    ensures !d.worldbookDefaults.entryConstant && d.worldbookDefaults.entryPosition == 0
    ensures d.worldbookDefaults.entryDepth == 4 && d.worldbookDefaults.entryOrder == 100
  {
    AmberSettings(DEFAULT_PROMPT_U1, DEFAULT_PROMPT_A1, DEFAULT_WORLD_INFO_TEMPLATE,
                  DEFAULT_CHAT_HISTORY_TEMPLATE, DEFAULT_PROMPT_A2,
                  WorldbookDefaults("", "", false, 0, 4, 100))
  }

  /** What `getAmberSettings` returns: the stored object, or the defaults
      when there is none. */
  function StoredOrDefault(stored: Option<AmberSettings>): (a: AmberSettings)
    ensures stored.Some? ==> a == stored.value
    ensures stored.None? ==> a == DefaultAmberSettings()
  {
    if stored.Some? then stored.value else DefaultAmberSettings()
  }

  /** `value || fallback` for a string. */
  function OrDefault(value: string, fallback: string): (r: string)
    ensures value != "" ==> r == value
    ensures value == "" ==> r == fallback
  {
    if value != "" then value else fallback
  }

  // ---------------------------------------------------------------------
  // Building the prompt

  /** The options of one request. A start or end layer is `None` when its
      input field is empty. */
  datatype AskOptions = AskOptions(
    includeWorldInfo: bool,
    worldInfoActivatedOnly: bool,
    includeChatHistory: bool,
    historyStartLayer: Option<int>,
    historyEndLayer: Option<int>)

  /** The four variables of `replaceVars`, in replacement order. */
  function AmberVars(h: Host): seq<Var> {
    [Var("user", UserName(h)), Var("char", CharName(h)),
     Var("description", Description(h)), Var("persona", h.personaDescription)]
  }

  /** The speaker of a history line: the user's name for the user's
      messages, otherwise the message's own name, the character's name or
      `{{char}}`. */
  function Speaker(h: Host): (sp: ChatMessage -> string)
    ensures forall m: ChatMessage :: sp(m) != ""
    ensures forall m: ChatMessage :: m.isUser ==> sp(m) == UserName(h)
    ensures forall m: ChatMessage :: !m.isUser && m.name != "" ==> sp(m) == m.name
  {
    (m: ChatMessage) =>
      if m.isUser then UserName(h) else if m.name != "" then m.name else if h.name2 != "" then h.name2 else "{{char}}"
  }

  /** The history text: the host's recent history when no start layer is
      given, otherwise the clamped layer range formatted line by line. */
  function HistoryText(o: AskOptions, h: Host, s: RunSettings, getChatHistory: int -> string, f: TagFilters): (r: string)
    ensures o.historyStartLayer.None? ==> r == getChatHistory(HistoryCount(s))
    ensures o.historyStartLayer.Some? && h.chat == [] ==> r == ""
    ensures o.historyStartLayer.Some? && h.chat != [] ==>
              var l := ClampLayers(o.historyStartLayer.value, o.historyEndLayer, |h.chat|);
              r == FormatHistory(h.chat[l.start - 1..l.end], Speaker(h), s.tags, f)
    ensures o.historyStartLayer.Some? && h.chat != [] ==>
              var l := ClampLayers(o.historyStartLayer.value, o.historyEndLayer, |h.chat|);
              forall i :: l.start - 1 <= i < l.end ==>
                Occurs(r, Speaker(h)(h.chat[i]) + ": " + FilterTags(h.chat[i].mes, s.tags, f))
  {
    if o.historyStartLayer.None? then getChatHistory(HistoryCount(s))
    else
      var l := ClampLayers(o.historyStartLayer.value, o.historyEndLayer, |h.chat|);
      if h.chat != [] then
        WindowLinesShown(h.chat, l, Speaker(h), s.tags, f);
        FormatHistory(h.chat[l.start - 1..l.end], Speaker(h), s.tags, f)
      else
        FormatHistory(SelectLayers(h.chat, l), Speaker(h), s.tags, f)
  }

  /** The world-information part: the template with the four variables and
      then `{{worldInfo}}` replaced. */
  function WorldInfoPart(a: AmberSettings, d: AmberSettings, h: Host, worldInfo: string): string {
    Substitute(OrDefault(a.worldInfoTemplate, d.worldInfoTemplate),
               AmberVars(h) + [Var("worldInfo", worldInfo)])
  }

  /** The history part: the template with the four variables and then
      `{{chatHistory}}` replaced. */
  function HistoryPart(a: AmberSettings, d: AmberSettings, h: Host, history: string): string {
    Substitute(OrDefault(a.chatHistoryTemplate, d.chatHistoryTemplate),
               AmberVars(h) + [Var("chatHistory", history)])
  }

  /** The parts of the second user message, in order. */
  function UserParts(question: string, o: AskOptions, a: AmberSettings, d: AmberSettings, h: Host, s: RunSettings,
                     worldInfo: bool -> string, getChatHistory: int -> string, f: TagFilters): seq<string>
  {
    (if o.includeWorldInfo then [WorldInfoPart(a, d, h, worldInfo(o.worldInfoActivatedOnly))] else [])
    + (if o.includeChatHistory then [HistoryPart(a, d, h, HistoryText(o, h, s, getChatHistory, f))] else [])
    + [question]
  }

  /** The first user and assistant messages, from the stored prompts or
      the default ones. */
  function Opening(a: AmberSettings, d: AmberSettings, h: Host): seq<PromptMessage> {
    [PromptMessage("user", Substitute(OrDefault(a.promptU1, d.promptU1), AmberVars(h))),
     PromptMessage("assistant", Substitute(OrDefault(a.promptA1, d.promptA1), AmberVars(h)))]
  }

  /** The closing assistant message, present only when the stored
      `promptA2` is not blank; it has no default. */
  function Closing(a: AmberSettings, h: Host): (r: seq<PromptMessage>)
    ensures r == [] <==> IsBlank(a.promptA2)
    ensures r != [] ==> r == [PromptMessage("assistant", Substitute(a.promptA2, AmberVars(h)))]
  {
    if IsBlank(a.promptA2) then [] else [PromptMessage("assistant", Substitute(a.promptA2, AmberVars(h)))]
  }

  /** What `buildMessages` returns, or the error it throws for a blank
      question.  `a` is the stored settings and `d` the defaults of
      `getDefaultAmberSettings()`, which stand in for empty prompts and
      templates; `worldInfo` is the host's world-information text for the
      "activated entries only" flag. */
  function AmberMessages(question: string, o: AskOptions, a: AmberSettings, d: AmberSettings, h: Host, s: RunSettings,
                         worldInfo: bool -> string, getChatHistory: int -> string, f: TagFilters): (r: Result<seq<PromptMessage>>)
    ensures r.Err? <==> IsBlank(question)
    ensures r.Err? ==> r.message == "请输入您的问题"
    ensures r.Ok? ==> |r.value| == 3 + |Closing(a, h)| && r.value[..2] == Opening(a, d, h) && r.value[3..] == Closing(a, h)
  {
    if IsBlank(question) then Err("请输入您的问题")
    else
      var opening, closing := Opening(a, d, h), Closing(a, h);
      var second := PromptMessage("user", Join(UserParts(question, o, a, d, h, s, worldInfo, getChatHistory, f), "\n\n"));
      Laid(opening, second, closing);
      Ok(opening + [second] + closing)
  }

  lemma Laid(opening: seq<PromptMessage>, second: PromptMessage, closing: seq<PromptMessage>)
    requires |opening| == 2
    ensures var m := opening + [second] + closing;
            |m| == 3 + |closing| && m[..2] == opening && m[2] == second && m[3..] == closing
  {
    var m := opening + [second] + closing;
    assert m[..2] == opening;
    assert m[3..] == closing;
  }

  /** The prompt is user, assistant, user, and a closing assistant message
      exactly when the stored `promptA2` is not blank (it has no default). */
  lemma AmberMessagesRoles(question: string, o: AskOptions, a: AmberSettings, d: AmberSettings, h: Host, s: RunSettings,
                           worldInfo: bool -> string, getChatHistory: int -> string, f: TagFilters, m: seq<PromptMessage>)
    requires AmberMessages(question, o, a, d, h, s, worldInfo, getChatHistory, f) == Ok(m)
    ensures |m| == (if IsBlank(a.promptA2) then 3 else 4)
    ensures m[0].role == "user" && m[1].role == "assistant" && m[2].role == "user"
    ensures |m| == 4 ==> m[3].role == "assistant"
  {
    var second := PromptMessage("user", Join(UserParts(question, o, a, d, h, s, worldInfo, getChatHistory, f), "\n\n"));
    LayoutRoles(Opening(a, d, h), second, Closing(a, h), m, !IsBlank(a.promptA2));
  }

  lemma LayoutRoles(opening: seq<PromptMessage>, second: PromptMessage, closing: seq<PromptMessage>,
                    m: seq<PromptMessage>, closed: bool)
    requires m == opening + [second] + closing
    requires |opening| == 2 && opening[0].role == "user" && opening[1].role == "assistant" && second.role == "user"
    requires |closing| == (if closed then 1 else 0) && (closed ==> closing[0].role == "assistant")
    ensures |m| == (if closed then 4 else 3)
    ensures m[0].role == "user" && m[1].role == "assistant" && m[2].role == "user"
    ensures |m| == 4 ==> m[3].role == "assistant"
  {
  }

  /** The question is the last part of the second user message, after the
      optional parts and a blank line; with neither option it is the whole
      message. */
  lemma QuestionComesLast(question: string, o: AskOptions, a: AmberSettings, d: AmberSettings, h: Host, s: RunSettings,
                          worldInfo: bool -> string, getChatHistory: int -> string, f: TagFilters)
    requires !IsBlank(question)
    ensures var r := AmberMessages(question, o, a, d, h, s, worldInfo, getChatHistory, f);
            var content := r.value[2].content;
            && (!o.includeWorldInfo && !o.includeChatHistory ==> content == question)
            && (o.includeWorldInfo || o.includeChatHistory ==>
                  exists before :: content == before + "\n\n" + question)
  {
    SecondMessage(question, o, a, d, h, s, worldInfo, getChatHistory, f);
    QuestionIsLastPart(question, o, a, d, h, s, worldInfo, getChatHistory, f);
  }

  /** The second user message joins the parts with blank lines. */
  lemma SecondMessage(question: string, o: AskOptions, a: AmberSettings, d: AmberSettings, h: Host, s: RunSettings,
                      worldInfo: bool -> string, getChatHistory: int -> string, f: TagFilters)
    requires !IsBlank(question)
    ensures AmberMessages(question, o, a, d, h, s, worldInfo, getChatHistory, f).value[2]
            == PromptMessage("user", Join(UserParts(question, o, a, d, h, s, worldInfo, getChatHistory, f), "\n\n"))
  {
  }

  lemma QuestionIsLastPart(question: string, o: AskOptions, a: AmberSettings, d: AmberSettings, h: Host, s: RunSettings,
                           worldInfo: bool -> string, getChatHistory: int -> string, f: TagFilters)
    ensures var content := Join(UserParts(question, o, a, d, h, s, worldInfo, getChatHistory, f), "\n\n");
            && (!o.includeWorldInfo && !o.includeChatHistory ==> content == question)
            && (o.includeWorldInfo || o.includeChatHistory ==>
                  exists before :: content == before + "\n\n" + question)
  {
    var parts := UserParts(question, o, a, d, h, s, worldInfo, getChatHistory, f);
    var head := parts[..|parts| - 1];
    assert parts == head + [question];
    assert head == [] <==> !o.includeWorldInfo && !o.includeChatHistory;
    if head != [] {
      JoinSnoc(head, question, "\n\n");
    }
  }

  /** A stored prompt or template that is empty behaves as the default one:
      the first three messages are those the defaults give. */
  lemma EmptySettingsFallBack(question: string, o: AskOptions, a: AmberSettings, d: AmberSettings, h: Host, s: RunSettings,
                              worldInfo: bool -> string, getChatHistory: int -> string, f: TagFilters)
    requires !IsBlank(question)
    requires a.promptU1 == "" && a.promptA1 == "" && a.worldInfoTemplate == "" && a.chatHistoryTemplate == ""
    ensures AmberMessages(question, o, a, d, h, s, worldInfo, getChatHistory, f).value[..3]
            == AmberMessages(question, o, d, d, h, s, worldInfo, getChatHistory, f).value[..3]
  {
  }

  // ---------------------------------------------------------------------
  // Saving a reply to the world book

  /** The save form as read: the reply, the entry name and the keys are
      trimmed when they are read from their fields; a depth or order field
      is `None` when empty. */
  datatype ResultForm = ResultForm(
    content: string,
    entryName: string,
    entryKeys: string,
    entryConstant: bool,
    entryPosition: int,
    entryDepth: Option<int>,
    entryOrder: Option<int>)

  /** The entry's keys: the trimmed comma-separated list, or the entry name
      alone when the key field is empty. */
  function EntryKeys(name: string, keys: string): (r: seq<string>)
    ensures |r| >= 1
    ensures keys == "" ==> r == [name]
    ensures keys != "" ==> |r| == |Split(keys, ',')| && forall i :: 0 <= i < |r| ==> ',' !in r[i] && r[i] == Trim(Split(keys, ',')[i])
  {
    if keys == "" then [name]
    else
      var parts := Split(keys, ',');
      var r := seq(|parts|, i requires 0 <= i < |parts| => Trim(parts[i]));
      assert forall i :: 0 <= i < |r| ==> ',' !in r[i] by {
        forall i | 0 <= i < |r| ensures ',' !in r[i] {
          TrimKeepsOut(parts[i], ',');
        }
      }
      r
  }

  /** Keys typed without white space around the commas come back unchanged
      when joined with commas. */
  lemma KeysRoundTrip(name: string, keys: string)
    requires keys != ""
    requires forall i :: 0 <= i < |Split(keys, ',')| ==> Trim(Split(keys, ',')[i]) == Split(keys, ',')[i]
    ensures Join(EntryKeys(name, keys), ",") == keys
  {
    assert EntryKeys(name, keys) == Split(keys, ',');
    JoinSplit(keys, ',');
  }

  /** `entryDepthVal === '' ? 4 : parseInt(entryDepthVal)` */
  function DepthOrDefault(form: ResultForm): int {
    if form.entryDepth.Some? then form.entryDepth.value else 4
  }

  /** `entryOrderVal === '' ? 100 : parseInt(entryOrderVal)` */
  function OrderOrDefault(form: ResultForm): int {
    if form.entryOrder.Some? then form.entryOrder.value else 100
  }

  /** The fields assigned to the entry: a depth only at position 4. */
  function ResultFields(form: ResultForm): (r: Fields)
    ensures r.comment == form.entryName && r.content == form.content
    ensures r.key == Some(EntryKeys(form.entryName, form.entryKeys))
    ensures r.constant == form.entryConstant && r.position == form.entryPosition
    ensures r.depth.Some? <==> form.entryPosition == 4
    ensures form.entryPosition == 4 && form.entryDepth.None? ==> r.depth == Some(4)
    ensures form.entryPosition == 4 && form.entryDepth.Some? ==> r.depth == form.entryDepth
    ensures r.order == (if form.entryOrder.Some? then form.entryOrder.value else 100)
  {
    Fields(form.entryName, form.content, Some(EntryKeys(form.entryName, form.entryKeys)), form.entryConstant,
           form.entryPosition, if form.entryPosition == 4 then Some(DepthOrDefault(form)) else None,
           OrderOrDefault(form))
  }

  /** The values remembered after a save; the depth is remembered even when
      the position does not use it. */
  function RememberedDefaults(form: ResultForm): WorldbookDefaults {
    WorldbookDefaults(form.entryName, form.entryKeys, form.entryConstant,
                      form.entryPosition, DepthOrDefault(form), OrderOrDefault(form))
  }

  /** How a save ends. */
  datatype SaveOutcome = NothingToSave | NameMissing | NoWorldbook | EntryNotCreated | Saved(updated: bool)

  /** The outcome of `saveResultToWorldbook`: the content is checked first,
      then the name, then the world book; a save then updates or creates. */
  function SaveResultOutcome(form: ResultForm, hasBook: bool, entries: seq<Entry>, created: Option<Entry>): SaveOutcome {
    match FormError(form, hasBook)
    case Some(e) => e
    case None =>
      match Outcome(entries, ResultFields(form), created)
      case Updated => Saved(true)
      case Created => Saved(false)
      case CreateFailed => EntryNotCreated
  }

  /** The checks made before anything is written. */
  function FormError(form: ResultForm, hasBook: bool): (r: Option<SaveOutcome>)
    ensures r.None? <==> form.content != "" && form.entryName != "" && hasBook
    ensures form.content == "" ==> r == Some(NothingToSave)
    ensures form.content != "" && form.entryName == "" ==> r == Some(NameMissing)
    ensures form.content != "" && form.entryName != "" && !hasBook ==> r == Some(NoWorldbook)
  {
    if form.content == "" then Some(NothingToSave)
    else if form.entryName == "" then Some(NameMissing)
    else if !hasBook then Some(NoWorldbook)
    else None
  }

  /** A successful save leaves an entry under the typed name holding the
      trimmed reply and the keys; a second save under the same name updates it. */
  lemma SavedReplyFound(form: ResultForm, entries: seq<Entry>, created: Option<Entry>)
    requires SaveResultOutcome(form, true, entries, created).Saved?
    ensures var r := Upserted(entries, ResultFields(form), created);
            var i := FindByComment(r, form.entryName);
            && i.Some?
            && r[i.value].content == form.content
            && r[i.value].key == EntryKeys(form.entryName, form.entryKeys)
            && (r[i.value].depth.Some? <==> form.entryPosition == 4)
            && SaveResultOutcome(form, true, r, None) == Saved(true)
  {
    WrittenEntryFound(entries, ResultFields(form), created);
  }

  // ---------------------------------------------------------------------
  // The settings object

  /** The plugin's settings object, as far as this module reads and writes it. */
  class PluginSettings {
    var historyCount: Option<int>
    var tags: TagSettings
    var askAmber: Option<AmberSettings>

    constructor(historyCount: Option<int>, tags: TagSettings, askAmber: Option<AmberSettings>)
      ensures this.historyCount == historyCount && this.tags == tags && this.askAmber == askAmber
    {
      this.historyCount := historyCount;
      this.tags := tags;
      this.askAmber := askAmber;
    }

    function Run(): RunSettings
      reads this
    {
      RunSettings(historyCount, tags)
    }

    /** `getAmberSettings`: installs the defaults when nothing is stored, and
        returns what is stored. */
    method GetAmberSettings() returns (a: AmberSettings)
      modifies this
      ensures a == StoredOrDefault(old(askAmber))
      ensures askAmber == Some(a)
      ensures historyCount == old(historyCount) && tags == old(tags)
    {
      if askAmber.None? {
        askAmber := Some(DefaultAmberSettings());
      }
      a := askAmber.value;
    }

    /** `buildMessages`: the Amber settings are fetched (and installed when
        missing) before the question is checked. */
    method BuildMessages(question: string, o: AskOptions, h: Host,
                         worldInfo: bool -> string, getChatHistory: int -> string, f: TagFilters)
      returns (r: Result<seq<PromptMessage>>)
      modifies this
      ensures askAmber == Some(StoredOrDefault(old(askAmber)))
      ensures historyCount == old(historyCount) && tags == old(tags)
      ensures r == AmberMessages(question, o, StoredOrDefault(old(askAmber)), DefaultAmberSettings(),
                                 h, old(Run()), worldInfo, getChatHistory, f)
    {
      var a := GetAmberSettings();
      if IsBlank(question) {
        return Err("请输入您的问题");
      }
      var messages := PushMessages(question, o, a, DefaultAmberSettings(), h, Run(), worldInfo, getChatHistory, f);
      r := Ok(messages);
    }

    /** `saveResultToWorldbook`: `book` is the loaded world data of the target
        book, `null` when there is no valid book or it cannot be loaded, and
        `created` what the host's `createWorldInfoEntry` returns.  On success
        the form's values become the remembered defaults. */
    method SaveResultToWorldbook(book: WorldData?, form: ResultForm, created: Option<Entry>) returns (outcome: SaveOutcome)
      modifies this, book
      ensures book == null ==> outcome == SaveResultOutcome(form, false, [], created)
      ensures book != null ==> outcome == SaveResultOutcome(form, true, old(book.entries), created)
      ensures book != null ==>
                book.entries == (if outcome.Saved? then Upserted(old(book.entries), ResultFields(form), created) else old(book.entries))
      ensures askAmber == (if outcome.Saved? then Some(StoredOrDefault(old(askAmber)).(worldbookDefaults := RememberedDefaults(form)))
                           else old(askAmber))
      ensures historyCount == old(historyCount) && tags == old(tags)
    {
      var error := FormError(form, book != null);
      if error.Some? {
        return error.value;
      }
      var written := book.Write(ResultFields(form), created);
      if written == CreateFailed {
        return EntryNotCreated;
      }
      var a := GetAmberSettings();
      askAmber := Some(a.(worldbookDefaults := RememberedDefaults(form)));
      outcome := Saved(written == Updated);
    }
  }

  /** The messages of a question that is not blank, pushed one by one. */
  method PushMessages(question: string, o: AskOptions, a: AmberSettings, d: AmberSettings, h: Host, s: RunSettings,
                      worldInfo: bool -> string, getChatHistory: int -> string, f: TagFilters)
    returns (messages: seq<PromptMessage>)
    requires !IsBlank(question)
    ensures Ok(messages) == AmberMessages(question, o, a, d, h, s, worldInfo, getChatHistory, f)
  {
    var opening := PushOpening(a, d, h);
    var parts := UserPartsBuilt(question, o, a, d, h, s, worldInfo, getChatHistory, f);
    var closing := [];
    if !IsBlank(a.promptA2) {
      closing := [PromptMessage("assistant", Substitute(a.promptA2, AmberVars(h)))];
    }
    messages := opening + [PromptMessage("user", Join(parts, "\n\n"))] + closing;
    MessagesLaidOut(question, o, a, d, h, s, worldInfo, getChatHistory, f, opening, closing, messages);
  }

  /** The first two pushes. */
  method PushOpening(a: AmberSettings, d: AmberSettings, h: Host) returns (messages: seq<PromptMessage>)
    ensures messages == Opening(a, d, h)
  {
    var vars := AmberVars(h);
    messages := [];
    messages := messages + [PromptMessage("user", Substitute(OrDefault(a.promptU1, d.promptU1), vars))];
    messages := messages + [PromptMessage("assistant", Substitute(OrDefault(a.promptA1, d.promptA1), vars))];
  }

  lemma MessagesLaidOut(question: string, o: AskOptions, a: AmberSettings, d: AmberSettings, h: Host, s: RunSettings,
                        worldInfo: bool -> string, getChatHistory: int -> string, f: TagFilters,
                        opening: seq<PromptMessage>, closing: seq<PromptMessage>, m: seq<PromptMessage>)
    requires !IsBlank(question) && opening == Opening(a, d, h) && closing == Closing(a, h)
    requires m == opening + [PromptMessage("user", Join(UserParts(question, o, a, d, h, s, worldInfo, getChatHistory, f), "\n\n"))] + closing
    ensures AmberMessages(question, o, a, d, h, s, worldInfo, getChatHistory, f) == Ok(m)
  {
  }

  /** The pushes into `user2Parts`; each template has the four variables
      replaced first and its own placeholder after. */
  method UserPartsBuilt(question: string, o: AskOptions, a: AmberSettings, d: AmberSettings, h: Host, s: RunSettings,
                        worldInfo: bool -> string, getChatHistory: int -> string, f: TagFilters)
    returns (parts: seq<string>)
    ensures parts == UserParts(question, o, a, d, h, s, worldInfo, getChatHistory, f)
  {
    var vars := AmberVars(h);
    parts := [];
    if o.includeWorldInfo {
      var info := worldInfo(o.worldInfoActivatedOnly);
      var template := OrDefault(a.worldInfoTemplate, d.worldInfoTemplate);
      var content := ReplaceAll(Substitute(template, vars), Placeholder("worldInfo"), info);
      SubstituteSnoc(template, vars, Var("worldInfo", info));
      parts := parts + [content];
    }
    if o.includeChatHistory {
      var history := HistoryText(o, h, s, getChatHistory, f);
      var template := OrDefault(a.chatHistoryTemplate, d.chatHistoryTemplate);
      var content := ReplaceAll(Substitute(template, vars), Placeholder("chatHistory"), history);
      SubstituteSnoc(template, vars, Var("chatHistory", history));
      parts := parts + [content];
    }
    parts := parts + [question];
  }
}

=== FILE: character_extract.dfy ===
/**
 * The character-list extraction of
 * modules/story-assistant/character-extract.js: a four-message prompt asks
 * the model for the characters of the story; the names already listed in
 * the world book are read back from the list entry, the model's items are
 * filtered against them, and the new ones are appended to the list entry
 * as YAML.
 */
module CharacterExtract {
  import opened Text
  import opened Sequences
  import opened Templates
  import opened ChatContext
  import opened JsonValue
  import opened YamlText
  import Worldbook

  // ---------------------------------------------------------------------
  // Settings

  /** The four prompts; an empty prompt is a missing one. */
  datatype ExtractPrompts = ExtractPrompts(u1: string, a1: string, u2: string, a2: string)

  /** The module's settings: the prompts, the list entry's name (`None` when
      unset) and its position, depth and order (`None` when unset or null). */
  datatype ExtractSettings = ExtractSettings(
    prompts: ExtractPrompts,
    characterListName: Option<string>,
    characterListPosition: Option<int>,
    characterListDepth: Option<int>,
    characterListOrder: Option<int>)

  /** The name the list entry is saved under when none is set. */
  const DEFAULT_LIST_NAME: string := "出场角色列表"

  /** `settings.characterListName || '出场角色列表'` */
  function ListName(s: ExtractSettings): (r: string)
    ensures r != ""
  {
    if s.characterListName.Some? && s.characterListName.value != "" then s.characterListName.value
    else DEFAULT_LIST_NAME
  }

  // ---------------------------------------------------------------------
  // The prompt

  /** The names of the seven variables, in replacement order. */
  const VAR_NAMES: seq<string> :=
    ["user", "char", "description", "persona", "worldInfo", "chatHistory", "existingCharacters"]

  /** The seven variables of `replaceVars`; the host's world information, chat
      history and the already-listed names' text are parameters. */
  function ExtractVars(h: Host, worldInfo: string, chatHistory: string, existingCharacters: string): (r: seq<Var>)
    ensures |r| == 7 && forall i :: 0 <= i < 7 ==> r[i].name == VAR_NAMES[i]
    ensures h.name1 == "" ==> r[0].value == Placeholder(VAR_NAMES[0])
    ensures h.character.None? && h.name2 == "" ==> r[1].value == Placeholder(VAR_NAMES[1])
  {
    [Var(VAR_NAMES[0], UserName(h)), Var(VAR_NAMES[1], CharName(h)), Var(VAR_NAMES[2], Description(h)),
     Var(VAR_NAMES[3], h.personaDescription), Var(VAR_NAMES[4], worldInfo), Var(VAR_NAMES[5], chatHistory),
     Var(VAR_NAMES[6], existingCharacters)]
  }

  /** The variable names are distinct, non-empty and free of braces. */
  lemma ExtractVarsWellNamed(h: Host, worldInfo: string, chatHistory: string, existingCharacters: string)
    ensures WellNamed(ExtractVars(h, worldInfo, chatHistory, existingCharacters))
  {
    VarNamesDistinct();
    VarNamesBraceFree();
  }

  lemma VarNamesDistinct()
    ensures forall i, j :: 0 <= i < j < 7 ==> VAR_NAMES[i] != VAR_NAMES[j]
  {
    var n := VAR_NAMES;
    assert |n[0]| == 4 && n[0][0] == 'u';
    assert |n[1]| == 4 && n[1][0] == 'c';
    assert |n[2]| == 11 && n[2][0] == 'd';
    assert |n[3]| == 7;
    assert |n[4]| == 9;
    assert |n[5]| == 11 && n[5][0] == 'c';
    assert |n[6]| == 18;
  }

  lemma VarNamesBraceFree()
    ensures forall i :: 0 <= i < 7 ==> VAR_NAMES[i] != [] && BraceFree(VAR_NAMES[i])
  {
  }

  /** The hint listing the names already in the world book, empty when there
      are none. */
  function ExistingCharactersText(names: seq<string>): (r: string)
    ensures names == [] <==> r == ""
  {
    if names == [] then "" else "\n\n**已存在角色（不要重复）：** " + Join(names, "、")
  }

  /** `buildExtractCharactersMessages`: each stored prompt, or the plugin's
      default (`defaults`) when it is empty, with the variables replaced. */
  function ExtractMessages(p: ExtractPrompts, defaults: ExtractPrompts, vars: seq<Var>): (m: seq<PromptMessage>)
    ensures |m| == 4
    ensures forall i :: 0 <= i < 4 ==> m[i].role == (if i % 2 == 0 then "user" else "assistant")
  {
    [PromptMessage("user", Substitute(OrDefault(p.u1, defaults.u1), vars)),
     PromptMessage("assistant", Substitute(OrDefault(p.a1, defaults.a1), vars)),
     PromptMessage("user", Substitute(OrDefault(p.u2, defaults.u2), vars)),
     PromptMessage("assistant", Substitute(OrDefault(p.a2, defaults.a2), vars))]
  }

  /** `value || fallback` for a string. */
  function OrDefault(value: string, fallback: string): string {
    if value != "" then value else fallback
  }

  /** An empty prompt gives the message of the default one. */
  lemma ExtractMessagesShape(p: ExtractPrompts, defaults: ExtractPrompts, vars: seq<Var>)
    ensures p.u1 == "" ==> ExtractMessages(p, defaults, vars)[0] == ExtractMessages(defaults, defaults, vars)[0]
    ensures p.u2 == "" ==> ExtractMessages(p, defaults, vars)[2] == ExtractMessages(defaults, defaults, vars)[2]
  {
  }

  /** A placeholder in otherwise plain prompt text is replaced by its
      variable's value, whichever of the seven it is. */
  lemma PlaceholderFilled(a: string, b: string, h: Host, worldInfo: string, chatHistory: string,
                          existingCharacters: string, j: nat)
    requires j < 7
    requires BraceFree(a) && '{' !in b
    requires '{' !in ExtractVars(h, worldInfo, chatHistory, existingCharacters)[j].value
    ensures var vars := ExtractVars(h, worldInfo, chatHistory, existingCharacters);
            Substitute(a + Placeholder(vars[j].name) + b, vars) == a + vars[j].value + b
  {
    ExtractVarsWellNamed(h, worldInfo, chatHistory, existingCharacters);
    SubstituteOne(a, b, ExtractVars(h, worldInfo, chatHistory, existingCharacters), j);
  }

  // ---------------------------------------------------------------------
  // Reading the names back: the two line patterns
  //
  // A line of the list entry names a character when it matches
  // `^-?\s*name:\s*(.+)$` (case-insensitively) or else `^\s*-\s*(.+?)[:：]`;
  // the name is the trimmed capture.  `.` matches anything but a line
  // terminator, `\s` is `IsSpace`, and a failed attempt backtracks as the
  // regular-expression engine does.

  /** The end of the run of white space starting at `i`. */
  function SkipSpace(line: string, i: nat): (k: nat)
    requires i <= |line|
    ensures i <= k <= |line|
    ensures forall m :: i <= m < k ==> IsSpace(line[m])
    ensures k == |line| || !IsSpace(line[k])
    decreases |line| - i
  {
    if i == |line| || !IsSpace(line[i]) then i else SkipSpace(line, i + 1)
  }

  /** The run of white space from `i` ends at `k`. */
  lemma SkipSpaceTo(line: string, i: nat, k: nat)
    requires i <= k < |line|
    requires forall m :: i <= m < k ==> IsSpace(line[m])
    requires !IsSpace(line[k])
    ensures SkipSpace(line, i) == k
  {
  }

  predicate NoTerminator(s: string) {
    forall m :: 0 <= m < |s| ==> !IsLineTerminator(s[m])
  }

  predicate IsColon(c: char) {
    c == ':' || c == '：'
  }

  /** The first colon at or after `from`. */
  function FirstColon(line: string, from: nat): (r: Option<nat>)
    requires from <= |line|
    ensures r.Some? ==> from <= r.value < |line| && IsColon(line[r.value])
                        && forall m :: from <= m < r.value ==> !IsColon(line[m])
    ensures r.None? ==> forall m :: from <= m < |line| ==> !IsColon(line[m])
    decreases |line| - from
  {
    if from == |line| then None
    else if IsColon(line[from]) then Some(from)
    else FirstColon(line, from + 1)
  }

  /** `name:` in any letter case at `b`. */
  predicate NameKeyAt(line: string, b: nat) {
    b + 5 <= |line| && Lower(line[b..b + 4]) == "name" && line[b + 4] == ':'
  }

  /** The capture of `^-?\s*name:\s*(.+)$`: everything after `name:` and the
      white space following it, or the last character when only white space
      follows; nothing when the line ends at the colon or a line terminator
      would have to be captured. */
  function NameField(line: string): (r: Option<string>)
    ensures r.Some? ==> r.value != [] && NoTerminator(r.value)
  {
    var a := if |line| > 0 && line[0] == '-' then 1 else 0;
    var b := SkipSpace(line, a);
    if !NameKeyAt(line, b) then None
    else
      var k := SkipSpace(line, b + 5);
      var j := if k < |line| then k else |line| - 1;
      if j < b + 5 || !NoTerminator(line[j..]) then None else Some(line[j..])
  }

  /** `(.+?)[:：]` at `j`: the text up to the first colon after `j`, which must
      be at least one character long and hold no line terminator. */
  function CaptureFrom(line: string, j: nat): (r: Option<string>)
    requires j <= |line|
    ensures r.Some? ==> r.value != [] && NoTerminator(r.value)
  {
    if j == |line| then None
    else
      match FirstColon(line, j + 1)
      case None => None
      case Some(p) => if NoTerminator(line[j..p]) then Some(line[j..p]) else None
  }

  /** The lazy capture after `\s*`: tried at the end `j` of the white space
      first and then, backtracking, at each earlier start down to `lo`. */
  function LazyCapture(line: string, lo: nat, j: nat): (r: Option<string>)
    requires lo <= j <= |line|
    ensures r.Some? ==> r.value != [] && NoTerminator(r.value)
    decreases j - lo
  {
    match CaptureFrom(line, j)
    case Some(c) => Some(c)
    case None => if j == lo then None else LazyCapture(line, lo, j - 1)
  }

  /** The capture of `^\s*-\s*(.+?)[:：]`. */
  function DashField(line: string): (r: Option<string>)
    ensures r.Some? ==> SkipSpace(line, 0) < |line| && line[SkipSpace(line, 0)] == '-'
    ensures r.Some? ==> r.value != [] && NoTerminator(r.value)
  {
    var w := SkipSpace(line, 0);
    if w == |line| || line[w] != '-' then None
    else LazyCapture(line, w + 1, SkipSpace(line, w + 1))
  }

  /** The capture of the first pattern that matches. */
  function Capture(line: string): Option<string> {
    if NameField(line).Some? then NameField(line) else DashField(line)
  }

  /** The name a line contributes, if any: the trimmed capture. */
  function ParseLine(line: string): (r: Option<string>)
    ensures r.Some? <==> NameField(line).Some? || DashField(line).Some?
    ensures NameField(line).Some? ==> r == Some(Trim(NameField(line).value))
    ensures NameField(line).None? && DashField(line).Some? ==> r == Some(Trim(DashField(line).value))
    ensures r.Some? && r.value != [] ==> !IsSpace(r.value[0]) && !IsSpace(r.value[|r.value| - 1])
  {
    if Capture(line).Some? then Some(Trim(Capture(line).value)) else None
  }

  /** The names of the lines, in line order. */
  function NamesOf(lines: seq<string>): seq<string> {
    FlatMap(lines, LineNames)
  }

  function LineNames(line: string): seq<string> {
    if ParseLine(line).Some? then [ParseLine(line).value] else []
  }

  /** The loop of `getExistingCharacters` over the lines of the list entry. */
  method ExistingNames(content: string) returns (names: seq<string>)
    ensures names == NamesOf(Split(content, '\n'))
  {
    var lines := Split(content, '\n');
    names := [];
    var i := 0;
    while i < |lines|
      invariant 0 <= i <= |lines|
      invariant names == FlatMap(lines[..i], LineNames)
    {
      var m := Capture(lines[i]);
      if m.Some? {
        names := names + [Trim(m.value)];
      }
      assert LineNames(lines[i]) == if m.Some? then [Trim(m.value)] else [];
      FlatMapStep(lines, LineNames, i);
      i := i + 1;
    }
    assert lines[..|lines|] == lines;
  }

  /** `name: X` lines (with an optional leading dash, white space before the
      key and the key in any letter case) give the trimmed `X`. */
  lemma NameLineParsed(line: string, d: string, sp: string, key: string, x: string)
    requires line == d + sp + key + ":" + x
    requires d == "" || d == "-"
    requires AllSpace(sp) && |key| == 4 && Lower(key) == "name"
    requires x != [] && NoTerminator(x)
    ensures ParseLine(line) == Some(Trim(x))
  {
    NameLineKey(line, d, sp, key, x);
    var t := NameLineCapture(line, |d| + |sp|, x);
    CapturedName(line, x[t..]);
    TrimSkipsSpace(x, t);
  }

  /** The capture of a line with `name:` at `b` is the text after the colon
      without the white space it starts with, or its last character when it
      is all white space. */
  lemma NameLineCapture(line: string, b: nat, x: string) returns (t: nat)
    requires b == SkipSpace(line, if |line| > 0 && line[0] == '-' then 1 else 0)
    requires NameKeyAt(line, b) && line[b + 5..] == x
    requires x != [] && NoTerminator(x)
    ensures t < |x| && AllSpace(x[..t]) && Capture(line) == Some(x[t..])
  {
    t := CaptureStart(line, b + 5, x);
    NameFieldFrom(line, b, b + 5 + t);
  }

  /** Where the capture of the name pattern starts: past the white space
      that follows the key, but not past the last character. */
  lemma CaptureStart(line: string, c: nat, x: string) returns (t: nat)
    requires c <= |line| && line[c..] == x && x != [] && NoTerminator(x)
    ensures var k := SkipSpace(line, c);
            c + t == (if k < |line| then k else |line| - 1)
    ensures t < |x| && AllSpace(x[..t]) && line[c + t..] == x[t..] && NoTerminator(line[c + t..])
  {
    var k := SkipSpace(line, c);
    t := (if k < |line| then k else |line| - 1) - c;
    assert AllSpace(x[..t]) by {
      forall m | 0 <= m < t
        ensures IsSpace(x[..t][m])
      {
        assert x[..t][m] == line[c + m];
      }
    }
    assert line[c + t..] == x[t..];
    NoTerminatorSuffix(x, t);
  }

  /** After the optional dash and the white space, `name:` follows. */
  lemma NameLineKey(line: string, d: string, sp: string, key: string, x: string)
    requires line == d + sp + key + ":" + x
    requires d == "" || d == "-"
    requires AllSpace(sp) && |key| == 4 && Lower(key) == "name"
    ensures SkipSpace(line, if |line| > 0 && line[0] == '-' then 1 else 0) == |d| + |sp|
    ensures NameKeyAt(line, |d| + |sp|) && line[|d| + |sp| + 5..] == x
  {
    var b := |d| + |sp|;
    assert line[b] == key[0] && LowerChar(key[0]) == 'n';
    assert line[..|d|] == d && line[b..b + 4] == key && line[b + 4] == ':' && line[b + 5..] == x;
    SkipSpaceTo(line, |d|, b);
  }

  lemma NoTerminatorSuffix(x: string, t: nat)
    requires t <= |x| && NoTerminator(x)
    ensures NoTerminator(x[t..])
  {
    forall m | 0 <= m < |x| - t
      ensures !IsLineTerminator(x[t..][m])
    {
      assert x[t..][m] == x[t + m];
    }
  }

  lemma NameFieldFrom(line: string, b: nat, j: nat)
    requires b == SkipSpace(line, if |line| > 0 && line[0] == '-' then 1 else 0)
    requires NameKeyAt(line, b)
    requires j == (if SkipSpace(line, b + 5) < |line| then SkipSpace(line, b + 5) else |line| - 1)
    requires b + 5 <= j && NoTerminator(line[j..])
    ensures NameField(line) == Some(line[j..])
  {
  }

  /** The name of a line is its trimmed capture. */
  lemma CapturedName(line: string, c: string)
    requires Capture(line) == Some(c)
    ensures ParseLine(line) == Some(Trim(c))
  {
  }

  /** `- X:` lines (or `- X：`, with white space around the dash) give the
      trimmed `X`, unless `X` is the key `name` itself. */
  lemma DashLineParsed(sp: string, sp2: string, x: string, colon: char, rest: string)
    requires AllSpace(sp) && AllSpace(sp2) && IsColon(colon)
    requires x != [] && !IsSpace(x[0]) && NoTerminator(x) && forall m :: 0 <= m < |x| ==> !IsColon(x[m])
    requires Lower(x) != "name"
    ensures ParseLine(sp + "-" + sp2 + x + [colon] + rest) == Some(Trim(x))
  {
    var line := sp + "-" + sp2 + x + [colon] + rest;
    DashLineNoNameKey(line, sp, sp2, x, colon, rest);
    DashLineCapture(line, sp, sp2, x, colon, rest);
    assert Capture(line) == Some(x);
    CapturedName(line, x);
  }

  lemma DashLineNoNameKey(line: string, sp: string, sp2: string, x: string, colon: char, rest: string)
    requires line == sp + "-" + sp2 + x + [colon] + rest
    requires AllSpace(sp) && AllSpace(sp2) && IsColon(colon)
    requires x != [] && !IsSpace(x[0]) && forall m :: 0 <= m < |x| ==> !IsColon(x[m])
    requires Lower(x) != "name"
    ensures NameField(line).None?
  {
    var w := |sp|;
    var k := w + 1 + |sp2|;
    assert line[w] == '-' && line[k..k + |x|] == x && line[k + |x|] == colon;
    if sp == "" {
      SkipSpaceTo(line, 1, k);
      NotNameKey(line, k, x);
    } else {
      SkipSpaceTo(line, 0, w);
      DashNotNameKey(line, w);
    }
  }

  /** A colon-free `x` other than `name`, followed by a colon, is not the
      key `name:`. */
  lemma NotNameKey(line: string, k: nat, x: string)
    requires k + |x| < |line| && line[k..k + |x|] == x && IsColon(line[k + |x|])
    requires forall m :: 0 <= m < |x| ==> !IsColon(x[m])
    requires Lower(x) != "name"
    ensures !NameKeyAt(line, k)
  {
  }

  lemma DashNotNameKey(line: string, w: nat)
    requires w < |line| && line[w] == '-'
    ensures !NameKeyAt(line, w)
  {
  }

  lemma DashLineCapture(line: string, sp: string, sp2: string, x: string, colon: char, rest: string)
    requires line == sp + "-" + sp2 + x + [colon] + rest
    requires AllSpace(sp) && AllSpace(sp2) && IsColon(colon)
    requires x != [] && !IsSpace(x[0]) && NoTerminator(x) && forall m :: 0 <= m < |x| ==> !IsColon(x[m])
    ensures DashField(line) == Some(x)
  {
    var k := |sp| + 1 + |sp2|;
    DashLineLayout(line, sp, sp2, x, colon, rest);
    ColonAfter(line, k, x);
    assert CaptureFrom(line, k) == Some(x);
  }

  /** The dash, the white space after it, and `x` followed by the colon. */
  lemma DashLineLayout(line: string, sp: string, sp2: string, x: string, colon: char, rest: string)
    requires line == sp + "-" + sp2 + x + [colon] + rest
    requires AllSpace(sp) && AllSpace(sp2) && IsColon(colon)
    requires x != [] && !IsSpace(x[0]) && forall m :: 0 <= m < |x| ==> !IsColon(x[m])
    ensures var w := |sp|;
            var k := w + 1 + |sp2|;
            && SkipSpace(line, 0) == w && line[w] == '-' && SkipSpace(line, w + 1) == k
            && k + |x| < |line| && line[k..k + |x|] == x && line[k + |x|] == colon
  {
    var w := |sp|;
    var k := w + 1 + |sp2|;
    assert line[w] == '-' && line[k..k + |x|] == x && line[k + |x|] == colon;
    SkipSpaceTo(line, 0, w);
    SkipSpaceTo(line, w + 1, k);
  }

  /** A colon-free `x` at `k` followed by a colon: the first colon after
      `x`'s first character is the one that follows it. */
  lemma ColonAfter(line: string, k: nat, x: string)
    requires k + |x| < |line| && line[k..k + |x|] == x && IsColon(line[k + |x|]) && x != []
    requires forall m :: 0 <= m < |x| ==> !IsColon(x[m])
    ensures FirstColon(line, k + 1) == Some(k + |x|)
  {
    forall m | k + 1 <= m < k + |x|
      ensures !IsColon(line[m])
    {
      assert line[m] == line[k..k + |x|][m - k];
    }
    FirstColonAt(line, k + 1, k + |x|);
  }

  lemma FirstColonAt(line: string, from: nat, p: nat)
    requires from <= p < |line| && IsColon(line[p])
    requires forall m :: from <= m < p ==> !IsColon(line[m])
    ensures FirstColon(line, from) == Some(p)
  {
  }

  /** A line without a colon names no one. */
  lemma LineWithoutColonIgnored(line: string)
    requires forall m :: 0 <= m < |line| ==> !IsColon(line[m])
    ensures ParseLine(line).None?
  {
    var b := SkipSpace(line, if |line| > 0 && line[0] == '-' then 1 else 0);
    assert !NameKeyAt(line, b) by {
      if b + 5 <= |line| {
        assert !IsColon(line[b + 4]);
      }
    }
    assert NameField(line).None?;
    var w := SkipSpace(line, 0);
    if w < |line| && line[w] == '-' {
      NoCaptureWithoutColon(line, w + 1, SkipSpace(line, w + 1));
    }
  }

  lemma {:induction false} NoCaptureWithoutColon(line: string, lo: nat, j: nat)
    requires lo <= j <= |line|
    requires forall m :: 0 <= m < |line| ==> !IsColon(line[m])
    ensures LazyCapture(line, lo, j).None?
    decreases j - lo
  {
    if j < |line| {
      assert FirstColon(line, j + 1).None?;
    }
    if j > lo {
      NoCaptureWithoutColon(line, lo, j - 1);
    }
  }

  /** A line that names someone contributes that name. */
  lemma NamedLineFound(lines: seq<string>, i: nat)
    requires i < |lines| && ParseLine(lines[i]).Some?
    ensures ParseLine(lines[i]).value in NamesOf(lines)
  {
    FlatMapHas(lines, LineNames, i, ParseLine(lines[i]).value);
  }

  // ---------------------------------------------------------------------
  // Reading the list entry

  /** The names listed in the entry the list is saved under: none when there
      is no such entry or it is empty. */
  function ExistingCharacters(entries: seq<Worldbook.Entry>, s: ExtractSettings): (r: seq<string>)
    ensures Worldbook.ExistingContent(entries, ListName(s)) == "" ==> r == []
    ensures Worldbook.ExistingContent(entries, ListName(s)) != "" ==>
              r == NamesOf(Split(Worldbook.ExistingContent(entries, ListName(s)), '\n'))
  {
    match Worldbook.FindByComment(entries, ListName(s))
    case None => []
    case Some(i) => if entries[i].content == "" then [] else NamesOf(Split(entries[i].content, '\n'))
  }

  /** `getExistingCharacters` as written: the entry is looked up under the
      list-name setting itself, with no default, and an unset setting
      (`undefined`) matches no entry. */
  function ExistingCharactersAsWritten(entries: seq<Worldbook.Entry>, s: ExtractSettings): (r: seq<string>)
    ensures s.characterListName.None? ==> r == []
    ensures s.characterListName.Some? && s.characterListName.value != "" ==> r == ExistingCharacters(entries, s)
  {
    if s.characterListName.None? then []
    else
      match Worldbook.FindByComment(entries, s.characterListName.value)
      case None => []
      case Some(i) => if entries[i].content == "" then [] else NamesOf(Split(entries[i].content, '\n'))
  }

  /** `getExistingCharacters` on the loaded world book (`null` when there is
      no book or it could not be loaded), as written: the entry is looked up
      under the list-name setting itself. */
  method GetExistingCharacters(book: Worldbook.WorldData?, s: ExtractSettings) returns (names: seq<string>)
    ensures book == null ==> names == []
    ensures book != null ==> names == ExistingCharactersAsWritten(book.entries, s)
  {
    if book == null || s.characterListName.None? {
      return [];
    }
    var found := Worldbook.FindByComment(book.entries, s.characterListName.value);
    if found.None? || book.entries[found.value].content == "" {
      return [];
    }
    names := ExistingNames(book.entries[found.value].content);
  }

  /** With the list name unset, the list the writer saves under the default
      name is never read back as written, whatever it holds; the corrected
      reader finds the names in it. */
  lemma UnsetListNameIgnored(x: string)
    requires NoTerminator(x)
    ensures var e := Worldbook.Entry(0, DEFAULT_LIST_NAME, "name: " + x, [], true, true, false, 0, None, 100);
            var s := ExtractSettings(ExtractPrompts("", "", "", ""), None, None, None, None);
            && ExistingCharactersAsWritten([e], s) == []
            && ExistingCharacters([e], s) == [Trim(x)]
  {
    var e := Worldbook.Entry(0, DEFAULT_LIST_NAME, "name: " + x, [], true, true, false, 0, None, 100);
    var s := ExtractSettings(ExtractPrompts("", "", "", ""), None, None, None, None);
    assert Worldbook.FindByComment([e], ListName(s)) == Some(0);
    NameListRead(x);
  }

  /** A one-line list `name: X` names the trimmed `X`. */
  lemma NameListRead(x: string)
    requires NoTerminator(x)
    ensures NamesOf(Split("name: " + x, '\n')) == [Trim(x)]
  {
    NameLineSingle(x);
    SplitWithout("name: " + x, '\n');
    NameKeyLineRead(x);
    FlatMapOne("name: " + x, LineNames);
  }

  lemma NameLineSingle(x: string)
    requires NoTerminator(x)
    ensures '\n' !in "name: " + x
  {
    var line := "name: " + x;
    assert forall m :: 0 <= m < |x| ==> line[6 + m] == x[m];
  }

  // ---------------------------------------------------------------------
  // The new-character filter

  /** `c.name` of a result item; `undefined` for anything but an object. */
  function NameOf(c: Json): Option<Json> {
    Prop(Some(c), "name")
  }

  /** `existing.some(en => en.toLowerCase() === name.toLowerCase())` */
  predicate Listed(name: string, existing: seq<string>) {
    exists i :: 0 <= i < |existing| && Lower(existing[i]) == Lower(name)
  }

  /** The filter's test throws on `null` (reading `null.name`) and on a
      truthy name that is not a string once there is a name to compare it
      with (`toLowerCase` is not a function of it). */
  predicate FilterThrows(c: Json, existing: seq<string>) {
    c.JNull? || (Truthy(NameOf(c)) && !NameOf(c).value.JStr? && existing != [])
  }

  /** The filter's test on an item it does not throw on: a truthy name that is
      not listed yet. */
  predicate IsNew(c: Json, existing: seq<string>) {
    Truthy(NameOf(c)) && (existing == [] || (NameOf(c).value.JStr? && !Listed(NameOf(c).value.s, existing)))
  }

  /** `result.filter(...)`: `None` when the test throws on some item. */
  function NewCharacters(items: seq<Json>, existing: seq<string>): (r: Option<seq<Json>>)
    ensures r.None? <==> exists i :: 0 <= i < |items| && FilterThrows(items[i], existing)
    ensures r.Some? ==> forall i :: 0 <= i < |r.value| ==> r.value[i] in items && IsNew(r.value[i], existing)
  {
    if exists i :: 0 <= i < |items| && FilterThrows(items[i], existing) then None
    else Some(Filter(items, c => IsNew(c, existing)))
  }

  /** The new characters are exactly the items that pass the test, in their
      original order; none of them has a name already listed, in any letter
      case. */
  lemma NewCharactersFiltered(items: seq<Json>, existing: seq<string>)
    requires NewCharacters(items, existing).Some?
    ensures var r := NewCharacters(items, existing).value;
            && Embeds(r, items)
            && (forall c :: c in items ==> (c in r <==> IsNew(c, existing)))
            && (forall i :: 0 <= i < |r| ==> Truthy(NameOf(r[i])))
            && (forall i :: 0 <= i < |r| && existing != [] ==>
                  NameOf(r[i]).value.JStr? && !Listed(NameOf(r[i]).value.s, existing))
  {
    FilterEmbeds(items, c => IsNew(c, existing));
  }

  /** What an extraction leads to, before the save. */
  datatype Extraction =
    | NoData                          // not an array: "未能提取到角色数据"
    | NoneFound                       // an empty array: success, count 0
    | Threw                           // the filter threw: reported as a failure
    | AllListed                       // nothing new: success, count 0, "所有角色已存在"
    | ToSave(characters: seq<Json>)   // saved next

  /** The checks of `extractCharacterList` on the model's answer (`None`
      when there is none). */
  function ExtractOutcome(result: Option<Json>, existing: seq<string>): (r: Extraction)
    ensures r == NoData <==> result.None? || !result.value.JArr?
    ensures r == NoneFound <==> result == Some(JArr([]))
    ensures r.ToSave? ==> r.characters != [] && NewCharacters(result.value.items, existing) == Some(r.characters)
  {
    if result.None? || !result.value.JArr? then NoData
    else if result.value.items == [] then NoneFound
    else
      match NewCharacters(result.value.items, existing)
      case None => Threw
      case Some(r) => if r == [] then AllListed else ToSave(r)
  }

  // ---------------------------------------------------------------------
  // Saving the list

  /** The fields the list entry is given: always constant, keys left alone,
      at the set position (0 by default) with the set order (100 by default),
      and with a depth (4 by default) exactly when at position 4. */
  function CharacterFields(s: ExtractSettings, content: string): (f: Worldbook.Fields)
    ensures f.comment == ListName(s) && f.content == content && f.constant && f.key.None?
    ensures s.characterListPosition.Some? ==> f.position == s.characterListPosition.value
    ensures s.characterListPosition.None? ==> f.position == 0
    ensures s.characterListOrder.Some? ==> f.order == s.characterListOrder.value
    ensures s.characterListOrder.None? ==> f.order == 100
    ensures f.depth.Some? <==> f.position == 4
    ensures f.depth.Some? && s.characterListDepth.Some? ==> f.depth == s.characterListDepth
    ensures f.depth.Some? && s.characterListDepth.None? ==> f.depth == Some(4)
  {
    var position := if s.characterListPosition.Some? then s.characterListPosition.value else 0;
    Worldbook.Fields(
      ListName(s), content, None, true, position,
      if position == 4 then Some(if s.characterListDepth.Some? then s.characterListDepth.value else 4) else None,
      if s.characterListOrder.Some? then s.characterListOrder.value else 100)
  }

  /** Where the save ended. */
  datatype ListSave =
    | NoWorldbook       // no target book, or not among the host's books
    | LoadFailed        // the book could not be loaded
    | ListNotCreated    // no list entry, and the host created none: "创建世界书条目失败"
    | ListSaved(count: nat)

  /** The fields a save of `characters` writes into `entries`. */
  function ListFields(entries: seq<Worldbook.Entry>, s: ExtractSettings, characters: seq<Json>): Worldbook.Fields {
    CharacterFields(s, MergeContent(Worldbook.ExistingContent(entries, ListName(s)), NewContent(characters)))
  }

  /** `saveCharacterListToWorldbook`: `bookValid` says whether a target book
      is set and known to the host, `book` is the loaded book (`null` when
      loading failed) and `created` the entry the host creates when the list
      has none. */
  method SaveCharacterList(bookValid: bool, book: Worldbook.WorldData?, s: ExtractSettings,
                           characters: seq<Json>, created: Option<Worldbook.Entry>)
    returns (outcome: ListSave)
    modifies book
    ensures !bookValid ==> outcome == NoWorldbook
    ensures bookValid && book == null ==> outcome == LoadFailed
    ensures bookValid && book != null ==>
              var f := ListFields(old(book.entries), s, characters);
              && book.entries == Worldbook.Upserted(old(book.entries), f, created)
              && outcome == (if Worldbook.Outcome(old(book.entries), f, created) == Worldbook.CreateFailed
                             then ListNotCreated else ListSaved(|characters|))
    ensures !bookValid && book != null ==> book.entries == old(book.entries)
  {
    if !bookValid {
      return NoWorldbook;
    }
    if book == null {
      return LoadFailed;
    }
    var f := ListFields(book.entries, s, characters);
    var written := book.Write(f, created);
    if written == Worldbook.CreateFailed {
      return ListNotCreated;
    }
    return ListSaved(|characters|);
  }

  /** The text the new characters are appended as: each one's YAML, with a
      blank line between them. */
  function NewContent(characters: seq<Json>): (r: string)
    ensures characters == [] ==> r == ""
    ensures |characters| == 1 ==> r == JsonToYaml(Some(characters[0]), 0)
    ensures characters != [] ==> var first := JsonToYaml(Some(characters[0]), 0);
              |first| <= |r| && r[..|first|] == first
    ensures characters != [] ==> var last := JsonToYaml(Some(characters[|characters| - 1]), 0);
              |last| <= |r| && r[|r| - |last|..] == last
    ensures forall i :: 0 <= i < |characters| ==> Occurs(r, JsonToYaml(Some(characters[i]), 0))
  {
    var yamls := Yamls(characters);
    YamlsShown(characters, yamls);
    JoinEnds(yamls, "\n\n");
    Join(yamls, "\n\n")
  }

  /** `characters.map(char => jsonToYaml(char, 0))` */
  function Yamls(characters: seq<Json>): (yamls: seq<string>)
    ensures |yamls| == |characters| && forall i :: 0 <= i < |characters| ==> yamls[i] == JsonToYaml(Some(characters[i]), 0)
  {
    Mapped(characters, c => JsonToYaml(Some(c), 0))
  }

  /** The new content is the first character's YAML, a blank line, and the
      content of the others: the YAMLs come in order, separated by `"\n\n"`. */
  lemma NewContentCons(c: Json, characters: seq<Json>)
    requires characters != []
    ensures NewContent([c] + characters) == JsonToYaml(Some(c), 0) + "\n\n" + NewContent(characters)
  {
    MappedCons(c, characters, x => JsonToYaml(Some(x), 0));
    JoinCons(JsonToYaml(Some(c), 0), Yamls(characters), "\n\n");
  }

  lemma YamlsShown(characters: seq<Json>, yamls: seq<string>)
    requires |yamls| == |characters| && forall i :: 0 <= i < |characters| ==> yamls[i] == JsonToYaml(Some(characters[i]), 0)
    ensures forall i :: 0 <= i < |characters| ==> Occurs(Join(yamls, "\n\n"), JsonToYaml(Some(characters[i]), 0))
  {
    PartsOccurInJoin(yamls, "\n\n");
  }

  /** The list entry's content after appending `added` to `existing`. */
  function MergeContent(existing: string, added: string): (r: string)
    ensures existing == "" ==> r == added + "\n\n"
    ensures existing != "" ==> |Trim(existing)| <= |r| && r[..|Trim(existing)|] == Trim(existing)
    ensures existing != "" ==>
              |r| == |Trim(existing)| + |added| + 4 && r[|Trim(existing)|..|Trim(existing)| + 2] == "\n\n"
    ensures |added| + 2 <= |r| && r[|r| - |added| - 2..] == added + "\n\n"
  {
    if existing != "" then
      Framed(Trim(existing), "\n\n", added);
      Trim(existing) + "\n\n" + added + "\n\n"
    else added + "\n\n"
  }

  lemma Framed(x: string, sep: string, y: string)
    ensures var r := x + sep + y + sep;
            r[..|x|] == x && r[|x|..|x| + |sep|] == sep && r[|r| - |y| - |sep|..] == y + sep
  {
    var r := x + sep + y + sep;
    assert r == x + (sep + y + sep);
    assert r == (x + sep) + (y + sep);
  }

  /** Appending keeps the list: the names read from the merged content are
      those of the (trimmed) old content followed by those of the added text. */
  lemma MergeReadsBack(existing: string, added: string)
    ensures existing != "" ==>
              NamesOf(Split(MergeContent(existing, added), '\n'))
                == NamesOf(Split(Trim(existing), '\n')) + NamesOf(Split(added, '\n'))
    ensures existing == "" ==>
              NamesOf(Split(MergeContent(existing, added), '\n')) == NamesOf(Split(added, '\n'))
  {
    var nl := '\n';
    if existing != "" {
      var t := Trim(existing);
      assert MergeContent(existing, added) == t + [nl, nl] + added + [nl, nl];
      AppendedAfter(t, added, nl);
    } else {
      assert MergeContent(existing, added) == added + [nl, nl];
      AppendedNames(added, nl);
    }
  }

  lemma AppendedAfter(t: string, added: string, nl: char)
    requires nl == '\n'
    ensures NamesOf(Split(t + [nl, nl] + added + [nl, nl], nl)) == NamesOf(Split(t, nl)) + NamesOf(Split(added, nl))
  {
    var s := Split(added + [nl, nl], nl);
    var a := Split(t, nl);
    assert t + [nl, nl] + added + [nl, nl] == t + [nl] + ([nl] + (added + [nl, nl]));
    SplitAround(t, [nl] + (added + [nl, nl]), nl);
    SplitOneAtStart(added + [nl, nl], nl);
    assert Split(t + [nl, nl] + added + [nl, nl], nl) == a + ([""] + s);
    FlatMapAppend(a, [""] + s, LineNames);
    BlankLineSkipped(s);
    AppendedNames(added, nl);
  }

  /** The two line feeds that end the merged content name no one. */
  lemma AppendedNames(added: string, nl: char)
    requires nl == '\n'
    ensures NamesOf(Split(added + [nl, nl], nl)) == NamesOf(Split(added, nl))
  {
    SplitTwoAtEnd(added, nl);
    FlatMapAppend(Split(added, nl), ["", ""], LineNames);
    BlankLinesNameNoOne();
  }

  lemma BlankLineSkipped(s: seq<string>)
    ensures NamesOf([""] + s) == NamesOf(s)
  {
    FlatMapAppend([""], s, LineNames);
    BlankLinesNameNoOne();
  }

  lemma BlankLinesNameNoOne()
    ensures NamesOf([""]) == [] && NamesOf(["", ""]) == []
  {
    LineWithoutColonIgnored("");
    FlatMapOne("", LineNames);
    assert ["", ""] == [""] + [""];
    FlatMapAppend([""], [""], LineNames);
  }

  // ---------------------------------------------------------------------
  // Saved characters are known next time

  /** After a save, every character whose object has a single-line string
      `name` is read back from the list entry, so a later extraction does not
      add it again under that name in any letter case. */
  lemma SavedCharacterKnown(entries: seq<Worldbook.Entry>, s: ExtractSettings, characters: seq<Json>,
                            created: Option<Worldbook.Entry>, j: nat, k: nat, x: string)
    requires Worldbook.Outcome(entries, ListFields(entries, s, characters), created) != Worldbook.CreateFailed
    requires j < |characters| && characters[j].JObj? && k < |characters[j].entries|
    requires characters[j].entries[k] == Entry("name", JStr(x)) && x != [] && NoTerminator(x)
    ensures var names := ExistingCharacters(Worldbook.Upserted(entries, ListFields(entries, s, characters), created), s);
            && Trim(x) in names
            && forall c :: NameOf(c) == Some(JStr(Trim(x))) ==> !IsNew(c, names)
  {
    var line := NameLine(characters, j, k, x);
    var lines := Split(NewContent(characters), '\n');
    var idx :| 0 <= idx < |lines| && lines[idx] == line;
    NameKeyLineRead(x);
    NamedLineFound(lines, idx);
    SavedListReadsBack(entries, s, characters, created);
    var before := Worldbook.ExistingContent(entries, ListName(s));
    var names := ExistingCharacters(Worldbook.Upserted(entries, ListFields(entries, s, characters), created), s);
    InLaterPart(if before == "" then [] else NamesOf(Split(Trim(before), '\n')), NamesOf(lines), Trim(x));
    ListedNotNew(Trim(x), names);
  }

  /** The reader as written agrees once the list-name setting is set: then
      a saved character is read back and is no longer new. */
  lemma SavedCharacterKnownAsWritten(entries: seq<Worldbook.Entry>, s: ExtractSettings, characters: seq<Json>,
                                     created: Option<Worldbook.Entry>, j: nat, k: nat, x: string)
    requires s.characterListName.Some? && s.characterListName.value != ""
    requires Worldbook.Outcome(entries, ListFields(entries, s, characters), created) != Worldbook.CreateFailed
    requires j < |characters| && characters[j].JObj? && k < |characters[j].entries|
    requires characters[j].entries[k] == Entry("name", JStr(x)) && x != [] && NoTerminator(x)
    ensures var names := ExistingCharactersAsWritten(Worldbook.Upserted(entries, ListFields(entries, s, characters), created), s);
            && Trim(x) in names
            && forall c :: NameOf(c) == Some(JStr(Trim(x))) ==> !IsNew(c, names)
  {
    SavedCharacterKnown(entries, s, characters, created, j, k, x);
  }

  lemma InLaterPart(a: seq<string>, b: seq<string>, n: string)
    requires n in b
    ensures n in a + b
  {
  }

  /** A listed name, in any letter case, is never new. */
  lemma ListedNotNew(n: string, names: seq<string>)
    requires n in names
    ensures forall c :: NameOf(c) == Some(JStr(n)) ==> !IsNew(c, names)
  {
    var i :| 0 <= i < |names| && names[i] == n;
    assert Listed(n, names);
  }

  /** After a save, the list entry reads back the names it held before,
      followed by the names in the new content. */
  lemma SavedListReadsBack(entries: seq<Worldbook.Entry>, s: ExtractSettings, characters: seq<Json>,
                           created: Option<Worldbook.Entry>)
    requires Worldbook.Outcome(entries, ListFields(entries, s, characters), created) != Worldbook.CreateFailed
    ensures var before := Worldbook.ExistingContent(entries, ListName(s));
            ExistingCharacters(Worldbook.Upserted(entries, ListFields(entries, s, characters), created), s)
              == (if before == "" then [] else NamesOf(Split(Trim(before), '\n')))
                 + NamesOf(Split(NewContent(characters), '\n'))
  {
    var before := Worldbook.ExistingContent(entries, ListName(s));
    var added := NewContent(characters);
    var merged := MergeContent(before, added);
    var f := CharacterFields(s, merged);
    assert f == ListFields(entries, s, characters);
    assert merged != "" by {
      assert |merged| >= 2;
    }
    ReadBackAfterWrite(entries, s, f, created);
    MergeReadsBack(before, added);
  }

  /** Whatever the list entry is given, it is what is read back. */
  lemma ReadBackAfterWrite(entries: seq<Worldbook.Entry>, s: ExtractSettings, f: Worldbook.Fields,
                           created: Option<Worldbook.Entry>)
    requires f.comment == ListName(s) && f.content != ""
    requires Worldbook.Outcome(entries, f, created) != Worldbook.CreateFailed
    ensures ExistingCharacters(Worldbook.Upserted(entries, f, created), s) == NamesOf(Split(f.content, '\n'))
  {
    Worldbook.WrittenEntryFound(entries, f, created);
  }

  /** With the list-name setting set, the reader as written reads the saved
      list back in the same way. */
  lemma SavedListReadsBackAsWritten(entries: seq<Worldbook.Entry>, s: ExtractSettings, characters: seq<Json>,
                                    created: Option<Worldbook.Entry>)
    requires s.characterListName.Some? && s.characterListName.value != ""
    requires Worldbook.Outcome(entries, ListFields(entries, s, characters), created) != Worldbook.CreateFailed
    ensures var before := Worldbook.ExistingContent(entries, ListName(s));
            ExistingCharactersAsWritten(Worldbook.Upserted(entries, ListFields(entries, s, characters), created), s)
              == (if before == "" then [] else NamesOf(Split(Trim(before), '\n')))
                 + NamesOf(Split(NewContent(characters), '\n'))
  {
    SavedListReadsBack(entries, s, characters, created);
  }

  /** The YAML of a character with a top-level string `name` has the line
      `name: X`. */
  lemma NameLine(characters: seq<Json>, j: nat, k: nat, x: string) returns (line: string)
    requires j < |characters| && characters[j].JObj? && k < |characters[j].entries|
    requires characters[j].entries[k] == Entry("name", JStr(x)) && NoTerminator(x)
    ensures line == "name: " + x && line in Split(NewContent(characters), '\n')
  {
    var es := characters[j].entries;
    line := "name: " + x;
    var entryLines := seq(|es|, i requires 0 <= i < |es| => EntryLine(es[i], 0));
    assert entryLines[k] == line by {
      assert Indent(0) == "";
    }
    NameLineSingle(x);
    SplitWithout(line, '\n');
    PieceOfJoin(entryLines, '\n', "\n", k, line);
    var yamls := Yamls(characters);
    assert yamls[j] == Join(entryLines, "\n");
    PieceOfJoin(yamls, '\n', "\n\n", j, line);
  }

  /** `name: X` names the trimmed `X`. */
  lemma NameKeyLineRead(x: string)
    requires NoTerminator(x)
    ensures ParseLine("name: " + x) == Some(Trim(x))
  {
    var y := " " + x;
    assert NoTerminator(y) by {
      assert forall m :: 1 <= m < |y| ==> y[m] == x[m - 1];
    }
    NameLineParsed("name: " + x, "", "", "name", y);
    assert y[1..] == x;
    TrimSkipsSpace(y, 1);
  }
}

=== FILE: chat_context.dfy ===
/**
 * What the plugin reads from the host chat application before it builds a
 * prompt: the names of the user and the character, the character
 * description, the persona, the stored chat, and the tag-filter settings
 * applied to each message.  The host's own functions (`getChatHistory`,
 * `extractIncludeTags`, `removeTaggedContent`) are parameters.
 */
module ChatContext {
  import opened Text
  import opened Sequences

  /** A stored chat message: `is_user`, `name` and `mes` (`""` when missing). */
  datatype ChatMessage = ChatMessage(isUser: bool, name: string, mes: string)

  /** The selected character card; `""` stands for a missing field. */
  datatype Character = Character(name: string, description: string, dataDescription: string)

  /** The host context: `ctx.name1`, `ctx.name2`, the selected character,
      `power_user.persona_description` and `ctx.chat`. */
  datatype Host = Host(
    name1: string,
    name2: string,
    character: Option<Character>,
    personaDescription: string,
    chat: seq<ChatMessage>)

  /** `ctx.name1 || '{{user}}'` */
  function UserName(h: Host): (r: string)
    ensures r != ""
    ensures h.name1 != "" ==> r == h.name1
    ensures h.name1 == "" ==> r == "{{user}}"
  {
    if h.name1 != "" then h.name1 else "{{user}}"
  }

  /** `char?.name || ctx.name2 || '{{char}}'` */
  function CharName(h: Host): (r: string)
    ensures r != ""
    ensures h.character.Some? && h.character.value.name != "" ==> r == h.character.value.name
    ensures (h.character.None? || h.character.value.name == "") && h.name2 != "" ==> r == h.name2
    ensures (h.character.None? || h.character.value.name == "") && h.name2 == "" ==> r == "{{char}}"
  {
    if h.character.Some? && h.character.value.name != "" then h.character.value.name
    else if h.name2 != "" then h.name2
    else "{{char}}"
  }

  /** `char?.description || char?.data?.description || ''` */
  function Description(h: Host): (r: string)
    ensures h.character.None? ==> r == ""
    ensures h.character.Some? && h.character.value.description != "" ==> r == h.character.value.description
    ensures h.character.Some? && h.character.value.description == "" ==> r == h.character.value.dataDescription
  {
    match h.character
    case None => ""
    case Some(c) => if c.description != "" then c.description else c.dataDescription
  }

  /** `chat.length > 0 ? chat[chat.length - 1]?.mes || '' : ''` */
  function LastMessage(h: Host): (r: string)
    ensures h.chat == [] ==> r == ""
    ensures h.chat != [] ==> r == h.chat[|h.chat| - 1].mes
  {
    if h.chat == [] then "" else h.chat[|h.chat| - 1].mes
  }

  /** A chat-completion message sent to the model. */
  datatype PromptMessage = PromptMessage(role: string, content: string)

  // ---------------------------------------------------------------------
  // Layer ranges

  /** A range of chat layers, numbered from 1, both ends included. */
  datatype Layers = Layers(start: int, end: int)

  /** The clamp applied to a requested layer range: `start = max(1, min(s,
      total))` and `end = max(start, min(e || total, total))`, where `None`
      stands for an end that is missing or not a number. */
  function ClampLayers(start: int, end: Option<int>, total: nat): (r: Layers)
    ensures total >= 1 ==> 1 <= r.start <= r.end <= total
    ensures total == 0 ==> r == Layers(1, 1)
    ensures 1 <= start <= total ==> r.start == start
    ensures end.Some? && r.start <= end.value <= total && end.value != 0 ==> r.end == end.value
    ensures end.None? || end.value == 0 ==> r.end == (if total >= 1 then total else 1)
  {
    var e := if end.Some? && end.value != 0 then end.value else total;
    var s := Max(1, Min(start, total));
    Layers(s, Max(s, Min(e, total)))
  }

  function Min(a: int, b: int): int { if a <= b then a else b }
  function Max(a: int, b: int): int { if a >= b then a else b }

  /** `chat.slice(start - 1, end)` for a clamped range: the `end - start + 1`
      consecutive messages from layer `start` on, nothing from an empty chat. */
  function SelectLayers(chat: seq<ChatMessage>, r: Layers): (sel: seq<ChatMessage>)
    requires |chat| >= 1 ==> 1 <= r.start <= r.end <= |chat|
    ensures chat == [] ==> sel == []
    ensures chat != [] ==> |sel| == r.end - r.start + 1 >= 1
    ensures forall i :: 0 <= i < |sel| ==> sel[i] == chat[r.start - 1 + i]
  {
    if chat == [] then [] else chat[r.start - 1..r.end]
  }

  // ---------------------------------------------------------------------
  // Tag filtering and history text

  /** The tag-filter settings: `includeTags`, `excludeTags` and
      `applyExcludeAfterInclude` (`""`/`false` when missing). */
  datatype TagSettings = TagSettings(includeTags: string, excludeTags: string, applyExcludeAfterInclude: bool)

  /** The host's tag filters, `extractIncludeTags` and `removeTaggedContent`. */
  datatype TagFilters = TagFilters(
    extractIncludeTags: (string, string) -> string,
    removeTaggedContent: (string, string) -> string)

  /** The content of one message after tag filtering: the include filter
      when include tags are set (followed by the exclude filter only when
      asked for and something is left), the exclude filter otherwise. */
  function FilterTags(content: string, t: TagSettings, f: TagFilters): (r: string)
    ensures IsBlank(t.includeTags) ==> r == f.removeTaggedContent(content, t.excludeTags)
    ensures !IsBlank(t.includeTags) && !t.applyExcludeAfterInclude ==> r == f.extractIncludeTags(content, t.includeTags)
    ensures !IsBlank(t.includeTags) && f.extractIncludeTags(content, t.includeTags) == "" ==> r == ""
    ensures !IsBlank(t.includeTags) && t.applyExcludeAfterInclude && f.extractIncludeTags(content, t.includeTags) != "" ==>
              r == f.removeTaggedContent(f.extractIncludeTags(content, t.includeTags), t.excludeTags)
  {
    if !IsBlank(t.includeTags) then
      var kept := f.extractIncludeTags(content, t.includeTags);
      if t.applyExcludeAfterInclude && kept != "" then f.removeTaggedContent(kept, t.excludeTags) else kept
    else
      f.removeTaggedContent(content, t.excludeTags)
  }

  /** The global settings the prompt builders read: `historyCount` and the
      tag filters. */
  datatype RunSettings = RunSettings(historyCount: Option<int>, tags: TagSettings)

  /** `settings.historyCount || 50` */
  function HistoryCount(s: RunSettings): (r: int)
    ensures r != 0
    ensures s.historyCount.Some? && s.historyCount.value != 0 ==> r == s.historyCount.value
    ensures s.historyCount.None? || s.historyCount.value == 0 ==> r == 50
  {
    if s.historyCount.Some? && s.historyCount.value != 0 then s.historyCount.value else 50
  }

  /** One history line, `${name}: ${content}`. */
  function HistoryLine(m: ChatMessage, speaker: ChatMessage -> string, t: TagSettings, f: TagFilters): string {
    speaker(m) + ": " + FilterTags(m.mes, t, f)
  }

  /** The selected messages as history text, one line per message, lines
      separated by a blank line. */
  function FormatHistory(msgs: seq<ChatMessage>, speaker: ChatMessage -> string, t: TagSettings, f: TagFilters): (r: string)
    ensures msgs == [] ==> r == ""
    ensures |msgs| == 1 ==> r == HistoryLine(msgs[0], speaker, t, f)
    ensures msgs != [] ==> var first := HistoryLine(msgs[0], speaker, t, f);
              |first| <= |r| && r[..|first|] == first
    ensures msgs != [] ==> var last := HistoryLine(msgs[|msgs| - 1], speaker, t, f);
              |last| <= |r| && r[|r| - |last|..] == last
    ensures forall i :: 0 <= i < |msgs| ==> Occurs(r, HistoryLine(msgs[i], speaker, t, f))
  {
    var lines := HistoryLines(msgs, speaker, t, f);
    LinesShown(msgs, lines, speaker, t, f);
    JoinEnds(lines, "\n\n");
    Join(lines, "\n\n")
  }

  function HistoryLines(msgs: seq<ChatMessage>, speaker: ChatMessage -> string, t: TagSettings, f: TagFilters): (lines: seq<string>)
    ensures |lines| == |msgs| && forall i :: 0 <= i < |msgs| ==> lines[i] == HistoryLine(msgs[i], speaker, t, f)
  {
    Mapped(msgs, x => HistoryLine(x, speaker, t, f))
  }

  /** The history is the first message's line, a blank line, and the
      history of the remaining messages: the lines come in message order,
      separated by `"\n\n"`. */
  lemma FormatHistoryCons(m: ChatMessage, msgs: seq<ChatMessage>, speaker: ChatMessage -> string, t: TagSettings, f: TagFilters)
    requires msgs != []
    ensures FormatHistory([m] + msgs, speaker, t, f) == HistoryLine(m, speaker, t, f) + "\n\n" + FormatHistory(msgs, speaker, t, f)
  {
    MappedCons(m, msgs, x => HistoryLine(x, speaker, t, f));
    JoinCons(HistoryLine(m, speaker, t, f), HistoryLines(msgs, speaker, t, f), "\n\n");
  }

  lemma LinesShown(msgs: seq<ChatMessage>, lines: seq<string>, speaker: ChatMessage -> string, t: TagSettings, f: TagFilters)
    requires |lines| == |msgs| && forall i :: 0 <= i < |msgs| ==> lines[i] == HistoryLine(msgs[i], speaker, t, f)
    ensures forall i :: 0 <= i < |msgs| ==> Occurs(Join(lines, "\n\n"), HistoryLine(msgs[i], speaker, t, f))
  {
    PartsOccurInJoin(lines, "\n\n");
  }

  /** Every message of a clamped layer range shows up, as its own history
      line, in the formatted history. */
  lemma LayerLinesShown(chat: seq<ChatMessage>, l: Layers, speaker: ChatMessage -> string, t: TagSettings, f: TagFilters)
    requires 1 <= l.start <= l.end <= |chat|
    ensures forall i :: l.start - 1 <= i < l.end ==>
              Occurs(FormatHistory(SelectLayers(chat, l), speaker, t, f), HistoryLine(chat[i], speaker, t, f))
  {
    var sel := SelectLayers(chat, l);
    forall i | l.start - 1 <= i < l.end
      ensures Occurs(FormatHistory(sel, speaker, t, f), HistoryLine(chat[i], speaker, t, f))
    {
      assert sel[i - (l.start - 1)] == chat[i];
    }
  }

  /** The lines of a clamped window, read off the window's history. */
  lemma WindowLinesShown(chat: seq<ChatMessage>, l: Layers, speaker: ChatMessage -> string, t: TagSettings, f: TagFilters)
    requires 1 <= l.start <= l.end <= |chat|
    ensures SelectLayers(chat, l) == chat[l.start - 1..l.end]
    ensures forall i :: l.start - 1 <= i < l.end ==>
              Occurs(FormatHistory(chat[l.start - 1..l.end], speaker, t, f), speaker(chat[i]) + ": " + FilterTags(chat[i].mes, t, f))
  {
    LayerLinesShown(chat, l, speaker, t, f);
  }
}

=== FILE: custom_tasks.dfy ===
/**
 * The custom-task manager of modules/custom-tasks/index.js.  The settings
 * hold a list of tasks of two kinds: "generate" tasks, run on demand with a
 * four-message prompt, and "parallel" tasks, whose prompt is injected into
 * every outgoing chat completion.  The editor remembers the index of the task
 * being edited.
 */
module CustomTasks {
  import opened Text
  import opened Sequences
  import opened Templates
  import opened ChatContext

  /** A stored task.  A property the stored object lacks is held as its
      falsy value (`""`, `false`, `0` or `None`), which is how every reader of
      the list treats it. */
  datatype Task = Task(
    id: string,
    kind: string,
    name: string,
    enabled: bool,
    prompt: string,
    position: string,
    depth: Option<int>,
    role: string,
    interval: int,
    promptU1: string,
    promptA1: string,
    promptU2: string,
    promptA2: string,
    historyStartLayer: Option<int>,
    historyEndLayer: Option<int>,
    createdAt: Option<int>,
    updatedAt: Option<int>)

  /** `createDefaultTask()`, with the fresh id and the clock as parameters. */
  function DefaultTask(id: string, now: int): (t: Task)
    ensures t.id == id && t.kind == "generate" && t.name == "" && !t.enabled
    ensures t.promptU1 == "" && t.promptA1 == "" && t.promptU2 == "" && t.promptA2 == ""
    ensures t.historyStartLayer.None? && t.historyEndLayer.None?
    ensures t.createdAt == Some(now) && t.updatedAt == Some(now)
  {
    Task(id, "generate", "", false, "", "", None, "", 0, "", "", "", "", None, None, Some(now), Some(now))
  }

  /** `createDefaultParallelTask()` */
  function DefaultParallelTask(id: string, now: int): (t: Task)
    ensures t.id == id && t.kind == "parallel" && t.name == "" && !t.enabled && t.prompt == ""
    ensures t.position == "chat" && t.depth == Some(4) && t.role == "system" && t.interval == 0
    ensures t.createdAt == Some(now) && t.updatedAt == Some(now)
  {
    Task(id, "parallel", "", false, "", "chat", Some(4), "system", 0, "", "", "", "", None, None, Some(now), Some(now))
  }

  // ---------------------------------------------------------------------
  // The editor forms

  /** The generate-task editor as read from the page; a layer field left
      blank is `None`. */
  datatype TaskForm = TaskForm(
    name: string,
    promptU1: string,
    promptA1: string,
    promptU2: string,
    promptA2: string,
    historyStartLayer: Option<int>,
    historyEndLayer: Option<int>)

  /** The parallel-task editor as read from the page; a depth left blank and
      an interval that is blank or not a number are `None`. */
  datatype ParallelForm = ParallelForm(
    name: string,
    prompt: string,
    position: string,
    depth: Option<int>,
    role: string,
    interval: Option<int>)

  /** `Object.assign(task, getTaskFromForm())` */
  function WithTaskForm(t: Task, f: TaskForm): (r: Task)
    ensures r.name == Trim(f.name) && r.promptU1 == f.promptU1 && r.promptA1 == f.promptA1
    ensures r.promptU2 == f.promptU2 && r.promptA2 == f.promptA2
    ensures r.historyStartLayer == f.historyStartLayer && r.historyEndLayer == f.historyEndLayer
    ensures r.(name := t.name, promptU1 := t.promptU1, promptA1 := t.promptA1, promptU2 := t.promptU2,
               promptA2 := t.promptA2, historyStartLayer := t.historyStartLayer,
               historyEndLayer := t.historyEndLayer) == t
  {
    t.(name := Trim(f.name), promptU1 := f.promptU1, promptA1 := f.promptA1, promptU2 := f.promptU2,
       promptA2 := f.promptA2, historyStartLayer := f.historyStartLayer, historyEndLayer := f.historyEndLayer)
  }

  /** `Object.assign(task, getParallelTaskFromForm())`: a blank depth is 4, a
      missing role is "system", a missing interval is 0. */
  function WithParallelForm(t: Task, f: ParallelForm): (r: Task)
    ensures r.name == Trim(f.name) && r.prompt == f.prompt && r.position == f.position
    ensures r.depth.Some? && (f.depth.Some? ==> r.depth.value == f.depth.value) && (f.depth.None? ==> r.depth.value == 4)
    ensures r.role != "" && (f.role != "" ==> r.role == f.role)
    ensures f.interval.Some? ==> r.interval == f.interval.value
    ensures f.interval.None? ==> r.interval == 0
    ensures r.(name := t.name, prompt := t.prompt, position := t.position, depth := t.depth,
               role := t.role, interval := t.interval) == t
  {
    t.(name := Trim(f.name), prompt := f.prompt, position := f.position,
       depth := Some(if f.depth.Some? then f.depth.value else 4),
       role := if f.role != "" then f.role else "system",
       interval := if f.interval.Some? then f.interval.value else 0)
  }

  // ---------------------------------------------------------------------
  // Saving, toggling, deleting

  datatype SaveOutcome = MissingName | MissingPrompt | Updated | Created | Failed

  /** The task list and editing index after a save, with its outcome. */
  datatype Saved = Saved(outcome: SaveOutcome, tasks: seq<Task>, editingIndex: int)

  /** `saveTask()`: a name is required; an edit updates the task in place and
      stamps it, otherwise a new generate task is appended.  An edit index past
      the end makes `Object.assign` throw, which leaves everything as it was. */
  function SaveTaskResult(tasks: seq<Task>, editing: int, f: TaskForm, id: string, now: int): (r: Saved)
    ensures r.outcome == MissingName <==> Trim(f.name) == ""
    ensures r.outcome == Updated <==> Trim(f.name) != "" && 0 <= editing < |tasks|
    ensures r.outcome == Created <==> Trim(f.name) != "" && editing < 0
    ensures r.outcome in {MissingName, Failed} ==> r.tasks == tasks && r.editingIndex == editing
    ensures r.outcome in {Updated, Created} ==> r.editingIndex == -1
    ensures r.outcome == Updated ==> |r.tasks| == |tasks| && forall i :: 0 <= i < |tasks| && i != editing ==> r.tasks[i] == tasks[i]
    ensures r.outcome == Created ==> |r.tasks| == |tasks| + 1 && r.tasks[..|tasks|] == tasks
  {
    if Trim(f.name) == "" then Saved(MissingName, tasks, editing)
    else if editing >= 0 then
      if editing < |tasks| then
        Saved(Updated, tasks[editing := WithTaskForm(tasks[editing], f).(updatedAt := Some(now))], -1)
      else Saved(Failed, tasks, editing)
    else Saved(Created, tasks + [WithTaskForm(DefaultTask(id, now), f)], -1)
  }

  /** The saved task carries the whole form: an edited task keeps its id,
      type and creation stamp and gets a new update stamp, and no other task
      changes; a new task is a generate task under the fresh id, appended. */
  lemma SavedTaskCarriesForm(tasks: seq<Task>, editing: int, f: TaskForm, id: string, now: int)
    requires Trim(f.name) != ""
    ensures var r := SaveTaskResult(tasks, editing, f, id, now);
      0 <= editing < |tasks| ==>
        var t := r.tasks[editing];
        && |r.tasks| == |tasks| && (forall i :: 0 <= i < |tasks| && i != editing ==> r.tasks[i] == tasks[i])
        && t.name == Trim(f.name) && t.promptU1 == f.promptU1 && t.promptA1 == f.promptA1
        && t.promptU2 == f.promptU2 && t.promptA2 == f.promptA2
        && t.historyStartLayer == f.historyStartLayer && t.historyEndLayer == f.historyEndLayer
        && t.id == tasks[editing].id && t.kind == tasks[editing].kind
        && t.createdAt == tasks[editing].createdAt && t.updatedAt == Some(now)
    ensures var r := SaveTaskResult(tasks, editing, f, id, now);
      editing < 0 ==>
        var t := r.tasks[|tasks|];
        && r.tasks == tasks + [t]
        && t.name == Trim(f.name) && t.promptU1 == f.promptU1 && t.promptA1 == f.promptA1
        && t.promptU2 == f.promptU2 && t.promptA2 == f.promptA2
        && t.historyStartLayer == f.historyStartLayer && t.historyEndLayer == f.historyEndLayer
        && t.id == id && t.kind == "generate" && t.createdAt == Some(now) && t.updatedAt == Some(now)
  {
    var r := SaveTaskResult(tasks, editing, f, id, now);
    if 0 <= editing < |tasks| {
      assert r.tasks[editing] == WithTaskForm(tasks[editing], f).(updatedAt := Some(now));
    } else if editing < 0 {
      assert r.tasks[|tasks|] == WithTaskForm(DefaultTask(id, now), f);
    }
  }

  /** `saveParallelTask()`: a name and a prompt are required; otherwise as for
      generate tasks, a new task being a parallel one. */
  function SaveParallelTaskResult(tasks: seq<Task>, editing: int, f: ParallelForm, id: string, now: int): (r: Saved)
    ensures r.outcome == MissingName <==> Trim(f.name) == ""
    ensures r.outcome == MissingPrompt <==> Trim(f.name) != "" && f.prompt == ""
    ensures r.outcome == Updated <==> Trim(f.name) != "" && f.prompt != "" && 0 <= editing < |tasks|
    ensures r.outcome == Created <==> Trim(f.name) != "" && f.prompt != "" && editing < 0
    ensures r.outcome in {MissingName, MissingPrompt, Failed} ==> r.tasks == tasks && r.editingIndex == editing
    ensures r.outcome in {Updated, Created} ==> r.editingIndex == -1
    ensures r.outcome == Updated ==> |r.tasks| == |tasks| && forall i :: 0 <= i < |tasks| && i != editing ==> r.tasks[i] == tasks[i]
    ensures r.outcome == Created ==> |r.tasks| == |tasks| + 1 && r.tasks[..|tasks|] == tasks
  {
    if Trim(f.name) == "" then Saved(MissingName, tasks, editing)
    else if f.prompt == "" then Saved(MissingPrompt, tasks, editing)
    else if editing >= 0 then
      if editing < |tasks| then
        Saved(Updated, tasks[editing := WithParallelForm(tasks[editing], f).(updatedAt := Some(now))], -1)
      else Saved(Failed, tasks, editing)
    else Saved(Created, tasks + [WithParallelForm(DefaultParallelTask(id, now), f)], -1)
  }

  /** The saved parallel task carries the form, with the editor's defaults: a
      blank depth is 4, a missing role "system", a missing interval 0.  An
      edited task keeps its id and enabled flag; a new one starts disabled. */
  lemma SavedParallelTaskCarriesForm(tasks: seq<Task>, editing: int, f: ParallelForm, id: string, now: int)
    requires Trim(f.name) != "" && f.prompt != ""
    ensures var r := SaveParallelTaskResult(tasks, editing, f, id, now);
      0 <= editing < |tasks| ==>
        var t := r.tasks[editing];
        && t.name == Trim(f.name) && t.prompt == f.prompt && t.position == f.position
        && t.depth == Some(if f.depth.Some? then f.depth.value else 4)
        && t.role == (if f.role != "" then f.role else "system")
        && t.interval == (if f.interval.Some? then f.interval.value else 0)
        && t.id == tasks[editing].id && t.enabled == tasks[editing].enabled && t.updatedAt == Some(now)
    ensures var r := SaveParallelTaskResult(tasks, editing, f, id, now);
      editing < 0 ==>
        var t := r.tasks[|tasks|];
        && t.name == Trim(f.name) && t.prompt == f.prompt && t.position == f.position
        && t.depth == Some(if f.depth.Some? then f.depth.value else 4)
        && t.role == (if f.role != "" then f.role else "system")
        && t.interval == (if f.interval.Some? then f.interval.value else 0)
        && t.id == id && t.kind == "parallel" && !t.enabled && t.createdAt == Some(now)
  {
    var r := SaveParallelTaskResult(tasks, editing, f, id, now);
    if 0 <= editing < |tasks| {
      assert r.tasks[editing] == WithParallelForm(tasks[editing], f).(updatedAt := Some(now));
    } else if editing < 0 {
      assert r.tasks[|tasks|] == WithParallelForm(DefaultParallelTask(id, now), f);
    }
  }

  /** `toggleParallelTask(index, enabled)`: only an existing parallel task
      changes, and only its `enabled` flag and its stamp. */
  function Toggled(tasks: seq<Task>, index: int, enabled: bool, now: int): (r: seq<Task>)
    ensures |r| == |tasks|
    ensures forall i :: 0 <= i < |tasks| && i != index ==> r[i] == tasks[i]
    ensures !(0 <= index < |tasks| && tasks[index].kind == "parallel") ==> r == tasks
    ensures 0 <= index < |tasks| && tasks[index].kind == "parallel" ==>
      r[index].enabled == enabled && r[index].updatedAt == Some(now)
      && r[index].(enabled := tasks[index].enabled, updatedAt := tasks[index].updatedAt) == tasks[index]
  {
    if 0 <= index < |tasks| && tasks[index].kind == "parallel" then
      tasks[index := tasks[index].(enabled := enabled, updatedAt := Some(now))]
    else tasks
  }

  /** `deleteTask(index)` once the user has answered the confirmation. */
  function Deleted(tasks: seq<Task>, index: int, confirmed: bool): (r: seq<Task>)
    ensures !(0 <= index < |tasks| && confirmed) ==> r == tasks
    ensures 0 <= index < |tasks| && confirmed ==> |r| == |tasks| - 1
  {
    if 0 <= index < |tasks| && confirmed then tasks[..index] + tasks[index + 1..] else tasks
  }

  /** Deletion removes exactly the task at the index: putting it back at the
      same place restores the list, and the other tasks keep their order. */
  lemma DeleteRemovesOne(tasks: seq<Task>, index: int)
    requires 0 <= index < |tasks|
    ensures Insert(Deleted(tasks, index, true), index, tasks[index]) == tasks
    ensures Embeds(Deleted(tasks, index, true), tasks)
  {
    var r := Deleted(tasks, index, true);
    assert Insert(r, index, tasks[index]) == tasks;
    InsertEmbeds(r, index, tasks[index]);
  }

  // ---------------------------------------------------------------------
  // Export and import

  /** `exportTask(index)`: a copy of the task without its two timestamps
      (nothing for an index out of range). */
  function ExportTask(tasks: seq<Task>, index: int): (r: Option<Task>)
    ensures r.Some? <==> 0 <= index < |tasks|
    ensures r.Some? ==> r.value.createdAt.None? && r.value.updatedAt.None?
    ensures r.Some? ==> r.value.(createdAt := tasks[index].createdAt, updatedAt := tasks[index].updatedAt) == tasks[index]
  {
    if 0 <= index < |tasks| then Some(tasks[index].(createdAt := None, updatedAt := None)) else None
  }

  /** An imported file is kept when it parsed to a task with a name and a type. */
  predicate Importable(file: Option<Task>) {
    file.Some? && file.value.name != "" && file.value.kind != ""
  }

  /** The tasks `importTasks` appends for the given files (`None` for a file
      that cannot be read or parsed): the importable files' tasks in file
      order, each with its file's fresh id and new stamps and nothing else
      changed. */
  function Imported(files: seq<Option<Task>>, ids: seq<string>, now: int): (r: seq<Task>)
    requires |ids| == |files|
    ensures |r| == |Filter(files, Importable)|
    ensures forall i :: 0 <= i < |r| ==>
      r[i].name != "" && r[i].kind != "" && r[i].createdAt == Some(now) && r[i].updatedAt == Some(now)
    ensures forall i :: 0 <= i < |r| ==>
      r[i] == Filter(files, Importable)[i].value.(id := r[i].id, createdAt := Some(now), updatedAt := Some(now))
    ensures forall i :: 0 <= i < |r| ==> r[i].id in ids
  {
    if files == [] then []
    else
      var n := |files| - 1;
      var rest := Imported(files[..n], ids[..n], now);
      assert forall x :: x in ids[..n] ==> x in ids;
      if Importable(files[n]) then rest + [files[n].value.(id := ids[n], createdAt := Some(now), updatedAt := Some(now))]
      else rest
  }

  /** An exported task with a name and a type imports back as itself, under
      a new id and with new stamps. */
  lemma ExportImportRoundTrip(tasks: seq<Task>, index: int, id: string, now: int)
    requires 0 <= index < |tasks| && tasks[index].name != "" && tasks[index].kind != ""
    ensures Imported([ExportTask(tasks, index)], [id], now)
         == [tasks[index].(id := id, createdAt := Some(now), updatedAt := Some(now))]
  {
    assert [ExportTask(tasks, index)][..0] == [];
  }

  /** The task list and the editor state of the settings page. */
  class TaskStore {
    var tasks: seq<Task>
    var editingIndex: int

    constructor()
      ensures tasks == [] && editingIndex == -1
    {
      tasks := [];
      editingIndex := -1;
    }

    /** The edit button: only an existing task can be opened for editing. */
    method BeginEdit(index: int)
      modifies this
      ensures tasks == old(tasks)
      ensures editingIndex == if 0 <= index < |tasks| then index else old(editingIndex)
    {
      if 0 <= index < |tasks| {
        editingIndex := index;
      }
    }

    /** The create and cancel buttons. */
    method ClearEditing()
      modifies this
      ensures tasks == old(tasks) && editingIndex == -1
    {
      editingIndex := -1;
    }

    method SaveTask(f: TaskForm, id: string, now: int) returns (outcome: SaveOutcome)
      modifies this
      ensures var r := SaveTaskResult(old(tasks), old(editingIndex), f, id, now);
              outcome == r.outcome && tasks == r.tasks && editingIndex == r.editingIndex
    {
      ghost var r := SaveTaskResult(tasks, editingIndex, f, id, now);
      var name := Trim(f.name);
      if name == "" {
        return MissingName;
      }
      if editingIndex >= 0 {
        if editingIndex >= |tasks| {
          return Failed;
        }
        var edited := WithTaskForm(tasks[editingIndex], f).(updatedAt := Some(now));
        assert r == Saved(Updated, tasks[editingIndex := edited], -1);
        tasks := tasks[editingIndex := edited];
        outcome := Updated;
      } else {
        var created := WithTaskForm(DefaultTask(id, now), f);
        assert r == Saved(Created, tasks + [created], -1);
        tasks := tasks + [created];
        outcome := Created;
      }
      editingIndex := -1;
    }

    method SaveParallelTask(f: ParallelForm, id: string, now: int) returns (outcome: SaveOutcome)
      modifies this
      ensures var r := SaveParallelTaskResult(old(tasks), old(editingIndex), f, id, now);
              outcome == r.outcome && tasks == r.tasks && editingIndex == r.editingIndex
    {
      ghost var r := SaveParallelTaskResult(tasks, editingIndex, f, id, now);
      var name := Trim(f.name);
      if name == "" {
        return MissingName;
      }
      if f.prompt == "" {
        return MissingPrompt;
      }
      if editingIndex >= 0 {
        if editingIndex >= |tasks| {
          return Failed;
        }
        var edited := WithParallelForm(tasks[editingIndex], f).(updatedAt := Some(now));
        assert r == Saved(Updated, tasks[editingIndex := edited], -1);
        tasks := tasks[editingIndex := edited];
        outcome := Updated;
      } else {
        var created := WithParallelForm(DefaultParallelTask(id, now), f);
        assert r == Saved(Created, tasks + [created], -1);
        tasks := tasks + [created];
        outcome := Created;
      }
      editingIndex := -1;
    }

    method ToggleParallelTask(index: int, enabled: bool, now: int)
      modifies this
      ensures tasks == Toggled(old(tasks), index, enabled, now) && editingIndex == old(editingIndex)
    {
      if index < 0 || index >= |tasks| {
        return;
      }
      var t := tasks[index];
      if t.kind != "parallel" {
        return;
      }
      tasks := tasks[index := t.(enabled := enabled, updatedAt := Some(now))];
    }

    method DeleteTask(index: int, confirmed: bool)
      modifies this
      ensures tasks == Deleted(old(tasks), index, confirmed) && editingIndex == old(editingIndex)
    {
      if index < 0 || index >= |tasks| {
        return;
      }
      if !confirmed {
        return;
      }
      tasks := tasks[..index] + tasks[index + 1..];
    }

    /** `importTasks()` after the files were read: each file with a name and a
        type is appended with the next fresh id; the count is returned. */
    method ImportTasks(files: seq<Option<Task>>, ids: seq<string>, now: int) returns (count: nat)
      requires |ids| == |files|
      modifies this
      ensures tasks == old(tasks) + Imported(files, ids, now) && editingIndex == old(editingIndex)
      ensures count == |Filter(files, Importable)|
    {
      count := 0;
      var i := 0;
      while i < |files|
        invariant 0 <= i <= |files|
        invariant tasks == old(tasks) + Imported(files[..i], ids[..i], now)
        invariant count == |Imported(files[..i], ids[..i], now)|
        invariant editingIndex == old(editingIndex)
      {
        assert files[..i + 1][..i] == files[..i] && ids[..i + 1][..i] == ids[..i];
        var file := files[i];
        if file.Some? && file.value.name != "" && file.value.kind != "" {
          var task := file.value.(id := ids[i], createdAt := Some(now), updatedAt := Some(now));
          tasks := tasks + [task];
          count := count + 1;
        }
        i := i + 1;
      }
      assert files[..i] == files && ids[..i] == ids;
    }
  }

  // ---------------------------------------------------------------------
  // Running a generate task

  /** The chat history of a task: its own layer range when a start layer is
      set, the host's recent history (`historyCount ?? 50` messages)
      otherwise. */
  function TaskHistory(t: Task, h: Host, s: RunSettings, getChatHistory: int -> string, f: TagFilters): (r: string)
    ensures t.historyStartLayer.None? ==> r == getChatHistory(if s.historyCount.Some? then s.historyCount.value else 50)
    ensures t.historyStartLayer.Some? && h.chat == [] ==> r == ""
    ensures t.historyStartLayer.Some? && h.chat != [] ==>
              var l := ClampLayers(t.historyStartLayer.value, t.historyEndLayer, |h.chat|);
              r == FormatHistory(h.chat[l.start - 1..l.end], TaskSpeakers(h), s.tags, f)
    ensures t.historyStartLayer.Some? && h.chat != [] ==>
              var l := ClampLayers(t.historyStartLayer.value, t.historyEndLayer, |h.chat|);
              forall i :: l.start - 1 <= i < l.end ==>
                Occurs(r, TaskSpeakers(h)(h.chat[i]) + ": " + FilterTags(h.chat[i].mes, s.tags, f))
  {
    if t.historyStartLayer.Some? then
      var l := ClampLayers(t.historyStartLayer.value, t.historyEndLayer, |h.chat|);
      if h.chat != [] then
        WindowLinesShown(h.chat, l, TaskSpeakers(h), s.tags, f);
        FormatHistory(h.chat[l.start - 1..l.end], TaskSpeakers(h), s.tags, f)
      else
        FormatHistory(SelectLayers(h.chat, l), TaskSpeakers(h), s.tags, f)
    else
      getChatHistory(if s.historyCount.Some? then s.historyCount.value else 50)
  }

  /** `TaskSpeaker` as the speaker function of the history formatter. */
  function TaskSpeakers(h: Host): (sp: ChatMessage -> string)
    ensures forall m: ChatMessage :: sp(m) == TaskSpeaker(h, m)
  {
    (m: ChatMessage) => TaskSpeaker(h, m)
  }

  /** The speaker of a history line: the user's or the character's name. */
  function TaskSpeaker(h: Host, m: ChatMessage): string {
    if m.isUser then UserName(h) else CharName(h)
  }

  /** The variables of a generate task's prompts, in replacement order. */
  function TaskVars(h: Host, worldInfo: string, history: string): seq<Var> {
    [Var("user", UserName(h)), Var("char", CharName(h)), Var("description", Description(h)),
     Var("persona", h.personaDescription), Var("worldInfo", worldInfo), Var("chatHistory", history)]
  }

  predicate HasContent(m: PromptMessage) { m.content != "" }

  /** The four prompts of a generate task with their variables replaced,
      those that come out empty dropped: at most four non-empty messages, in
      the order user, assistant, user, assistant. */
  function TaskMessages(t: Task, vars: seq<Var>): (r: seq<PromptMessage>)
    ensures |r| <= 4
    ensures forall i :: 0 <= i < |r| ==> r[i].content != ""
    ensures forall i :: 0 <= i < 4 && FourMessages(t, vars)[i].content != "" ==> FourMessages(t, vars)[i] in r
    ensures Embeds(r, FourMessages(t, vars))
  {
    FilterEmbeds(FourMessages(t, vars), HasContent);
    Filter(FourMessages(t, vars), HasContent)
  }

  function FourMessages(t: Task, vars: seq<Var>): seq<PromptMessage>
  {
    [PromptMessage("user", Substitute(t.promptU1, vars)),
     PromptMessage("assistant", Substitute(t.promptA1, vars)),
     PromptMessage("user", Substitute(t.promptU2, vars)),
     PromptMessage("assistant", Substitute(t.promptA2, vars))]
  }

  /** Every one of the four prompts comes out empty once its variables are replaced. */
  predicate AllPromptsEmpty(t: Task, vars: seq<Var>) {
    Substitute(t.promptU1, vars) == "" && Substitute(t.promptA1, vars) == ""
    && Substitute(t.promptU2, vars) == "" && Substitute(t.promptA2, vars) == ""
  }

  /** There is nothing to send exactly when all four prompts come out empty. */
  lemma NoMessagesIffAllEmpty(t: Task, vars: seq<Var>)
    ensures TaskMessages(t, vars) == [] <==> AllPromptsEmpty(t, vars)
  {
    var four := FourMessages(t, vars);
    if TaskMessages(t, vars) == [] {
      forall i | 0 <= i < 4 ensures four[i].content == "" {
        assert four[i] !in TaskMessages(t, vars);
      }
      assert four[0].content == "" && four[1].content == "" && four[2].content == "" && four[3].content == "";
    } else {
      var m := TaskMessages(t, vars)[0];
      assert m in four && m.content != "";
    }
  }

  datatype RunOutcome = NoSuchTask | ParallelNotRunnable | EmptyPrompts | Request(messages: seq<PromptMessage>)

  /** `runTask(index)` up to the model call: the request it sends, or why it
      sends none. */
  function RunTask(tasks: seq<Task>, index: int, h: Host, s: RunSettings, worldInfo: string,
                   getChatHistory: int -> string, f: TagFilters): (r: RunOutcome)
    ensures r == NoSuchTask <==> !(0 <= index < |tasks|)
    ensures r == ParallelNotRunnable <==> 0 <= index < |tasks| && tasks[index].kind == "parallel"
    ensures r.Request? ==> 0 <= index < |tasks| && tasks[index].kind != "parallel"
                           && 1 <= |r.messages| <= 4 && forall i :: 0 <= i < |r.messages| ==> r.messages[i].content != ""
    ensures r.Request? ==>
              r.messages == TaskMessages(tasks[index], TaskVars(h, worldInfo, TaskHistory(tasks[index], h, s, getChatHistory, f)))
    ensures r == EmptyPrompts <==>
              0 <= index < |tasks| && tasks[index].kind != "parallel"
              && AllPromptsEmpty(tasks[index], TaskVars(h, worldInfo, TaskHistory(tasks[index], h, s, getChatHistory, f)))
  {
    if !(0 <= index < |tasks|) then NoSuchTask
    else if tasks[index].kind == "parallel" then ParallelNotRunnable
    else
      var t := tasks[index];
      var vars := TaskVars(h, worldInfo, TaskHistory(t, h, s, getChatHistory, f));
      var msgs := TaskMessages(t, vars);
      NoMessagesIffAllEmpty(t, vars);
      if msgs == [] then EmptyPrompts else Request(msgs)
  }

  // ---------------------------------------------------------------------
  // Injection of parallel tasks

  /** The variables of an injected prompt, in replacement order; the
      message count is the length of the stored chat. */
  function InjectionVars(h: Host, worldInfo: string): seq<Var> {
    [Var("user", UserName(h)), Var("char", CharName(h)), Var("description", Description(h)),
     Var("persona", h.personaDescription), Var("worldInfo", worldInfo),
     Var("lastMessage", LastMessage(h)), Var("messageCount", NatToString(|h.chat|))]
  }

  predicate EnabledParallel(t: Task) {
    t.kind == "parallel" && t.enabled
  }

  /** A positive interval lets a task inject only on message counts it divides. */
  predicate Due(t: Task, messageCount: nat) {
    t.interval <= 0 || messageCount % t.interval == 0
  }

  /** A task injects when it is due and its prompt is not blank after
      replacement. */
  predicate Fires(t: Task, vars: seq<Var>, messageCount: nat)
  {
    Due(t, messageCount) && !IsBlank(Substitute(t.prompt, vars))
  }

  function PositionOf(t: Task): string { if t.position != "" then t.position else "chat" }
  function RoleOf(t: Task): string { if t.role != "" then t.role else "system" }
  function DepthOf(t: Task): int { if t.depth.Some? then t.depth.value else 4 }

  /** The number of system messages at the start of the prompt. */
  function LeadingSystem(chat: seq<PromptMessage>): (n: nat)
    ensures n <= |chat|
    ensures forall k :: 0 <= k < n ==> chat[k].role == "system"
    ensures n < |chat| ==> chat[n].role != "system"
  {
    if chat == [] || chat[0].role != "system" then 0
    else 1 + LeadingSystem(chat[1..])
  }

  /** Where a task's message goes: first for "before"; after the leading
      system messages for "after"; otherwise `depth` messages from the end,
      or first when the prompt is shorter, and last for a depth of zero or
      less. */
  function InsertPosition(chat: seq<PromptMessage>, t: Task): (i: nat)
    ensures i <= |chat|
    ensures PositionOf(t) == "before" ==> i == 0
    ensures PositionOf(t) == "after" ==>
      (forall k :: 0 <= k < i ==> chat[k].role == "system") && (i < |chat| ==> chat[i].role != "system")
    ensures PositionOf(t) != "before" && PositionOf(t) != "after" ==>
      |chat| - i == (if DepthOf(t) <= 0 then 0 else Min(DepthOf(t), |chat|))
  {
    if PositionOf(t) == "before" then 0
    else if PositionOf(t) == "after" then LeadingSystem(chat)
    else if DepthOf(t) == 0 then |chat|
    else Min(Max(0, |chat| - DepthOf(t)), |chat|)
  }

  /** One task's step of the injection. */
  function InjectOne(chat: seq<PromptMessage>, t: Task, vars: seq<Var>, messageCount: nat): (r: seq<PromptMessage>)
    ensures !Fires(t, vars, messageCount) ==> r == chat
    ensures Fires(t, vars, messageCount) ==>
      r == Insert(chat, InsertPosition(chat, t), PromptMessage(RoleOf(t), Substitute(t.prompt, vars)))
  {
    if !Fires(t, vars, messageCount) then chat
    else Insert(chat, InsertPosition(chat, t), PromptMessage(RoleOf(t), Substitute(t.prompt, vars)))
  }

  /** The tasks' steps in list order. */
  function InjectAll(chat: seq<PromptMessage>, tasks: seq<Task>, vars: seq<Var>, messageCount: nat): (r: seq<PromptMessage>)
    ensures |r| >= |chat|
    ensures (forall k :: 0 <= k < |tasks| ==> !Fires(tasks[k], vars, messageCount)) ==> r == chat
  {
    if tasks == [] then chat
    else InjectOne(InjectAll(chat, tasks[..|tasks| - 1], vars, messageCount), tasks[|tasks| - 1], vars, messageCount)
  }

  /** `onChatCompletionPromptReady`: nothing happens when the plugin is
      disabled, when no parallel task is enabled, or on a dry run. */
  function Injected(enabled: bool, tasks: seq<Task>, dryRun: bool, chat: seq<PromptMessage>, h: Host, worldInfo: string): (r: seq<PromptMessage>)
    ensures !enabled || dryRun || Filter(tasks, EnabledParallel) == [] ==> r == chat
  {
    if !enabled || Filter(tasks, EnabledParallel) == [] || dryRun then chat
    else InjectAll(chat, Filter(tasks, EnabledParallel), InjectionVars(h, worldInfo), |h.chat|)
  }

  /** Each firing task adds exactly one message and every message already
      in the prompt stays, in its order. */
  lemma InjectAllGrows(chat: seq<PromptMessage>, tasks: seq<Task>, vars: seq<Var>, messageCount: nat)
    ensures |InjectAll(chat, tasks, vars, messageCount)| == |chat| + |Filter(tasks, t => Fires(t, vars, messageCount))|
    ensures Embeds(chat, InjectAll(chat, tasks, vars, messageCount))
  {
    InjectAllLength(chat, tasks, vars, messageCount);
    InjectAllEmbeds(chat, tasks, vars, messageCount);
  }

  lemma {:induction false} InjectAllLength(chat: seq<PromptMessage>, tasks: seq<Task>, vars: seq<Var>, messageCount: nat)
    ensures |InjectAll(chat, tasks, vars, messageCount)| == |chat| + |Filter(tasks, t => Fires(t, vars, messageCount))|
  {
    if tasks != [] {
      var n := |tasks| - 1;
      InjectAllLength(chat, tasks[..n], vars, messageCount);
    }
  }

  lemma {:induction false} InjectAllEmbeds(chat: seq<PromptMessage>, tasks: seq<Task>, vars: seq<Var>, messageCount: nat)
    ensures Embeds(chat, InjectAll(chat, tasks, vars, messageCount))
  {
    if tasks == [] {
      EmbedsReflexive(chat);
    } else {
      var n := |tasks| - 1;
      var before := InjectAll(chat, tasks[..n], vars, messageCount);
      InjectAllEmbeds(chat, tasks[..n], vars, messageCount);
      var t := tasks[n];
      if Fires(t, vars, messageCount) {
        var m := PromptMessage(RoleOf(t), Substitute(t.prompt, vars));
        InsertEmbeds(before, InsertPosition(before, t), m);
        EmbedsTransitive(chat, before, InjectOne(before, t, vars, messageCount));
      }
    }
  }

  /** The whole handler: when it acts, the prompt grows by one message per
      enabled parallel task that fires, and every message it had stays, in
      its order. */
  lemma InjectionKeepsPrompt(enabled: bool, tasks: seq<Task>, dryRun: bool, chat: seq<PromptMessage>, h: Host, worldInfo: string)
    ensures var r := Injected(enabled, tasks, dryRun, chat, h, worldInfo);
            var vars := InjectionVars(h, worldInfo);
            && Embeds(chat, r)
            && (enabled && !dryRun ==>
                  |r| == |chat| + |Filter(Filter(tasks, EnabledParallel), t => Fires(t, vars, |h.chat|))|)
  {
    var parallel := Filter(tasks, EnabledParallel);
    var vars := InjectionVars(h, worldInfo);
    if !enabled || parallel == [] || dryRun {
      EmbedsReflexive(chat);
    } else {
      InjectAllGrows(chat, parallel, vars, |h.chat|);
    }
  }

  /** The prompt being sent; `chat` is updated in place. */
  class PromptEvent {
    var chat: seq<PromptMessage>
    var dryRun: bool

    constructor(chat: seq<PromptMessage>, dryRun: bool)
      ensures this.chat == chat && this.dryRun == dryRun
    {
      this.chat := chat;
      this.dryRun := dryRun;
    }
  }

  /** The index after the leading system messages, found by the scan of the
      "after" case. */
  method AfterSystemMessages(chat: seq<PromptMessage>) returns (insertIndex: nat)
    ensures insertIndex == LeadingSystem(chat)
  {
    insertIndex := 0;
    var i := 0;
    while i < |chat|
      invariant 0 <= i <= |chat| && insertIndex == i
      invariant forall k :: 0 <= k < i ==> chat[k].role == "system"
    {
      if chat[i].role != "system" {
        insertIndex := i;
        break;
      }
      insertIndex := i + 1;
      i := i + 1;
    }
  }

  /** The handler itself, given the settings, the host context and the
      world-info text the host returns. */
  method OnChatCompletionPromptReady(event: PromptEvent, enabled: bool, tasks: seq<Task>, h: Host, worldInfo: string)
    modifies event
    ensures event.dryRun == old(event.dryRun)
    ensures event.chat == Injected(enabled, tasks, old(event.dryRun), old(event.chat), h, worldInfo)
  {
    if !enabled {
      return;
    }
    var parallel := Filter(tasks, EnabledParallel);
    if parallel == [] {
      return;
    }
    if event.dryRun {
      return;
    }
    var messageCount := |h.chat|;
    var vars := InjectionVars(h, worldInfo);
    var i := 0;
    while i < |parallel|
      invariant 0 <= i <= |parallel|
      invariant event.dryRun == old(event.dryRun)
      invariant event.chat == InjectAll(old(event.chat), parallel[..i], vars, messageCount)
    {
      assert parallel[..i + 1][..i] == parallel[..i];
      InjectTask(event, parallel[i], vars, messageCount);
      i := i + 1;
    }
    assert parallel[..i] == parallel;
  }

  /** The body of the handler's loop for one task. */
  method InjectTask(event: PromptEvent, t: Task, vars: seq<Var>, messageCount: nat)
    modifies event
    ensures event.dryRun == old(event.dryRun)
    ensures event.chat == InjectOne(old(event.chat), t, vars, messageCount)
  {
    var chat := InjectInto(event.chat, t, vars, messageCount);
    event.chat := chat;
  }

  /** What the loop body does to the prompt: nothing when the task is not due
      or its prompt is blank after replacement, otherwise one message placed. */
  method InjectInto(chat: seq<PromptMessage>, t: Task, vars: seq<Var>, messageCount: nat)
    returns (r: seq<PromptMessage>)
    ensures r == InjectOne(chat, t, vars, messageCount)
  {
    if t.interval > 0 {
      if messageCount % t.interval != 0 {
        return chat;
      }
    }
    var prompt := Substitute(t.prompt, vars);
    if IsBlank(prompt) {
      return chat;
    }
    r := Place(chat, t, PromptMessage(RoleOf(t), prompt));
  }

  /** The three placements of the loop: `unshift` for "before", a `splice`
      after the leading system messages for "after", and otherwise `push` for
      a depth of zero and a `splice` `depth` messages from the end. */
  method Place(chat: seq<PromptMessage>, t: Task, message: PromptMessage) returns (r: seq<PromptMessage>)
    ensures r == Insert(chat, InsertPosition(chat, t), message)
  {
    var position := PositionOf(t);
    if position == "before" {
      r := [message] + chat;
      InsertFront(chat, message);
    } else if position == "after" {
      var insertIndex := AfterSystemMessages(chat);
      r := Insert(chat, insertIndex, message);
    } else {
      var depth := DepthOf(t);
      if depth == 0 {
        r := chat + [message];
        InsertBack(chat, message);
      } else {
        var spliceIndex := Max(0, |chat| - depth);
        r := Insert(chat, Min(spliceIndex, |chat|), message);
      }
    }
  }
}

=== FILE: json_extract.dfy ===
/**
 * The extractor `extractJson` of index.js: it accepts either an already
 * parsed value (possibly a chat-completion envelope) or a piece of model
 * output, and recovers the first JSON object (or array) it can find.
 *
 * `JSON.parse` is a parameter `parse`: `None` stands for a parse that throws,
 * which `tryParse` turns into `null`.
 */
module JsonExtract {
  import opened Text
  import opened JsonValue
  import opened JsonRepair

  // ---------------------------------------------------------------------
  // Normalisation of the text (index.js:84-87)

  /** The characters the control-character pass deletes: C0 controls other than
      tab, line feed and carriage return, and DEL. */
  predicate IsControl(c: char) {
    c <= '\U{0008}' || c == '\U{000B}' || c == '\U{000C}'
    || ('\U{000E}' <= c <= '\U{001F}') || c == '\U{007F}'
  }

  predicate NoControl(s: string) {
    forall i :: 0 <= i < |s| ==> !IsControl(s[i])
  }

  /** `.replace(/^﻿/, '')` */
  function StripLeadingBom(s: string): string {
    if s != [] && s[0] == '\U{FEFF}' then s[1..] else s
  }

  /** `.replace(/[\x00-\x08\x0B\x0C\x0E-\x1F\x7F]/g, '')` */
  function StripControl(s: string): (r: string)
    ensures NoControl(r) && |r| <= |s|
    ensures NoControl(s) ==> r == s
    ensures forall c :: c in r <==> c in s && !IsControl(c)
  {
    if s == [] then []
    else if IsControl(s[0]) then StripControl(s[1..])
    else [s[0]] + StripControl(s[1..])
  }

  /** `.replace(/\r\n?/g, '\n')`: every CR LF pair and every lone CR becomes LF. */
  function CrlfToLf(s: string): (r: string)
    ensures '\r' !in r && |r| <= |s|
    ensures '\r' !in s ==> r == s
    ensures forall c :: c in r && c != '\n' ==> c in s
  {
    if s == [] then []
    else if s[0] == '\r' then ['\n'] + CrlfToLf(if |s| > 1 && s[1] == '\n' then s[2..] else s[1..])
    else [s[0]] + CrlfToLf(s[1..])
  }

  /** The normalised text the extractor works on. */
  function Normalize(text: string): (r: string)
    ensures NoControl(r) && '\r' !in r
  {
    CrlfToLf(StripControl(StripLeadingBom(Trim(text))))
  }

  /** The byte-order-mark pass never fires: `trim` already removed U+FEFF,
      which ECMAScript counts as white space. */
  lemma BomAlreadyTrimmed(text: string)
    ensures StripLeadingBom(Trim(text)) == Trim(text)
  {
    var t := Trim(text);
    if t != [] {
      assert IsSpace('\U{FEFF}');
    }
  }

  /** Text that is clean already (trimmed, no control characters, no carriage
      returns) is left alone by the normalisation. */
  lemma NormalizeKeepsCleanText(text: string)
    requires text == [] || (!IsSpace(text[0]) && !IsSpace(text[|text| - 1]))
    requires NoControl(text) && '\r' !in text
    ensures Normalize(text) == text
  {
    assert TrimStart(text) == text;
    assert TrimEnd(text) == text;
    BomAlreadyTrimmed(text);
  }

  /** Only white space, and the text yields nothing. */
  lemma BlankTextNormalizesToEmpty(text: string)
    requires AllSpace(text)
    ensures Normalize(text) == []
  {
  }

  // ---------------------------------------------------------------------
  // Candidate scanning (index.js:98-119)

  /** A balanced chunk: where it starts and ends in the text, and the chunk. */
  datatype Candidate = Candidate(start: nat, end: nat, text: string)

  function Opener(isArray: bool): char {
    if isArray then '[' else '{'
  }

  /** The nesting depth, outside strings, once `str[i..j]` has been read. */
  function Depth(str: string, i: nat, j: nat): int
    requires i <= j < |str|
  {
    Net(str[i..j + 1], Nesting)
  }

  /** The first `j >= from` at which the nesting depth of the structure opened
      at `i` returns to zero. */
  function CloseFrom(str: string, i: nat, from: nat): (r: Option<nat>)
    requires i <= from <= |str|
    ensures r.Some? ==> from <= r.value < |str| && Depth(str, i, r.value) == 0
    ensures forall j :: from <= j < |str| && (r.None? || j < r.value) ==> Depth(str, i, j) != 0
    decreases |str| - from
  {
    if from == |str| then None
    else if Depth(str, i, from) == 0 then Some(from)
    else CloseFrom(str, i, from + 1)
  }

  /** Where the structure opened at `i` closes, if it does. */
  function Close(str: string, i: nat): Option<nat>
    requires i <= |str|
  {
    CloseFrom(str, i, i)
  }

  /** The candidates from index `i` on: each opener that closes yields the chunk
      up to its closer, and the scan resumes after the closer; an opener that
      never closes is passed over. */
  function CandidatesFrom(str: string, open: char, i: nat): (r: seq<Candidate>)
    requires i <= |str|
    ensures forall k :: 0 <= k < |r| ==> i <= r[k].start <= r[k].end < |str|
    ensures forall k :: 0 <= k < |r| - 1 ==> r[k].end < r[k + 1].start
    decreases |str| - i
  {
    if i == |str| then []
    else if str[i] != open then CandidatesFrom(str, open, i + 1)
    else
      match Close(str, i)
      case None => CandidatesFrom(str, open, i + 1)
      case Some(j) => [Candidate(i, j, str[i..j + 1])] + CandidatesFrom(str, open, j + 1)
  }

  /** The candidates of the whole text: balanced chunks, each from an opener
      to the first point where the nesting depth returns to zero, in text
      order and without overlap; a text without an opener has none. */
  function Candidates(str: string, open: char): (r: seq<Candidate>)
    ensures AllWellFormed(str, open, r)
    ensures forall k :: 0 <= k < |r| - 1 ==> r[k].end < r[k + 1].start
    ensures open !in str ==> r == []
  {
    CandidatesWellFormed(str, open, 0);
    OpenerInText(str, open, CandidatesFrom(str, open, 0));
    CandidatesFrom(str, open, 0)
  }

  lemma OpenerInText(str: string, open: char, cs: seq<Candidate>)
    requires AllWellFormed(str, open, cs)
    ensures cs != [] ==> open in str
  {
    if cs != [] {
      assert WellFormed(str, open, cs[0]);
      assert str[cs[0].start] in str;
    }
  }

  /** A candidate is the chunk from an opener to the first point where the
      nesting depth returns to zero. */
  ghost predicate WellFormed(str: string, open: char, c: Candidate) {
    c.start <= c.end < |str| && str[c.start] == open && c.text == str[c.start..c.end + 1]
    && Net(c.text, Nesting) == 0
    && forall j :: c.start <= j < c.end ==> Depth(str, c.start, j) != 0
  }

  /** Every candidate is a balanced chunk that starts at an opener. */
  lemma {:induction false} CandidatesWellFormed(str: string, open: char, i: nat)
    requires i <= |str|
    ensures AllWellFormed(str, open, CandidatesFrom(str, open, i))
    decreases |str| - i
  {
    if i < |str| {
      if str[i] != open || Close(str, i).None? {
        CandidatesSkip(str, open, i);
        CandidatesWellFormed(str, open, i + 1);
      } else {
        var j := Close(str, i).value;
        ScanHead(str, open, i, j);
        CandidatesWellFormed(str, open, j + 1);
        ConsWellFormed(str, open, Candidate(i, j, str[i..j + 1]), CandidatesFrom(str, open, j + 1));
      }
    }
  }

  ghost predicate AllWellFormed(str: string, open: char, cs: seq<Candidate>) {
    forall c :: c in cs ==> WellFormed(str, open, c)
  }

  lemma ConsWellFormed(str: string, open: char, c: Candidate, cs: seq<Candidate>)
    requires WellFormed(str, open, c) && AllWellFormed(str, open, cs)
    ensures AllWellFormed(str, open, [c] + cs)
  {
  }

  /** An opener that closes at `j` yields a well-formed chunk, and the scan
      resumes after `j`. */
  lemma ScanHead(str: string, open: char, i: nat, j: nat)
    requires i < |str| && str[i] == open && Close(str, i) == Some(j)
    ensures CandidatesFrom(str, open, i) == [Candidate(i, j, str[i..j + 1])] + CandidatesFrom(str, open, j + 1)
    ensures WellFormed(str, open, Candidate(i, j, str[i..j + 1]))
  {
    assert Net(str[i..j + 1], Nesting) == Depth(str, i, j);
  }

  predicate Covers(c: Candidate, i: nat) {
    c.start <= i <= c.end
  }

  /** No opener is missed: an opener that lies in no candidate never closes. */
  lemma {:induction false} UncoveredOpenersNeverClose(str: string, open: char, p: nat, i: nat)
    requires p <= i < |str| && str[i] == open
    requires NoneCovers(CandidatesFrom(str, open, p), i)
    ensures Close(str, i).None?
    decreases |str| - p
  {
    var next := UncoveredStep(str, open, p, i);
    if next <= i {
      UncoveredOpenersNeverClose(str, open, next, i);
    }
  }

  /** One step of the scan from `p`: either `p` is the uncovered opener, which
      then never closes, or the scan moves on to `next` without passing it. */
  lemma UncoveredStep(str: string, open: char, p: nat, i: nat) returns (next: nat)
    requires p <= i < |str| && str[i] == open
    requires NoneCovers(CandidatesFrom(str, open, p), i)
    ensures p < next
    ensures next <= i ==> NoneCovers(CandidatesFrom(str, open, next), i)
    ensures next > i ==> Close(str, i).None?
  {
    var close := Close(str, p);
    if str[p] != open || close.None? {
      UncoveredSkip(str, open, p, i);
      next := p + 1;
    } else {
      UncoveredPastHead(str, open, p, close.value, i);
      next := close.value + 1;
    }
  }

  /** A position that yields no candidate is not the uncovered opener's, or
      that opener never closes. */
  lemma UncoveredSkip(str: string, open: char, p: nat, i: nat)
    requires p <= i < |str| && str[i] == open && (str[p] != open || Close(str, p).None?)
    requires NoneCovers(CandidatesFrom(str, open, p), i)
    ensures p == i ==> Close(str, i).None?
    ensures p < i ==> NoneCovers(CandidatesFrom(str, open, p + 1), i)
  {
    CandidatesSkip(str, open, p);
  }

  /** A position no candidate covers lies past the first candidate. */
  lemma UncoveredPastHead(str: string, open: char, p: nat, j: nat, i: nat)
    requires p <= i < |str| && str[p] == open && Close(str, p) == Some(j)
    requires NoneCovers(CandidatesFrom(str, open, p), i)
    ensures j < i && NoneCovers(CandidatesFrom(str, open, j + 1), i)
  {
    ScanHead(str, open, p, j);
    NoneCoversCons(Candidate(p, j, str[p..j + 1]), CandidatesFrom(str, open, j + 1), i);
  }

  predicate NoneCovers(cs: seq<Candidate>, i: nat) {
    forall c :: c in cs ==> !Covers(c, i)
  }

  lemma NoneCoversCons(c: Candidate, cs: seq<Candidate>, i: nat)
    requires NoneCovers([c] + cs, i)
    ensures !Covers(c, i) && NoneCovers(cs, i)
  {
    assert c in [c] + cs;
    forall x | x in cs ensures !Covers(x, i) {
      assert x in [c] + cs;
    }
  }

  // ---------------------------------------------------------------------
  // Ordering the candidates (index.js:122)

  /** Insert `c` after every candidate at least as long: the stable placement.
      Lengths are JavaScript's, in UTF-16 code units. */
  function InsertByLength(c: Candidate, s: seq<Candidate>): (r: seq<Candidate>)
    ensures multiset(r) == multiset(s) + multiset{c}
    ensures forall x :: x in r <==> x == c || x in s
  {
    if s == [] then [c]
    else if Utf16Length(s[0].text) < Utf16Length(c.text) then [c] + s
    else
      assert s == [s[0]] + s[1..];
      [s[0]] + InsertByLength(c, s[1..])
  }

  /** `candidates.sort((a, b) => b.text.length - a.text.length)`, a stable sort. */
  function SortByLength(cs: seq<Candidate>): (r: seq<Candidate>)
    ensures multiset(r) == multiset(cs)
    decreases |cs|
  {
    if cs == [] then []
    else
      assert cs == cs[..|cs| - 1] + [cs[|cs| - 1]];
      InsertByLength(cs[|cs| - 1], SortByLength(cs[..|cs| - 1]))
  }

  /** `x` sorts before `y`: longer, or as long and found earlier. */
  predicate Before(x: Candidate, y: Candidate) {
    Utf16Length(x.text) > Utf16Length(y.text) || (Utf16Length(x.text) == Utf16Length(y.text) && x.start < y.start)
  }

  /** Longest first; chunks of equal length in the order they occur. */
  predicate LongestFirst(s: seq<Candidate>) {
    forall a, b :: 0 <= a < b < |s| ==> Before(s[a], s[b])
  }

  predicate StartsIncrease(s: seq<Candidate>) {
    forall k :: 0 <= k < |s| - 1 ==> s[k].start < s[k + 1].start
  }

  lemma {:induction false} InsertKeepsOrder(c: Candidate, s: seq<Candidate>)
    requires LongestFirst(s)
    requires forall x :: x in s ==> x.start < c.start
    ensures LongestFirst(InsertByLength(c, s))
    decreases |s|
  {
    if s == [] {
      assert InsertByLength(c, s) == [c];
    } else if Utf16Length(s[0].text) < Utf16Length(c.text) {
      InsertInFront(c, s);
    } else {
      var tail := s[1..];
      assert forall x :: x in tail ==> x in s;
      assert LongestFirst(tail) by {
        forall a, b | 0 <= a < b < |tail| ensures Before(tail[a], tail[b]) {
          assert tail[a] == s[a + 1] && tail[b] == s[b + 1];
        }
      }
      InsertKeepsOrder(c, tail);
      InsertBehind(c, s);
    }
  }

  /** A candidate longer than the first one goes in front. */
  lemma InsertInFront(c: Candidate, s: seq<Candidate>)
    requires LongestFirst(s) && s != [] && Utf16Length(s[0].text) < Utf16Length(c.text)
    ensures LongestFirst(InsertByLength(c, s))
  {
    var r := InsertByLength(c, s);
    assert r == [c] + s;
    forall a, b | 0 <= a < b < |r| ensures Before(r[a], r[b]) {
      assert r[b] == s[b - 1];
      if a == 0 {
        assert b - 1 == 0 || Before(s[0], s[b - 1]);
      } else {
        assert r[a] == s[a - 1];
      }
    }
  }

  /** A candidate no longer than the first one goes behind it, into the rest. */
  lemma InsertBehind(c: Candidate, s: seq<Candidate>)
    requires LongestFirst(s) && s != [] && Utf16Length(s[0].text) >= Utf16Length(c.text)
    requires forall x :: x in s ==> x.start < c.start
    requires LongestFirst(InsertByLength(c, s[1..]))
    ensures LongestFirst(InsertByLength(c, s))
  {
    var t := InsertByLength(c, s[1..]);
    assert InsertByLength(c, s) == [s[0]] + t;
    HeadBeforeRest(c, s);
    ConsOrdered(s[0], t);
  }

  lemma ConsOrdered(h: Candidate, t: seq<Candidate>)
    requires LongestFirst(t) && forall y :: y in t ==> Before(h, y)
    ensures LongestFirst([h] + t)
  {
    var r := [h] + t;
    forall a, b | 0 <= a < b < |r| ensures Before(r[a], r[b]) {
      assert r[b] == t[b - 1] && t[b - 1] in t;
      if a > 0 {
        assert r[a] == t[a - 1];
      }
    }
  }

  lemma HeadBeforeRest(c: Candidate, s: seq<Candidate>)
    requires LongestFirst(s) && s != [] && Utf16Length(s[0].text) >= Utf16Length(c.text)
    requires forall x :: x in s ==> x.start < c.start
    ensures forall y :: y in InsertByLength(c, s[1..]) ==> Before(s[0], y)
  {
    forall y | y in InsertByLength(c, s[1..]) ensures Before(s[0], y) {
      if y != c {
        var k :| 0 <= k < |s[1..]| && s[1..][k] == y;
        assert s[k + 1] == y;
      }
    }
  }

  /** Sorting candidates found left to right gives them longest first, and
      among equal lengths in the order they were found (the sort is stable). */
  lemma {:induction false} SortOrdersCandidates(cs: seq<Candidate>)
    requires StartsIncrease(cs)
    ensures LongestFirst(SortByLength(cs))
    decreases |cs|
  {
    if cs != [] {
      var init := cs[..|cs| - 1];
      var last := cs[|cs| - 1];
      assert StartsIncrease(init);
      SortOrdersCandidates(init);
      StartsBelowLast(cs);
      forall x | x in SortByLength(init) ensures x.start < last.start {
        assert x in multiset(SortByLength(init));
        assert x in multiset(init);
      }
      InsertKeepsOrder(last, SortByLength(init));
    }
  }

  lemma {:induction false} StartsBelowLast(cs: seq<Candidate>)
    requires cs != [] && StartsIncrease(cs)
    ensures forall x :: x in cs[..|cs| - 1] ==> x.start < cs[|cs| - 1].start
    decreases |cs|
  {
    if |cs| > 1 {
      var init := cs[..|cs| - 1];
      StartsBelowLast(init);
      assert init[..|init| - 1] == cs[..|cs| - 2];
      forall x | x in init ensures x.start < cs[|cs| - 1].start {
        if x != init[|init| - 1] {
          assert x in init[..|init| - 1];
        }
      }
    }
  }

  /** The candidates of a text come out of the scan in increasing position. */
  lemma CandidateStartsIncrease(str: string, open: char)
    ensures StartsIncrease(Candidates(str, open))
  {
    var cs := Candidates(str, open);
    forall k | 0 <= k < |cs| - 1 ensures cs[k].start < cs[k + 1].start {
      assert cs[k].start <= cs[k].end;
    }
  }

  // ---------------------------------------------------------------------
  // Trying the candidates (index.js:125-132) and the last resort (index.js:135-143)

  /** What one candidate yields: the chunk as it is when that parses to the
      wanted shape, otherwise the repaired chunk. */
  function Attempt(text: string, parse: string -> Option<Json>, isArray: bool): Option<Json> {
    if HasShape(parse(text), isArray) then parse(text) else parse(Repaired(text))
  }

  predicate Succeeds(text: string, parse: string -> Option<Json>, isArray: bool) {
    HasShape(parse(text), isArray) || HasShape(parse(Repaired(text)), isArray)
  }

  /** The first candidate that succeeds, raw before repaired. */
  function FirstSuccess(cs: seq<Candidate>, isArray: bool, parse: string -> Option<Json>): (r: Option<Json>)
    ensures r.Some? ==> HasShape(r, isArray)
  {
    if cs == [] then None
    else if Succeeds(cs[0].text, parse, isArray) then Attempt(cs[0].text, parse, isArray)
    else FirstSuccess(cs[1..], isArray, parse)
  }

  /** The result comes from the first candidate that succeeds; there is a
      result exactly when some candidate succeeds. */
  lemma {:induction false} FirstSuccessIsFirst(cs: seq<Candidate>, isArray: bool, parse: string -> Option<Json>)
    ensures FirstSuccess(cs, isArray, parse).Some? <==> exists k :: 0 <= k < |cs| && Succeeds(cs[k].text, parse, isArray)
    ensures FirstSuccess(cs, isArray, parse).Some? ==>
      exists k :: 0 <= k < |cs| && Succeeds(cs[k].text, parse, isArray)
        && FirstSuccess(cs, isArray, parse) == Attempt(cs[k].text, parse, isArray)
        && forall k' :: 0 <= k' < k ==> !Succeeds(cs[k'].text, parse, isArray)
  {
    if cs == [] {
    } else if Succeeds(cs[0].text, parse, isArray) {
      assert FirstSuccess(cs, isArray, parse) == Attempt(cs[0].text, parse, isArray);
    } else {
      var tail := cs[1..];
      FirstSuccessIsFirst(tail, isArray, parse);
      assert FirstSuccess(cs, isArray, parse) == FirstSuccess(tail, isArray, parse);
      if FirstSuccess(cs, isArray, parse).Some? {
        var k :| 0 <= k < |tail| && Succeeds(tail[k].text, parse, isArray)
          && FirstSuccess(tail, isArray, parse) == Attempt(tail[k].text, parse, isArray)
          && forall k' :: 0 <= k' < k ==> !Succeeds(tail[k'].text, parse, isArray);
        assert cs[k + 1] == tail[k];
        forall k' | 0 <= k' < k + 1 ensures !Succeeds(cs[k'].text, parse, isArray) {
          if k' > 0 { assert cs[k'] == tail[k' - 1]; }
        }
        assert Succeeds(cs[k + 1].text, parse, isArray);
      } else {
        forall k | 0 <= k < |cs| ensures !Succeeds(cs[k].text, parse, isArray) {
          if k > 0 { assert cs[k] == tail[k - 1]; }
        }
      }
    }
  }

  /** Because the candidates are tried longest first, a result never comes from
      a chunk when a strictly longer chunk would have succeeded. */
  lemma LongerCandidatesFail(cs: seq<Candidate>, isArray: bool, parse: string -> Option<Json>, k: nat)
    requires LongestFirst(cs)
    requires k < |cs| && Succeeds(cs[k].text, parse, isArray)
    requires forall k' :: 0 <= k' < k ==> !Succeeds(cs[k'].text, parse, isArray)
    ensures forall x :: x in cs && Utf16Length(x.text) > Utf16Length(cs[k].text) ==> !Succeeds(x.text, parse, isArray)
  {
    forall x | x in cs && Utf16Length(x.text) > Utf16Length(cs[k].text) ensures !Succeeds(x.text, parse, isArray) {
      var a :| 0 <= a < |cs| && cs[a] == x;
      assert a < k;
    }
  }

  /** The last resort for objects: the text from the first `{` to the last `}`,
      raw if it parses to anything truthy, otherwise repaired. */
  function Fallback(str: string, parse: string -> Option<Json>): (r: Option<Json>)
    ensures r.Some? ==> HasShape(r, false)
    ensures r.Some? ==> exists f, l :: 0 <= f < l < |str| && str[f] == '{' && str[l] == '}'
                                        && '{' !in str[..f] && '}' !in str[l + 1..]
  {
    match (IndexOf(str, '{'), LastIndexOf(str, '}'))
    case (Some(f), Some(l)) =>
      if l > f then
        FallbackChunk(str[f..l + 1], parse)
      else None
    case _ => None
  }

  /** The chunk parsed raw if that gives anything truthy, otherwise repaired;
      kept only when it is an object. */
  function FallbackChunk(chunk: string, parse: string -> Option<Json>): (r: Option<Json>)
    ensures r.Some? ==> HasShape(r, false)
  {
    var raw := parse(chunk);
    var r := if Truthy(raw) then raw else parse(Repaired(chunk));
    if HasShape(r, false) then r else None
  }

  // ---------------------------------------------------------------------
  // The extractor

  /** `input.choices?.[0]?.message?.content ?? input.content ?? input.reasoning_content` */
  function EnvelopeContent(input: Option<Json>): (r: Option<Json>)
    ensures input.None? || !input.value.JObj? ==> r.None?
    ensures var choice := Prop(Prop(First(Prop(input, "choices")), "message"), "content");
            && (!Nullish(choice) ==> r == choice)
            && (Nullish(choice) && !Nullish(Prop(input, "content")) ==> r == Prop(input, "content"))
            && (Nullish(choice) && Nullish(Prop(input, "content")) ==> r == Prop(input, "reasoning_content"))
  {
    var fromChoice := Prop(Prop(First(Prop(input, "choices")), "message"), "content");
    Coalesce(Coalesce(fromChoice, Prop(input, "content")), Prop(input, "reasoning_content"))
  }

  /** What the extractor returns for a text. */
  function ExtractText(text: string, isArray: bool, parse: string -> Option<Json>): (r: Option<Json>)
    ensures r.Some? ==> HasShape(r, isArray)
  {
    var str := Normalize(text);
    if str == [] then None
    else if HasShape(parse(str), isArray) then parse(str)
    else
      var tried := FirstSuccess(SortByLength(Candidates(str, Opener(isArray))), isArray, parse);
      if tried.Some? then tried
      else if isArray then None
      else Fallback(str, parse)
  }

  /** What `extractJson(input, isArray)` returns; `None` is `null`. */
  function Extract(input: Option<Json>, isArray: bool, parse: string -> Option<Json>): (r: Option<Json>)
    ensures r.Some? ==> HasShape(r, isArray)
    ensures !Truthy(input) ==> r.None?
  {
    if !Truthy(input) then None
    else
      match input.value
      case JArr(_) => if isArray then input else None
      case JObj(_) =>
        if isArray then None
        else
          var content := EnvelopeContent(input);
          if !Nullish(content) then ExtractText(Trim(ToJsString(content.value)), isArray, parse)
          else if !Truthy(Prop(input, "choices")) then input
          else None
      case JNull => None
      case JBool(_) => ExtractText(ToJsString(input.value), isArray, parse)
      case JNum(_) => ExtractText(ToJsString(input.value), isArray, parse)
      case JStr(_) => ExtractText(ToJsString(input.value), isArray, parse)
  }

  /** Whatever the input, the result is `null` or has the wanted shape: an array
      when an array is wanted, otherwise a non-array object. */
  lemma ResultHasWantedShape(input: Option<Json>, isArray: bool, parse: string -> Option<Json>)
    ensures Extract(input, isArray, parse) == None || HasShape(Extract(input, isArray, parse), isArray)
  {
  }

  /** The inputs that give `null` without any text being parsed: an array
      when an object is wanted, an object when an array is wanted, and an
      object with a truthy `choices` whose content lookup is null or missing.
      An array is returned as it is when an array is wanted. */
  lemma ExtractNullCases(input: Option<Json>, isArray: bool, parse: string -> Option<Json>)
    requires input.Some?
    ensures input.value.JArr? ==> Extract(input, isArray, parse) == (if isArray then input else None)
    ensures input.value.JObj? && isArray ==> Extract(input, isArray, parse).None?
    ensures input.value.JObj? && Nullish(EnvelopeContent(input)) && Truthy(Prop(input, "choices")) ==>
              Extract(input, isArray, parse).None?
    ensures input.value.JObj? && Nullish(EnvelopeContent(input)) && !Truthy(Prop(input, "choices")) ==>
              Extract(input, isArray, parse) == (if isArray then None else input)
  {
  }

  /** A chat-completion envelope is unwrapped: the message content of its first
      choice is extracted as text. */
  lemma EnvelopeIsUnwrapped(content: string, isArray: bool, parse: string -> Option<Json>)
    ensures var message := JObj([Entry("content", JStr(content))]);
            var envelope := JObj([Entry("choices", JArr([JObj([Entry("message", message)])]))]);
            Extract(Some(envelope), isArray, parse) == (if isArray then None else ExtractText(Trim(content), false, parse))
  {
    var message := JObj([Entry("content", JStr(content))]);
    var choice := JObj([Entry("message", message)]);
    var input := Some(JObj([Entry("choices", JArr([choice]))]));
    assert Prop(input, "choices") == Some(JArr([choice]));
    assert First(Prop(input, "choices")) == Some(choice);
    assert Prop(Some(choice), "message") == Some(message);
    assert Prop(Some(message), "content") == Some(JStr(content));
    assert EnvelopeContent(input) == Some(JStr(content));
    assert ToJsString(JStr(content)) == content;
  }

  /** An object with no content to unwrap and no `choices` is already the result. */
  lemma PlainObjectPassesThrough(entries: seq<Entry>, parse: string -> Option<Json>)
    requires Lookup(entries, "content").None? && Lookup(entries, "reasoning_content").None?
    requires Lookup(entries, "choices").None?
    ensures Extract(Some(JObj(entries)), false, parse) == Some(JObj(entries))
  {
  }

  /** Text that is only white space yields `null`. */
  lemma BlankTextGivesNull(text: string, isArray: bool, parse: string -> Option<Json>)
    requires AllSpace(text)
    ensures ExtractText(text, isArray, parse).None?
  {
    BlankTextNormalizesToEmpty(text);
  }

  /** Text that parses as a whole to the wanted shape is taken as it is, before
      any chunk is looked at. */
  lemma WholeTextFirst(text: string, isArray: bool, parse: string -> Option<Json>)
    requires Normalize(text) != [] && HasShape(parse(Normalize(text)), isArray)
    ensures ExtractText(text, isArray, parse) == parse(Normalize(text))
  {
  }

  // ---------------------------------------------------------------------
  // The imperative extractor

  /** `extractJson` (index.js:69-146). */
  method ExtractJson(input: Option<Json>, isArray: bool, parse: string -> Option<Json>) returns (r: Option<Json>)
    ensures r == Extract(input, isArray, parse)
  {
    if !Truthy(input) {
      return None;
    }
    match input.value
    case JArr(_) =>
      r := if isArray then input else None;
    case JObj(_) =>
      if isArray {
        return None;
      }
      var content := EnvelopeContent(input);
      if !Nullish(content) {
        r := ExtractFromText(Trim(ToJsString(content.value)), isArray, parse);
      } else if !Truthy(Prop(input, "choices")) {
        r := input;
      } else {
        r := None;
      }
    case JNull =>
      r := None;
    case JBool(_) =>
      r := ExtractFromText(ToJsString(input.value), isArray, parse);
    case JNum(_) =>
      r := ExtractFromText(ToJsString(input.value), isArray, parse);
    case JStr(_) =>
      r := ExtractFromText(ToJsString(input.value), isArray, parse);
  }

  /** The text path of `extractJson` (index.js:84-145). */
  method ExtractFromText(text: string, isArray: bool, parse: string -> Option<Json>) returns (r: Option<Json>)
    ensures r == ExtractText(text, isArray, parse)
  {
    var str := Normalize(text);
    if str == [] {
      return None;
    }
    r := parse(str);
    if HasShape(r, isArray) {
      return r;
    }
    var candidates := ScanCandidates(str, Opener(isArray));
    candidates := SortByLength(candidates);
    r := TryCandidates(candidates, isArray, parse);
    if r.Some? {
      return r;
    }
    if isArray {
      return None;
    }
    r := TryFallback(str, parse);
  }

  /** The last resort of index.js:135-143. */
  method TryFallback(str: string, parse: string -> Option<Json>) returns (r: Option<Json>)
    ensures r == Fallback(str, parse)
  {
    var firstBrace := IndexOf(str, '{');
    var lastBrace := LastIndexOf(str, '}');
    if firstBrace.Some? && lastBrace.Some? && lastBrace.value > firstBrace.value {
      r := TryChunk(str[firstBrace.value..lastBrace.value + 1], parse);
    } else {
      r := None;
    }
  }

  method TryChunk(chunk: string, parse: string -> Option<Json>) returns (r: Option<Json>)
    ensures r == FallbackChunk(chunk, parse)
  {
    r := parse(chunk);
    if !Truthy(r) {
      var fixed := FixJson(chunk);
      r := parse(fixed);
    }
    if !HasShape(r, false) {
      r := None;
    }
  }

  /** The candidate scan of index.js:101-119. */
  method ScanCandidates(str: string, open: char) returns (candidates: seq<Candidate>)
    requires open == '{' || open == '['
    ensures candidates == Candidates(str, open)
  {
    ghost var all := Candidates(str, open);
    candidates := [];
    var i := 0;
    while i < |str|
      invariant 0 <= i <= |str|
      invariant candidates + CandidatesFrom(str, open, i) == all
    {
      var close := None;
      if str[i] == open {
        close := FindClose(str, i);
      }
      if str[i] == open && close.Some? {
        var j := close.value;
        ScanFound(candidates, str, open, i, j, all);
        candidates := candidates + [Candidate(i, j, str[i..j + 1])];
        i := j;
      } else {
        ScanSkip(candidates, str, open, i, all);
      }
      i := i + 1;
    }
  }

  /** An opener that closes at `j` adds its chunk, and the scan resumes after `j`. */
  lemma ScanFound(found: seq<Candidate>, str: string, open: char, i: nat, j: nat, all: seq<Candidate>)
    requires i < |str| && str[i] == open && Close(str, i) == Some(j)
    requires found + CandidatesFrom(str, open, i) == all
    ensures (found + [Candidate(i, j, str[i..j + 1])]) + CandidatesFrom(str, open, j + 1) == all
  {
    ScanHead(str, open, i, j);
  }

  /** A position that opens nothing, or nothing that closes, adds no candidate. */
  lemma CandidatesSkip(str: string, open: char, i: nat)
    requires i < |str| && (str[i] != open || Close(str, i).None?)
    ensures CandidatesFrom(str, open, i) == CandidatesFrom(str, open, i + 1)
  {
  }

  /** Any other position adds nothing. */
  lemma ScanSkip(found: seq<Candidate>, str: string, open: char, i: nat, all: seq<Candidate>)
    requires i < |str| && (str[i] != open || Close(str, i).None?)
    requires found + CandidatesFrom(str, open, i) == all
    ensures found + CandidatesFrom(str, open, i + 1) == all
  {
    CandidatesSkip(str, open, i);
  }

  /** The inner loop of index.js:104-118: from the opener at `i`, the first
      position where the nesting depth outside strings returns to zero. */
  method FindClose(str: string, i: nat) returns (close: Option<nat>)
    requires i < |str| && (str[i] == '{' || str[i] == '[')
    ensures close == Close(str, i)
  {
    var depth, inString, esc := 0, false, false;
    var j := i;
    while j < |str|
      invariant i <= j <= |str|
      invariant Lex(inString, esc) == LexAfter(str[i..j]) && depth == Net(str[i..j], Nesting)
      invariant j > i ==> depth != 0
      invariant CloseFrom(str, i, j) == Close(str, i)
    {
      var c := str[j];
      assert str[i..j + 1] == str[i..j] + [c];
      LexAppend(str[i..j], c, Nesting);
      CloseFromStep(str, i, j);
      if esc {
        esc := false;
      } else if c == '\\' && inString {
        esc := true;
      } else if c == '"' {
        inString := !inString;
      } else if !inString {
        if c == '{' || c == '[' {
          depth := depth + 1;
        } else if c == '}' || c == ']' {
          depth := depth - 1;
        }
        if depth == 0 {
          return Some(j);
        }
      }
      j := j + 1;
    }
    return None;
  }

  lemma CloseFromStep(str: string, i: nat, j: nat)
    requires i <= j < |str|
    ensures CloseFrom(str, i, j) == if Net(str[i..j + 1], Nesting) == 0 then Some(j) else CloseFrom(str, i, j + 1)
  {
  }

  /** The loop of index.js:125-132 over the sorted candidates. */
  method TryCandidates(candidates: seq<Candidate>, isArray: bool, parse: string -> Option<Json>) returns (r: Option<Json>)
    ensures r == FirstSuccess(candidates, isArray, parse)
  {
    var k := 0;
    while k < |candidates|
      invariant 0 <= k <= |candidates|
      invariant FirstSuccess(candidates[k..], isArray, parse) == FirstSuccess(candidates, isArray, parse)
    {
      var rest := candidates[k..];
      var text := candidates[k].text;
      assert rest[0].text == text && rest[1..] == candidates[k + 1..];
      r := parse(text);
      if HasShape(r, isArray) {
        assert FirstSuccess(rest, isArray, parse) == r;
        return r;
      }
      var fixed := FixJson(text);
      r := parse(fixed);
      if HasShape(r, isArray) {
        assert FirstSuccess(rest, isArray, parse) == r;
        return r;
      }
      assert FirstSuccess(rest, isArray, parse) == FirstSuccess(candidates[k + 1..], isArray, parse);
      k := k + 1;
    }
    assert candidates[k..] == [];
    return None;
  }
}

=== FILE: json_repair.dfy ===
/**
 * The repairer `fixJson` of index.js: a fixed chain of textual rewrites
 * followed by one balancing scan that appends the closers a near-miss JSON
 * text is missing.
 *
 * The scan tracks double-quoted strings the way section 7 of RFC 8259 lexes
 * them (a backslash inside a string escapes the next character); the same
 * lexer drives the candidate scanner of the extractor.
 */
module JsonRepair {
  import opened Text

  // ---------------------------------------------------------------------
  // Lexing double-quoted strings

  /** Whether the scan is inside a string, and whether the previous character
      was an escaping backslash. */
  datatype Lex = Lex(inString: bool, escaped: bool)

  const Outside := Lex(false, false)

  function LexStep(st: Lex, c: char): Lex {
    if st.escaped then Lex(st.inString, false)
    else if c == '\\' && st.inString then Lex(true, true)
    else if c == '"' then Lex(!st.inString, false)
    else st
  }

  /** A character that the scanners look at: neither escaped, nor a quote,
      nor inside a string. */
  predicate Counted(st: Lex, c: char) {
    !st.escaped && !st.inString && c != '"'
  }

  /** The lexer state after reading `t` from outside any string. */
  function LexAfter(t: string): Lex
    decreases |t|
  {
    if t == [] then Outside else LexStep(LexAfter(t[..|t| - 1]), t[|t| - 1])
  }

  /** Which delimiters a counter follows: `{}`, `[]`, or both (nesting depth). */
  datatype Delims = Braces | Brackets | Nesting

  function Weight(d: Delims, c: char): int {
    match d
    case Braces => if c == '{' then 1 else if c == '}' then -1 else 0
    case Brackets => if c == '[' then 1 else if c == ']' then -1 else 0
    case Nesting =>
      if c == '{' || c == '[' then 1 else if c == '}' || c == ']' then -1 else 0
  }

  /** Openers minus closers of kind `d` among the counted characters of `t`. */
  function Net(t: string, d: Delims): int
    decreases |t|
  {
    if t == [] then 0
    else
      var p := t[..|t| - 1];
      Net(p, d) + (if Counted(LexAfter(p), t[|t| - 1]) then Weight(d, t[|t| - 1]) else 0)
  }

  /** Openers minus closers of kind `d` among all characters of `t`. */
  function RawNet(t: string, d: Delims): int
    decreases |t|
  {
    if t == [] then 0 else RawNet(t[..|t| - 1], d) + Weight(d, t[|t| - 1])
  }

  /** Reading one more character: one lexer step, and the counter moves by the
      character's weight when the character counts. */
  lemma LexAppend(t: string, c: char, d: Delims)
    ensures LexAfter(t + [c]) == LexStep(LexAfter(t), c)
    ensures Net(t + [c], d) == Net(t, d) + (if Counted(LexAfter(t), c) then Weight(d, c) else 0)
  {
    assert (t + [c])[..|t|] == t;
  }

  /** A backslash escapes only inside a string. */
  lemma {:induction false} EscapeOnlyInString(t: string)
    ensures LexAfter(t).escaped ==> LexAfter(t).inString
    decreases |t|
  {
    if t != [] {
      EscapeOnlyInString(t[..|t| - 1]);
    }
  }

  /** Text without double quotes is never inside a string, so every one of its
      delimiters counts. */
  lemma {:induction false} NetWithoutQuotes(t: string, d: Delims)
    requires '"' !in t
    ensures LexAfter(t) == Outside
    ensures Net(t, d) == RawNet(t, d)
    decreases |t|
  {
    if t != [] {
      assert t == t[..|t| - 1] + [t[|t| - 1]];
      NetWithoutQuotes(t[..|t| - 1], d);
    }
  }

  /** Delimiters between a pair of quotes do not count. */
  lemma {:induction false} QuotedTextIgnored(a: string, body: string, d: Delims)
    requires LexAfter(a) == Outside
    requires '"' !in body && '\\' !in body
    ensures LexAfter(a + ['"'] + body) == Lex(true, false)
    ensures Net(a + ['"'] + body, d) == Net(a, d)
    ensures LexAfter(a + ['"'] + body + ['"']) == Outside
    ensures Net(a + ['"'] + body + ['"'], d) == Net(a, d)
    decreases |body|
  {
    var t := a + ['"'] + body;
    if body == [] {
      assert t[..|t| - 1] == a;
    } else {
      var body' := body[..|body| - 1];
      assert t[..|t| - 1] == a + ['"'] + body';
      QuotedTextIgnored(a, body', d);
    }
    assert (t + ['"'])[..|t|] == t;
  }

  /** Inside a string a backslash makes the following quote part of the string. */
  lemma EscapedQuoteInString(a: string)
    requires LexAfter(a) == Lex(true, false)
    ensures LexAfter(a + ['\\', '"']) == Lex(true, false)
  {
    assert (a + ['\\', '"'])[..|a| + 1] == a + ['\\'];
    assert (a + ['\\'])[..|a|] == a;
  }

  /** Outside a string a backslash escapes nothing: the quote after it opens a string. */
  lemma BackslashOutsideString(a: string)
    requires LexAfter(a) == Outside
    ensures LexAfter(a + ['\\', '"']) == Lex(true, false)
  {
    assert (a + ['\\', '"'])[..|a| + 1] == a + ['\\'];
    assert (a + ['\\'])[..|a|] == a;
  }

  /** Appending `n` copies of a closer outside any string lowers its counter by `n`
      and leaves the other counter alone. */
  lemma {:induction false} AppendClosers(t: string, c: char, n: nat)
    requires c == '}' || c == ']'
    requires LexAfter(t) == Outside
    ensures LexAfter(t + Repeat(c, n)) == Outside
    ensures Net(t + Repeat(c, n), Braces) == Net(t, Braces) - (if c == '}' then n else 0)
    ensures Net(t + Repeat(c, n), Brackets) == Net(t, Brackets) - (if c == ']' then n else 0)
    decreases n
  {
    if n == 0 {
      assert t + Repeat(c, n) == t;
    } else {
      AppendClosers(t, c, n - 1);
      var v := t + Repeat(c, n - 1);
      RepeatSnoc(c, n);
      assert t + Repeat(c, n) == v + [c];
      AppendCloser(v, c);
    }
  }

  lemma AppendCloser(v: string, c: char)
    requires c == '}' || c == ']'
    requires LexAfter(v) == Outside
    ensures LexAfter(v + [c]) == Outside
    ensures Net(v + [c], Braces) == Net(v, Braces) - (if c == '}' then 1 else 0)
    ensures Net(v + [c], Brackets) == Net(v, Brackets) - (if c == ']' then 1 else 0)
  {
    LexAppend(v, c, Braces);
    LexAppend(v, c, Brackets);
  }

  // ---------------------------------------------------------------------
  // The rewrite chain

  predicate IsIdentStart(c: char) {
    ('a' <= c <= 'z') || ('A' <= c <= 'Z') || c == '_' || c == '$'
  }

  /** The regular-expression class `\w`, which decides a word boundary `\b`. */
  predicate IsWordChar(c: char) {
    ('a' <= c <= 'z') || ('A' <= c <= 'Z') || IsDigit(c) || c == '_'
  }

  /** The character classes the rewrite patterns repeat. */
  datatype CharClass = Space | NotQuote | NotApostrophe | IdentPart

  predicate InClass(c: char, k: CharClass) {
    match k
    case Space => IsSpace(c)
    case NotQuote => c != '"' && c != '\''
    case NotApostrophe => c != '\''
    case IdentPart => IsIdentStart(c) || IsDigit(c)
  }

  /** `s[i..j]` consists of characters of class `k`. */
  ghost predicate Run(s: string, i: nat, j: nat, k: CharClass) {
    i <= j <= |s| && forall x :: i <= x < j ==> InClass(s[x], k)
  }

  /** The end of the longest run of class `k` from `p`: a greedy `[k]*`. */
  function Span(s: string, p: nat, k: CharClass): (e: nat)
    requires p <= |s|
    ensures p <= e <= |s| && Run(s, p, e, k)
    ensures e == |s| || !InClass(s[e], k)
    decreases |s| - p
  {
    if p == |s| || !InClass(s[p], k) then p else Span(s, p + 1, k)
  }

  /** The rewrites of index.js:39-45, in the order they are applied. */
  datatype Rule =
    | DoubleSingleKey    // "key' :   ->  "key":
    | SingleDoubleKey    // 'key" :   ->  "key":
    | SingleQuotedValue  // : 'v' ,   ->  :"v",
    | BareKey            // { key :   ->  {"key":
    | TrailingComma      // , ]       ->  ]
    | UndefinedValue     // : undefined  ->  : null
    | NaNValue           // : NaN        ->  : null

  /** A match of a rule's pattern: where it ends and what replaces it. */
  datatype Match = Match(end: nat, replacement: string)

  /** A greedy run ends at the first character outside its class. */
  lemma SpanIsFirst(s: string, p: nat, e: nat, k: CharClass)
    requires p <= e < |s| && Run(s, p, e, k) && !InClass(s[e], k)
    ensures Span(s, p, k) == e
  {
  }

  /** The text `/"([^"']+)'[\s]*:/` matches at `p` (or its mirror image, with
      `open` and `close` swapped): quote, key, other quote, spaces, colon at `w`. */
  ghost predicate MixedKeyShape(s: string, p: nat, open: char, close: char, q: nat, w: nat) {
    p + 1 < q < w < |s| && s[p] == open && Run(s, p + 1, q, NotQuote) && s[q] == close
    && Run(s, q + 1, w, Space) && s[w] == ':'
  }

  /** The matcher of that pattern; a key opened with one quote and closed with
      the other is rewritten to `"key":`. */
  function MixedKeyAt(s: string, p: nat, open: char, close: char): (m: Option<Match>)
    requires p < |s|
    ensures m.Some? ==> exists q: nat, w: nat :: MixedKeyShape(s, p, open, close, q, w)
                                       && m.value == Match(w + 1, "\"" + s[p + 1..q] + "\":")
  {
    if s[p] != open then None
    else
      var q := Span(s, p + 1, NotQuote);
      if q == p + 1 || q == |s| || s[q] != close then None
      else
        var w := Span(s, q + 1, Space);
        if w == |s| || s[w] != ':' then None
        else
          assert MixedKeyShape(s, p, open, close, q, w);
          Some(Match(w + 1, "\"" + s[p + 1..q] + "\":"))
  }

  /** Wherever the pattern matches, the matcher finds exactly that match. */
  lemma MixedKeyComplete(s: string, p: nat, open: char, close: char, q: nat, w: nat)
    requires (open == '"' && close == '\'') || (open == '\'' && close == '"')
    requires MixedKeyShape(s, p, open, close, q, w)
    ensures MixedKeyAt(s, p, open, close) == Some(Match(w + 1, "\"" + s[p + 1..q] + "\":"))
  {
    SpanIsFirst(s, p + 1, q, NotQuote);
    SpanIsFirst(s, q + 1, w, Space);
  }

  /** `/:[\s]*'([^']*)'[\s]*([,}\]])/` matches at `p`: colon, spaces, a
      single-quoted value between `w` and `v`, spaces, and a delimiter at `x`. */
  ghost predicate SingleQuotedValueShape(s: string, p: nat, w: nat, v: nat, x: nat) {
    p < w < v < x < |s| && s[p] == ':' && Run(s, p + 1, w, Space) && s[w] == '\''
    && Run(s, w + 1, v, NotApostrophe) && s[v] == '\''
    && Run(s, v + 1, x, Space) && s[x] in ",}]"
  }

  /** The matcher of that pattern; the value is rewritten to `:"value"` followed by
      the delimiter, dropping the spaces. */
  function SingleQuotedValueAt(s: string, p: nat): (m: Option<Match>)
    requires p < |s|
    ensures m.Some? ==> exists w: nat, v: nat, x: nat :: SingleQuotedValueShape(s, p, w, v, x)
                          && m.value == Match(x + 1, ":\"" + s[w + 1..v] + "\"" + [s[x]])
  {
    if s[p] != ':' then None
    else
      var w := Span(s, p + 1, Space);
      if w == |s| || s[w] != '\'' then None
      else
        var v := Span(s, w + 1, NotApostrophe);
        if v == |s| then None
        else
          var x := Span(s, v + 1, Space);
          if x == |s| || s[x] !in ",}]" then None
          else
            assert SingleQuotedValueShape(s, p, w, v, x);
            Some(Match(x + 1, ":\"" + s[w + 1..v] + "\"" + [s[x]]))
  }

  lemma SingleQuotedValueComplete(s: string, p: nat, w: nat, v: nat, x: nat)
    requires SingleQuotedValueShape(s, p, w, v, x)
    ensures SingleQuotedValueAt(s, p) == Some(Match(x + 1, ":\"" + s[w + 1..v] + "\"" + [s[x]]))
  {
    SpanIsFirst(s, p + 1, w, Space);
    SpanIsFirst(s, w + 1, v, NotApostrophe);
    SpanIsFirst(s, v + 1, x, Space);
  }

  /** `/([{,]\s*)([a-zA-Z_$][a-zA-Z0-9_$]*)\s*:/` matches at `p`: `{` or `,`,
      spaces, an identifier from `w` to `e`, spaces, a colon at `x`. */
  ghost predicate BareKeyShape(s: string, p: nat, w: nat, e: nat, x: nat) {
    p < w < e <= x < |s| && (s[p] == '{' || s[p] == ',') && Run(s, p + 1, w, Space)
    && IsIdentStart(s[w]) && Run(s, w + 1, e, IdentPart) && Run(s, e, x, Space) && s[x] == ':'
  }

  /** The matcher of that pattern; the identifier is wrapped in double quotes,
      the text before it kept and the spaces after it dropped. */
  function BareKeyAt(s: string, p: nat): (m: Option<Match>)
    requires p < |s|
    ensures m.Some? ==> exists w: nat, e: nat, x: nat :: BareKeyShape(s, p, w, e, x)
                          && m.value == Match(x + 1, s[p..w] + "\"" + s[w..e] + "\":")
  {
    if s[p] != '{' && s[p] != ',' then None
    else
      var w := Span(s, p + 1, Space);
      if w == |s| || !IsIdentStart(s[w]) then None
      else
        var e := Span(s, w + 1, IdentPart);
        var x := Span(s, e, Space);
        if x == |s| || s[x] != ':' then None
        else
          assert BareKeyShape(s, p, w, e, x);
          Some(Match(x + 1, s[p..w] + "\"" + s[w..e] + "\":"))
  }

  lemma BareKeyComplete(s: string, p: nat, w: nat, e: nat, x: nat)
    requires BareKeyShape(s, p, w, e, x)
    ensures BareKeyAt(s, p) == Some(Match(x + 1, s[p..w] + "\"" + s[w..e] + "\":"))
  {
    SpanIsFirst(s, p + 1, w, Space);
    IdentEnds(s, e, x);
    SpanIsFirst(s, w + 1, e, IdentPart);
    SpanIsFirst(s, e, x, Space);
    BareKeyAtSpans(s, p, w, e, x);
  }

  /** `BareKeyAt` once its three runs are known. */
  lemma BareKeyAtSpans(s: string, p: nat, w: nat, e: nat, x: nat)
    requires p < w < e <= x < |s| && (s[p] == '{' || s[p] == ',') && IsIdentStart(s[w]) && s[x] == ':'
    requires Span(s, p + 1, Space) == w && Span(s, w + 1, IdentPart) == e && Span(s, e, Space) == x
    ensures BareKeyAt(s, p) == Some(Match(x + 1, s[p..w] + "\"" + s[w..e] + "\":"))
  {
  }

  /** An identifier ends at white space or at the colon after it. */
  lemma IdentEnds(s: string, e: nat, x: nat)
    requires e <= x < |s| && Run(s, e, x, Space) && s[x] == ':'
    ensures !InClass(s[e], IdentPart)
  {
    if e < x {
      assert IsSpace(s[e]);
    }
  }

  /** `/,[\s\n]*([}\]])/` matches at `p`: a comma, spaces, a closer at `w`. */
  ghost predicate TrailingCommaShape(s: string, p: nat, w: nat) {
    p < w < |s| && s[p] == ',' && Run(s, p + 1, w, Space) && (s[w] == '}' || s[w] == ']')
  }

  /** The matcher of that pattern; comma and spaces are dropped, the closer kept. */
  function TrailingCommaAt(s: string, p: nat): (m: Option<Match>)
    requires p < |s|
    ensures m.Some? ==> exists w: nat :: TrailingCommaShape(s, p, w) && m.value == Match(w + 1, [s[w]])
  {
    if s[p] != ',' then None
    else
      var w := Span(s, p + 1, Space);
      if w == |s| || (s[w] != '}' && s[w] != ']') then None
      else
        assert TrailingCommaShape(s, p, w);
        Some(Match(w + 1, [s[w]]))
  }

  lemma TrailingCommaComplete(s: string, p: nat, w: nat)
    requires TrailingCommaShape(s, p, w)
    ensures TrailingCommaAt(s, p) == Some(Match(w + 1, [s[w]]))
  {
    SpanIsFirst(s, p + 1, w, Space);
  }

  /** `/:\s*word\b/` matches at `p`: a colon, spaces, `word` at `w`, then no
      further word character. */
  ghost predicate BareWordShape(s: string, p: nat, w: nat, word: string) {
    p < w && w + |word| <= |s| && s[p] == ':' && Run(s, p + 1, w, Space)
    && s[w..w + |word|] == word && (w + |word| == |s| || !IsWordChar(s[w + |word|]))
  }

  /** The matcher of that pattern for `undefined` and `NaN`; the match becomes `: null`. */
  function BareWordValueAt(s: string, p: nat, word: string): (m: Option<Match>)
    requires p < |s| && word != []
    ensures m.Some? ==> exists w: nat :: BareWordShape(s, p, w, word) && m.value == Match(w + |word|, ": null")
  {
    if s[p] != ':' then None
    else
      var w := Span(s, p + 1, Space);
      if w + |word| > |s| || s[w..w + |word|] != word then None
      else if w + |word| < |s| && IsWordChar(s[w + |word|]) then None
      else
        assert BareWordShape(s, p, w, word);
        Some(Match(w + |word|, ": null"))
  }

  lemma BareWordComplete(s: string, p: nat, w: nat, word: string)
    requires word != [] && !IsSpace(word[0])
    requires BareWordShape(s, p, w, word)
    ensures BareWordValueAt(s, p, word) == Some(Match(w + |word|, ": null"))
  {
    assert s[w] == s[w..w + |word|][0];
    SpanIsFirst(s, p + 1, w, Space);
  }

  /** The match of a rule's pattern starting at index `p`, if any. */
  function MatchAt(rule: Rule, s: string, p: nat): (m: Option<Match>)
    ensures m.Some? ==> p < m.value.end <= |s|
  {
    if p >= |s| then None
    else
      match rule
      case DoubleSingleKey => MixedKeyAt(s, p, '"', '\'')
      case SingleDoubleKey => MixedKeyAt(s, p, '\'', '"')
      case SingleQuotedValue => SingleQuotedValueAt(s, p)
      case BareKey => BareKeyAt(s, p)
      case TrailingComma => TrailingCommaAt(s, p)
      case UndefinedValue => BareWordValueAt(s, p, "undefined")
      case NaNValue => BareWordValueAt(s, p, "NaN")
  }

  /** A pattern, as the matches it has at each index of a text. */
  type Matcher = (string, nat) -> Option<Match>

  /** Every match ends past its start and within the text. */
  ghost predicate Progresses(f: Matcher) {
    forall s: string, p: nat :: f(s, p).Some? ==> p < f(s, p).value.end <= |s|
  }

  function MatcherOf(rule: Rule): (f: Matcher)
    ensures Progresses(f)
  {
    (s: string, p: nat) => MatchAt(rule, s, p)
  }

  /** `s.replace(/pattern/g, replacement)` from index `p` on: the leftmost match
      is replaced and the search resumes after it. */
  function ReplaceFrom(f: Matcher, s: string, p: nat): string
    requires Progresses(f) && p <= |s|
    decreases |s| - p
  {
    if p == |s| then []
    else
      match f(s, p)
      case Some(m) => m.replacement + ReplaceFrom(f, s, m.end)
      case None => [s[p]] + ReplaceFrom(f, s, p + 1)
  }

  /** One `.replace(/pattern/g, ...)` of the chain.  Text in which the
      pattern's first character does not occur comes out unchanged. */
  function Rewrite(rule: Rule, s: string): (r: string)
    ensures Trigger(rule) !in s && (rule == BareKey ==> '{' !in s) ==> r == s
  {
    if Trigger(rule) !in s && (rule == BareKey ==> '{' !in s) then
      assert s + [] + [] == s;
      NoMatchBeforeTrigger(rule, s, [], []);
      RewriteWithoutMatch(MatcherOf(rule), s, 0);
      ReplaceFrom(MatcherOf(rule), s, 0)
    else
      ReplaceFrom(MatcherOf(rule), s, 0)
  }

  /** The pattern matches at no index from `p` up to `k`. */
  ghost predicate NoMatchIn(f: Matcher, s: string, p: nat, k: nat) {
    forall i :: p <= i < k ==> f(s, i).None?
  }

  /** Where a pattern matches nowhere, its rewrite changes nothing. */
  lemma {:induction false} RewriteWithoutMatch(f: Matcher, s: string, p: nat)
    requires Progresses(f) && p <= |s| && NoMatchIn(f, s, p, |s|)
    ensures ReplaceFrom(f, s, p) == s[p..]
    decreases |s| - p
  {
    if p < |s| {
      assert f(s, p).None?;
      RewriteWithoutMatch(f, s, p + 1);
      assert s[p..] == [s[p]] + s[p + 1..];
    }
  }

  /** The leftmost match after `p` is replaced, and the text before it is kept. */
  lemma {:induction false} RewriteAtFirstMatch(f: Matcher, s: string, p: nat, k: nat, m: Match)
    requires Progresses(f) && p <= k < |s| && f(s, k) == Some(m)
    requires NoMatchIn(f, s, p, k)
    ensures m.end <= |s|
    ensures ReplaceFrom(f, s, p) == s[p..k] + m.replacement + ReplaceFrom(f, s, m.end)
    decreases k - p
  {
    if p < k {
      assert f(s, p).None?;
      RewriteAtFirstMatch(f, s, p + 1, k, m);
      assert s[p..k] == [s[p]] + s[p + 1..k];
    }
  }

  // ---------------------------------------------------------------------
  // What the rewrites do to a match

  /** The first character a rule's pattern can start with. */
  function Trigger(rule: Rule): char {
    match rule
    case DoubleSingleKey => '"'
    case SingleDoubleKey => '\''
    case SingleQuotedValue => ':'
    case BareKey => ','
    case TrailingComma => ','
    case UndefinedValue => ':'
    case NaNValue => ':'
  }

  /** Where the character a pattern starts with does not occur, nothing matches. */
  lemma NoMatchWithoutTrigger(rule: Rule, s: string, i: nat)
    requires i < |s| && s[i] != Trigger(rule) && (rule == BareKey ==> s[i] != '{')
    ensures MatchAt(rule, s, i).None?
  {
  }

  /** Where no character of `a` can start the pattern, it matches nowhere in `a`,
      whatever follows it. */
  lemma NoMatchBeforeTrigger(rule: Rule, a: string, b: string, c: string)
    requires Trigger(rule) !in a && (rule == BareKey ==> '{' !in a)
    ensures NoMatchIn(MatcherOf(rule), a + b + c, 0, |a|)
  {
    var s := a + b + c;
    forall i | 0 <= i < |a| ensures MatcherOf(rule)(s, i).None? {
      assert s[i] == a[i];
      NoMatchWithoutTrigger(rule, s, i);
    }
  }

  /** Rewriting a text with a first match: the text before it kept, the match
      replaced, and the rest rewritten on its own. */
  lemma RewriteSplits(f: Matcher, a: string, b: string, c: string, rep: string)
    requires Progresses(f) && NoMatchIn(f, a + b + c, 0, |a|)
    requires b != [] && f(a + b + c, |a|) == Some(Match(|a| + |b|, rep))
    ensures ReplaceFrom(f, a + b + c, 0) == a + rep + ReplaceFrom(f, a + b + c, |a| + |b|)
  {
    var s := a + b + c;
    RewriteAtFirstMatch(f, s, 0, |a|, Match(|a| + |b|, rep));
    assert s[0..|a|] == a;
  }

  /** `RewriteSplits` for the matcher of a rule. */
  lemma SplitAtMatch(rule: Rule, a: string, b: string, c: string, rep: string)
    requires NoMatchIn(MatcherOf(rule), a + b + c, 0, |a|)
    requires b != [] && MatchAt(rule, a + b + c, |a|) == Some(Match(|a| + |b|, rep))
    ensures Rewrite(rule, a + b + c) == a + rep + ReplaceFrom(MatcherOf(rule), a + b + c, |a| + |b|)
  {
    RewriteSplits(MatcherOf(rule), a, b, c, rep);
  }

  /** The trailing-comma pattern matches a comma, white space and a closer. */
  lemma TrailingCommaMatches(a: string, b: string, space: string, closer: char, c: string)
    requires b == [','] + space + [closer] && AllSpace(space) && (closer == '}' || closer == ']')
    ensures MatchAt(TrailingComma, a + b + c, |a|) == Some(Match(|a| + |b|, [closer]))
  {
    var s := a + b + c;
    assert TrailingCommaShape(s, |a|, |a| + 1 + |space|) by {
      assert forall x :: |a| + 1 <= x < |a| + 1 + |space| ==> s[x] == space[x - |a| - 1];
    }
    TrailingCommaComplete(s, |a|, |a| + 1 + |space|);
  }

  /** A comma before a closing bracket or brace, with only white space between,
      is removed, and the rewrite goes on after the closer (index.js:43). */
  lemma TrailingCommaRemoved(a: string, b: string, space: string, closer: char, c: string)
    requires ',' !in a && b == [','] + space + [closer] && AllSpace(space) && (closer == '}' || closer == ']')
    ensures Rewrite(TrailingComma, a + b + c) == a + [closer] + ReplaceFrom(MatcherOf(TrailingComma), a + b + c, |a| + |b|)
  {
    TrailingCommaMatches(a, b, space, closer, c);
    NoMatchBeforeTrigger(TrailingComma, a, b, c);
    SplitAtMatch(TrailingComma, a, b, c, [closer]);
  }

  /** `: word` followed by no word character matches the bare-word pattern. */
  lemma BareWordMatches(rule: Rule, word: string, a: string, b: string, space: string, c: string)
    requires (rule == UndefinedValue && word == "undefined") || (rule == NaNValue && word == "NaN")
    requires b == [':'] + space + word && AllSpace(space)
    requires c == [] || !IsWordChar(c[0])
    ensures MatchAt(rule, a + b + c, |a|) == Some(Match(|a| + |b|, ": null"))
  {
    var s := a + b + c;
    var w := |a| + 1 + |space|;
    assert BareWordShape(s, |a|, w, word) by {
      assert forall x :: |a| + 1 <= x < w ==> s[x] == space[x - |a| - 1];
      assert s[w..w + |word|] == word;
      if c != [] { assert s[w + |word|] == c[0]; }
    }
    BareWordComplete(s, |a|, w, word);
  }

  /** `: undefined` and `: NaN` standing as whole words become `: null`, and the
      rewrite goes on after the word (index.js:44-45). */
  lemma BareWordBecomesNull(rule: Rule, word: string, a: string, b: string, space: string, c: string)
    requires (rule == UndefinedValue && word == "undefined") || (rule == NaNValue && word == "NaN")
    requires ':' !in a && b == [':'] + space + word && AllSpace(space)
    requires c == [] || !IsWordChar(c[0])
    ensures Rewrite(rule, a + b + c) == a + ": null" + ReplaceFrom(MatcherOf(rule), a + b + c, |a| + |b|)
  {
    BareWordMatches(rule, word, a, b, space, c);
    NoMatchBeforeTrigger(rule, a, b, c);
    SplitAtMatch(rule, a, b, c, ": null");
  }

  /** The quote normalisation of index.js:38 as written: its character classes
      hold the straight quotes themselves, so each replacement maps a straight
      quote to itself. */
  function QuoteStepAsWritten(s: string): string {
    seq(|s|, i requires 0 <= i < |s| =>
      if s[i] == '"' || s[i] == '"' then '"' else if s[i] == '\'' || s[i] == '\'' then '\'' else s[i])
  }

  /** As written, the step is the identity: curly quotes survive it. */
  lemma QuoteStepAsWrittenIsIdentity(s: string)
    ensures QuoteStepAsWritten(s) == s
    ensures QuoteStepAsWritten("\U{201C}a\U{201D}") == "\U{201C}a\U{201D}"
  {
  }

  predicate IsCurlyQuote(c: char) {
    c == '\U{201C}' || c == '\U{201D}' || c == '\U{2018}' || c == '\U{2019}'
  }

  /** The intended step: curly double quotes become `"` and curly single
      quotes become `'`; nothing else changes. */
  function NormalizeQuotes(s: string): (r: string)
    ensures |r| == |s|
    ensures forall i :: 0 <= i < |s| ==> !IsCurlyQuote(r[i])
    ensures forall i :: 0 <= i < |s| && !IsCurlyQuote(s[i]) ==> r[i] == s[i]
    ensures forall i :: 0 <= i < |s| && (s[i] == '\U{201C}' || s[i] == '\U{201D}') ==> r[i] == '"'
    ensures forall i :: 0 <= i < |s| && (s[i] == '\U{2018}' || s[i] == '\U{2019}') ==> r[i] == '\''
  {
    seq(|s|, i requires 0 <= i < |s| =>
      if s[i] == '\U{201C}' || s[i] == '\U{201D}' then '"'
      else if s[i] == '\U{2018}' || s[i] == '\U{2019}' then '\''
      else s[i])
  }

  /** The pattern replacements of index.js:39-45, in order. */
  function RewriteChain(t: string): (r: string)
    ensures Plain(t) ==> r == t
  {
    var t := Rewrite(DoubleSingleKey, t);
    var t := Rewrite(SingleDoubleKey, t);
    var t := Rewrite(SingleQuotedValue, t);
    var t := Rewrite(BareKey, t);
    var t := Rewrite(TrailingComma, t);
    var t := Rewrite(UndefinedValue, t);
    Rewrite(NaNValue, t)
  }

  /** No character that any pattern of the chain starts with. */
  predicate Plain(s: string) {
    '"' !in s && '\'' !in s && ':' !in s && ',' !in s && '{' !in s
  }

  /** The rewrite chain of index.js:37-45 as written.  Text that no pattern
      can match is only trimmed. */
  function Rewritten(s: string): (r: string)
    ensures Plain(s) ==> r == Trim(s)
  {
    if Plain(s) then
      PlainTrimmed(s);
      QuoteStepAsWrittenIsIdentity(Trim(s));
      RewriteChain(QuoteStepAsWritten(Trim(s)))
    else
      RewriteChain(QuoteStepAsWritten(Trim(s)))
  }

  lemma PlainTrimmed(s: string)
    requires Plain(s)
    ensures Plain(Trim(s))
  {
    TrimKeepsOut(s, '"');
    TrimKeepsOut(s, '\'');
    TrimKeepsOut(s, ':');
    TrimKeepsOut(s, ',');
    TrimKeepsOut(s, '{');
  }

  /** The same chain with the intended quote normalisation. */
  function RewrittenIntended(s: string): string {
    RewriteChain(NormalizeQuotes(Trim(s)))
  }

  function Positive(n: int): nat {
    if n > 0 then n else 0
  }

  /** `r` followed by one `}` per unclosed `{` and then one `]` per unclosed `[`. */
  function Closed(r: string): (c: string)
    ensures |r| <= |c| && c[..|r|] == r
    ensures forall i :: |r| <= i < |c| ==> c[i] == '}' || c[i] == ']'
  {
    r + Repeat('}', Positive(Net(r, Braces))) + Repeat(']', Positive(Net(r, Brackets)))
  }

  /** What `fixJson` returns: the empty string unchanged; otherwise the rewritten
      text, kept whole, followed by closers only. */
  function Repaired(s: string): (r: string)
    ensures s == [] ==> r == []
    ensures s != [] ==> |Rewritten(s)| <= |r| && r[..|Rewritten(s)|] == Rewritten(s)
    ensures s != [] ==> forall i :: |Rewritten(s)| <= i < |r| ==> r[i] == '}' || r[i] == ']'
  {
    if s == [] then s else Closed(Rewritten(s))
  }

  /** The repair with the intended quote normalisation. */
  function RepairedIntended(s: string): string {
    if s == [] then s else Closed(RewrittenIntended(s))
  }

  /** The correction only matters for curly quotes: on text without them the
      intended repair and the repair as written agree. */
  lemma IntendedRepairAgrees(s: string)
    requires forall i :: 0 <= i < |s| ==> !IsCurlyQuote(s[i])
    ensures RepairedIntended(s) == Repaired(s)
  {
    if s != [] {
      var t := Trim(s);
      StraightAfterTrim(s);
      QuoteStepAsWrittenIsIdentity(t);
      assert NormalizeQuotes(t) == t;
      assert RewrittenIntended(s) == Rewritten(s);
    }
  }

  lemma StraightAfterTrim(s: string)
    requires forall i :: 0 <= i < |s| ==> !IsCurlyQuote(s[i])
    ensures forall i :: 0 <= i < |Trim(s)| ==> !IsCurlyQuote(Trim(s)[i])
  {
    var a, b :| 0 <= a <= b <= |s| && Trim(s) == s[a..b];
    forall i | 0 <= i < |Trim(s)|
      ensures !IsCurlyQuote(Trim(s)[i])
    {
      assert Trim(s)[i] == s[a + i];
    }
  }

  /** `fixJson` (index.js:34-61). */
  method FixJson(s: string) returns (r: string)
    ensures r == Repaired(s)
  {
    if s == [] {
      return s;
    }
    var text := Rewritten(s);
    var braces, brackets := CountDelimiters(text);
    r := AppendMissingClosers(text, braces, brackets);
  }

  /** The balancing scan of index.js:48-57: both counters over the counted
      characters of `r`. */
  method CountDelimiters(r: string) returns (braces: int, brackets: int)
    ensures braces == Net(r, Braces) && brackets == Net(r, Brackets)
  {
    braces, brackets := 0, 0;
    var inStr, esc := false, false;
    var i := 0;
    while i < |r|
      invariant 0 <= i <= |r|
      invariant Lex(inStr, esc) == LexAfter(r[..i])
      invariant braces == Net(r[..i], Braces) && brackets == Net(r[..i], Brackets)
    {
      var c := r[i];
      assert r[..i + 1] == r[..i] + [c];
      LexAppend(r[..i], c, Braces);
      LexAppend(r[..i], c, Brackets);
      if esc {
        esc := false;
      } else if c == '\\' && inStr {
        esc := true;
      } else if c == '"' {
        inStr := !inStr;
      } else if !inStr {
        if c == '{' { braces := braces + 1; } else if c == '}' { braces := braces - 1; }
        if c == '[' { brackets := brackets + 1; } else if c == ']' { brackets := brackets - 1; }
      }
      i := i + 1;
    }
    assert r[..i] == r;
  }

  /** The closing loops of index.js:58-59: one `}` per positive brace count,
      then one `]` per positive bracket count. */
  method AppendMissingClosers(text: string, braces: int, brackets: int) returns (r: string)
    ensures r == text + Repeat('}', Positive(braces)) + Repeat(']', Positive(brackets))
  {
    r := text;
    var b := braces;
    while b > 0
      invariant r == text + Repeat('}', Positive(braces) - Positive(b))
      invariant b <= braces
    {
      r := r + "}";
      b := b - 1;
    }
    ghost var withBraces := r;
    var k := brackets;
    while k > 0
      invariant r == withBraces + Repeat(']', Positive(brackets) - Positive(k))
      invariant k <= brackets
    {
      r := r + "]";
      k := k - 1;
    }
  }

  /** Unless the rewritten text ends inside a string, the repaired text leaves
      no `{` and no `[` unclosed: each counter ends at zero, or stays negative
      when the text already had surplus closers, which add nothing. */
  lemma RepairBalances(s: string)
    requires s != []
    requires !LexAfter(Rewritten(s)).inString
    ensures Net(Repaired(s), Braces) == (if Net(Rewritten(s), Braces) < 0 then Net(Rewritten(s), Braces) else 0)
    ensures Net(Repaired(s), Brackets) == (if Net(Rewritten(s), Brackets) < 0 then Net(Rewritten(s), Brackets) else 0)
  {
    var r := Rewritten(s);
    EscapeOnlyInString(r);
    var nb, nk := Positive(Net(r, Braces)), Positive(Net(r, Brackets));
    AppendClosers(r, '}', nb);
    AppendClosers(r + Repeat('}', nb), ']', nk);
  }
}

=== FILE: json_value.dfy ===
/**
 * The JavaScript values that `JSON.parse` produces, with the few runtime
 * operations on them that the plugin uses: truthiness, `typeof`/`Array.isArray`,
 * optional-chaining property access, the nullish-coalescing operator `??`
 * and the string conversion `String(x)`.
 *
 * `undefined` is represented by `None` wherever a value may be missing.
 * Numbers are integers; objects keep their entries in enumeration order and
 * are assumed to have distinct keys, as `JSON.parse` guarantees.
 */
module JsonValue {
  import opened Text

  datatype Json =
    | JNull
    | JBool(b: bool)
    | JNum(n: int)
    | JStr(s: string)
    | JArr(items: seq<Json>)
    | JObj(entries: seq<Entry>)

  datatype Entry = Entry(key: string, value: Json)

  /** JavaScript truthiness; `undefined` (None) is falsy. */
  predicate Truthy(v: Option<Json>) {
    match v
    case None => false
    case Some(JNull) => false
    case Some(JBool(b)) => b
    case Some(JNum(n)) => n != 0
    case Some(JStr(s)) => s != []
    case Some(_) => true
  }

  /** `v == null`, which holds for both `null` and `undefined`. */
  predicate Nullish(v: Option<Json>) {
    v.None? || v.value.JNull?
  }

  /** `a ?? b` */
  function Coalesce(a: Option<Json>, b: Option<Json>): (r: Option<Json>)
    ensures Nullish(a) ==> r == b
    ensures !Nullish(a) ==> r == a
  {
    if Nullish(a) then b else a
  }

  /** The value stored under `key` in an object's entries. */
  function Lookup(entries: seq<Entry>, key: string): (r: Option<Json>)
    ensures r.Some? <==> exists i :: 0 <= i < |entries| && entries[i].key == key
    ensures r.Some? ==> exists i :: 0 <= i < |entries| && entries[i] == Entry(key, r.value)
  {
    if entries == [] then None
    else if entries[0].key == key then Some(entries[0].value)
    else
      var r := Lookup(entries[1..], key);
      if r.Some? then
        var i :| 0 <= i < |entries[1..]| && entries[1..][i] == Entry(key, r.value);
        assert entries[i + 1] == Entry(key, r.value);
        r
      else
        r
  }

  /** `v?.name` for a property name that no string, array, number or boolean
      has (`choices`, `message`, `content`, `reasoning_content`). */
  function Prop(v: Option<Json>, name: string): (r: Option<Json>)
    ensures r.Some? ==> v.Some? && v.value.JObj?
  {
    match v
    case Some(JObj(entries)) => Lookup(entries, name)
    case _ => None
  }

  /** `v?.[0]`: the first element of an array, the first character of a
      string, or the property named "0" of an object. */
  function First(v: Option<Json>): (r: Option<Json>)
    ensures r.Some? ==> v.Some? && (v.value.JArr? || v.value.JStr? || v.value.JObj?)
  {
    match v
    case Some(JArr(items)) => if items == [] then None else Some(items[0])
    case Some(JStr(s)) => if s == [] then None else Some(JStr([s[0]]))
    case Some(JObj(entries)) => Lookup(entries, "0")
    case _ => None
  }

  /** `String(v)` for a JSON value: arrays join their elements with commas
      (null elements become empty), objects print as `[object Object]`. */
  function ToJsString(v: Json): (r: string)
    ensures v.JStr? ==> r == v.s
    ensures v.JNull? ==> r == "null"
    ensures v.JArr? && v.items == [] ==> r == ""
  {
    match v
    case JNull => "null"
    case JBool(b) => if b then "true" else "false"
    case JNum(n) => IntToString(n)
    case JStr(s) => s
    case JArr(items) => Join(ElementStrings(items), ",")
    case JObj(_) => "[object Object]"
  }

  /** The strings `Array.prototype.join` puts between its commas. */
  function ElementStrings(items: seq<Json>): (r: seq<string>)
    ensures |r| == |items|
    decreases items
  {
    if items == [] then []
    else [if items[0].JNull? then "" else ToJsString(items[0])] + ElementStrings(items[1..])
  }

  /** `typeof v === 'object' && v !== null`, the values that extraction treats as
      already parsed. */
  predicate IsObjectLike(v: Json) {
    v.JArr? || v.JObj?
  }

  /** The `ok` test of the extractor: an array when an array is wanted,
      otherwise a non-null object that is not an array. */
  predicate HasShape(r: Option<Json>, isArray: bool) {
    r.Some? && (if isArray then r.value.JArr? else r.value.JObj?)
  }
}

=== FILE: sequences.dfy ===
/**
 * Order-preserving embeddings of one sequence into another, and the two
 * array operations of the runtime that keep one: `filter`, and
 * `splice(i, 0, x)` (with `unshift` and `push` as its two ends).
 */
module Sequences {

  /** `f` sends each position of `a` to a position of `b` holding the same
      element, strictly increasingly: `a` is `b` with some elements left out,
      the rest in their original order. */
  ghost predicate EmbedsBy<T>(a: seq<T>, b: seq<T>, f: seq<nat>) {
    && |f| == |a|
    && (forall i :: 0 <= i < |f| ==> f[i] < |b| && b[f[i]] == a[i])
    && (forall i, j :: 0 <= i < j < |f| ==> f[i] < f[j])
  }

  /** `a` occurs in `b` in order (a subsequence, not necessarily contiguous). */
  ghost predicate Embeds<T>(a: seq<T>, b: seq<T>) {
    exists f :: EmbedsBy(a, b, f)
  }

  lemma EmbedsReflexive<T>(a: seq<T>)
    ensures Embeds(a, a)
  {
    var f := seq(|a|, i requires 0 <= i < |a| => i);
    assert EmbedsBy(a, a, f);
  }

  lemma EmbedsTransitive<T>(a: seq<T>, b: seq<T>, c: seq<T>)
    requires Embeds(a, b) && Embeds(b, c)
    ensures Embeds(a, c)
  {
    var f :| EmbedsBy(a, b, f);
    var g :| EmbedsBy(b, c, g);
    var h := seq(|f|, i requires 0 <= i < |f| => g[f[i]]);
    assert EmbedsBy(a, c, h);
  }

  /** `s.splice(i, 0, x)` for an index already within bounds. */
  function Insert<T>(s: seq<T>, i: nat, x: T): (r: seq<T>)
    requires i <= |s|
    ensures |r| == |s| + 1 && r[i] == x
    ensures forall k :: 0 <= k < i ==> r[k] == s[k]
    ensures forall k :: i <= k < |s| ==> r[k + 1] == s[k]
  {
    s[..i] + [x] + s[i..]
  }

  /** `unshift` is a splice at the front. */
  lemma InsertFront<T>(s: seq<T>, x: T)
    ensures Insert(s, 0, x) == [x] + s
  {
    assert s[..0] == [] && s[0..] == s;
  }

  /** `push` is a splice at the end. */
  lemma InsertBack<T>(s: seq<T>, x: T)
    ensures Insert(s, |s|, x) == s + [x]
  {
    assert s[..|s|] == s && s[|s|..] == [];
  }

  /** Inserting one element keeps every other element, in order. */
  lemma InsertEmbeds<T>(s: seq<T>, i: nat, x: T)
    requires i <= |s|
    ensures Embeds(s, Insert(s, i, x))
  {
    var f := seq(|s|, k requires 0 <= k < |s| => if k < i then k else k + 1);
    assert EmbedsBy(s, Insert(s, i, x), f);
  }

  /** `s.filter(p)`: exactly the elements satisfying `p`. */
  function Filter<T>(s: seq<T>, p: T -> bool): (r: seq<T>)
    ensures |r| <= |s|
    ensures forall i :: 0 <= i < |r| ==> r[i] in s && p(r[i])
    ensures forall i :: 0 <= i < |s| && p(s[i]) ==> s[i] in r
  {
    if s == [] then []
    else
      var n := |s| - 1;
      var rest := Filter(s[..n], p);
      assert forall i :: 0 <= i < n ==> s[i] == s[..n][i];
      rest + (if p(s[n]) then [s[n]] else [])
  }

  /** What `filter` keeps stays in its original order. */
  lemma {:induction false} FilterEmbeds<T>(s: seq<T>, p: T -> bool)
    ensures Embeds(Filter(s, p), s)
  {
    if s == [] {
      assert EmbedsBy(Filter(s, p), s, []);
    } else {
      var n := |s| - 1;
      var rest := Filter(s[..n], p);
      FilterEmbeds(s[..n], p);
      var g :| EmbedsBy(rest, s[..n], g);
      if p(s[n]) {
        assert EmbedsBy(Filter(s, p), s, g + [n]);
      } else {
        assert EmbedsBy(Filter(s, p), s, g);
      }
    }
  }

  /** `s.flatMap(f)`: the pieces of the elements, in order. */
  function FlatMap<T, U>(s: seq<T>, f: T -> seq<U>): seq<U> {
    if s == [] then [] else FlatMap(s[..|s| - 1], f) + f(s[|s| - 1])
  }

  lemma {:induction false} FlatMapAppend<T, U>(a: seq<T>, b: seq<T>, f: T -> seq<U>)
    ensures FlatMap(a + b, f) == FlatMap(a, f) + FlatMap(b, f)
    decreases |b|
  {
    if b == [] {
      assert a + b == a;
    } else {
      var n := |b| - 1;
      assert (a + b)[..|a + b| - 1] == a + b[..n];
      FlatMapAppend(a, b[..n], f);
    }
  }

  /** Every element's piece is part of the result. */
  lemma FlatMapHas<T, U>(s: seq<T>, f: T -> seq<U>, i: nat, u: U)
    requires i < |s| && u in f(s[i])
    ensures u in FlatMap(s, f)
  {
    assert s == s[..i] + [s[i]] + s[i + 1..];
    FlatMapAppend(s[..i] + [s[i]], s[i + 1..], f);
    assert FlatMap(s[..i] + [s[i]], f) == FlatMap(s[..i], f) + f(s[i]) by {
      assert (s[..i] + [s[i]])[..i] == s[..i];
    }
  }

  /** One more element adds its piece. */
  lemma FlatMapStep<T, U>(s: seq<T>, f: T -> seq<U>, i: nat)
    requires i < |s|
    ensures FlatMap(s[..i + 1], f) == FlatMap(s[..i], f) + f(s[i])
  {
    assert s[..i + 1][..i] == s[..i];
  }

  lemma FlatMapOne<T, U>(x: T, f: T -> seq<U>)
    ensures FlatMap([x], f) == f(x)
  {
    assert [x][..0] == [];
  }

  /** `s.map(g)` */
  function Mapped<T, U>(s: seq<T>, g: T -> U): (r: seq<U>)
    ensures |r| == |s| && forall i :: 0 <= i < |s| ==> r[i] == g(s[i])
  {
    seq(|s|, i requires 0 <= i < |s| => g(s[i]))
  }

  lemma MappedCons<T, U>(x: T, s: seq<T>, g: T -> U)
    ensures Mapped([x] + s, g) == [g(x)] + Mapped(s, g)
  {
    forall i | 1 <= i < |s| + 1
      ensures Mapped([x] + s, g)[i] == Mapped(s, g)[i - 1]
    {
      assert ([x] + s)[i] == s[i - 1];
    }
  }
}

=== FILE: story_assistant.dfy ===
/**
 * The story-assistant manager: a registry of embedded feature modules kept
 * in a `Map` keyed by module id, in first-insertion order, and the feature
 * list rendered from it.
 */
module StoryAssistant {
  import opened Text
  import opened Sequences

  /** What `getModuleInfo()` returns; an absent `id` or `description` is
      the empty text, an absent `icon` likewise. */
  datatype ModuleInfo = ModuleInfo(id: string, name: string, description: string, icon: string)

  /** A feature module: `key` stands for the object's identity, `info` is
      `None` when it has no `getModuleInfo`, `hasInit` says whether it has an
      `init`. */
  datatype FeatureModule = FeatureModule(key: nat, info: Option<ModuleInfo>, hasInit: bool)

  /** The stored value `{ ...info, module }`, with the module as `feature`. */
  datatype Record = Record(info: ModuleInfo, feature: FeatureModule)

  // ---------------------------------------------------------------------
  // The registry `Map`
  // ---------------------------------------------------------------------

  /** A `Map` from ids to records: its keys in first-insertion order and the
      record under each key. */
  datatype Registry = Registry(keys: seq<string>, records: map<string, Record>)

  /** The keys are distinct and are exactly the map's domain, and each
      record is stored under its own module's id. */
  ghost predicate WellFormed(r: Registry) {
    && (forall i, j :: 0 <= i < j < |r.keys| ==> r.keys[i] != r.keys[j])
    && (forall k :: k in r.records ==> r.records[k].info.id == k)
    && (forall i :: 0 <= i < |r.keys| ==> r.keys[i] in r.records)
    && (forall k :: k in r.records ==> k in r.keys)
  }

  const EMPTY: Registry := Registry([], map[])

  lemma EmptyValid()
    ensures WellFormed(EMPTY) && |EMPTY.keys| == 0
  {
  }

  /** `map.set(id, record)`: a new key goes to the end, an existing key keeps
      its place and takes the new record. */
  function Put(r: Registry, id: string, rec: Record): (r': Registry)
    ensures id in r'.records && r'.records[id] == rec
    ensures forall k :: k != id ==> (k in r'.records <==> k in r.records)
    ensures forall k :: k != id && k in r.records ==> r'.records[k] == r.records[k]
    ensures id in r.records ==> r'.keys == r.keys
    ensures id !in r.records ==> r'.keys == r.keys + [id]
  {
    Registry(if id in r.records then r.keys else r.keys + [id], r.records[id := rec])
  }

  /** `map.get(id)` */
  function Get(r: Registry, id: string): (o: Option<Record>)
    ensures o.Some? <==> id in r.records
  {
    if id in r.records then Some(r.records[id]) else None
  }

  /** `Array.from(map.values())`: the records in key order. */
  function Values(r: Registry): (vs: seq<Record>)
    requires WellFormed(r)
    ensures |vs| == |r.keys|
  {
    seq(|r.keys|, i requires 0 <= i < |r.keys| => r.records[r.keys[i]])
  }

  /** `set` keeps the keys distinct and in step with the domain. */
  lemma PutValid(r: Registry, id: string, rec: Record)
    requires rec.info.id == id
    ensures WellFormed(r) ==> WellFormed(Put(r, id, rec))
  {
    var r' := Put(r, id, rec);
    if WellFormed(r) && id !in r.records {
      assert r'.keys[|r.keys|] == id;
      forall k | k in r'.records ensures k in r'.keys {
        if k != id {
          var i :| 0 <= i < |r.keys| && r.keys[i] == k;
          assert r'.keys[i] == k;
        }
      }
    }
  }

  /** Reading a key back after `set`: the new record under that key, every
      other key as before. */
  lemma PutGet(r: Registry, id: string, rec: Record, other: string)
    ensures Get(Put(r, id, rec), id) == Some(rec)
    ensures other != id ==> Get(Put(r, id, rec), other) == Get(r, other)
  {
  }

  /** `set` on a present key replaces its record in place: same count, same
      order. */
  lemma PutExisting(r: Registry, id: string, rec: Record, i: nat)
    requires WellFormed(r) && rec.info.id == id && i < |r.keys| && r.keys[i] == id
    ensures |Values(Put(r, id, rec))| == |Values(r)|
    ensures Values(Put(r, id, rec)) == Values(r)[i := rec]
  {
    PutValid(r, id, rec);
    var r' := Put(r, id, rec);
    forall m | 0 <= m < |r.keys| ensures Values(r')[m] == Values(r)[i := rec][m] {
      if m != i {
        assert r.keys[m] != id;
      }
    }
  }

  /** `set` on a new key appends its record. */
  lemma PutNew(r: Registry, id: string, rec: Record)
    requires WellFormed(r) && rec.info.id == id && id !in r.records
    ensures Values(Put(r, id, rec)) == Values(r) + [rec]
  {
    PutValid(r, id, rec);
    var r' := Put(r, id, rec);
    forall m | 0 <= m < |r.keys| ensures Values(r')[m] == Values(r)[m] {
      assert r.keys[m] != id;
    }
  }

  // ---------------------------------------------------------------------
  // Registration
  // ---------------------------------------------------------------------

  /** `registerModule` accepts a module that exists, has `getModuleInfo`, and
      whose info has a truthy `id`. */
  predicate Accepted(m: Option<FeatureModule>) {
    m.Some? && m.value.info.Some? && m.value.info.value.id != ""
  }

  /** The registry after `registerModule(m)`. */
  function Registered(r: Registry, m: Option<FeatureModule>): (r': Registry)
    ensures !Accepted(m) ==> r' == r
    ensures Accepted(m) ==> Get(r', m.value.info.value.id) == Some(Record(m.value.info.value, m.value))
    ensures Accepted(m) ==> forall other :: other != m.value.info.value.id ==> Get(r', other) == Get(r, other)
    ensures WellFormed(r) ==> WellFormed(r')
  {
    if Accepted(m) then
      PutValid(r, m.value.info.value.id, Record(m.value.info.value, m.value));
      Put(r, m.value.info.value.id, Record(m.value.info.value, m.value)) else r
  }

  /** Whether `registerModule(m)` calls `m.init(dependencies)`. */
  predicate CallsInit(m: Option<FeatureModule>, dependencies: bool) {
    Accepted(m) && m.value.hasInit && dependencies
  }

  /** `getModule(id)`: the module stored under `id`, `null` when none. */
  function ModuleOf(r: Registry, id: string): (o: Option<FeatureModule>)
    ensures o.None? <==> id !in r.records
  {
    match Get(r, id)
    case None => None
    case Some(rec) => Some(rec.feature)
  }

  /** After registering an accepted module, `getModule` of its id returns
      it, and every other id returns what it did before. */
  lemma RegisterThenGet(r: Registry, m: Option<FeatureModule>, other: string)
    requires Accepted(m)
    ensures ModuleOf(Registered(r, m), m.value.info.value.id) == m
    ensures other != m.value.info.value.id ==> ModuleOf(Registered(r, m), other) == ModuleOf(r, other)
  {
    PutGet(r, m.value.info.value.id, Record(m.value.info.value, m.value), other);
  }

  /** A rejected module leaves the registry, and so every lookup, alone. */
  lemma RejectedIgnored(r: Registry, m: Option<FeatureModule>, id: string)
    requires !Accepted(m)
    ensures Registered(r, m) == r && ModuleOf(Registered(r, m), id) == ModuleOf(r, id)
  {
  }

  /** Registering an id already present replaces its entry: the list keeps
      its length and order, with the new record in the old place. */
  lemma ReregisterKeepsPlace(r: Registry, m: Option<FeatureModule>, i: nat)
    requires WellFormed(r) && Accepted(m) && i < |r.keys| && r.keys[i] == m.value.info.value.id
    ensures |Values(Registered(r, m))| == |Values(r)|
    ensures Values(Registered(r, m)) == Values(r)[i := Record(m.value.info.value, m.value)]
  {
    PutExisting(r, m.value.info.value.id, Record(m.value.info.value, m.value), i);
  }

  /** Registering a new id appends its record to the list. */
  lemma RegisterNewAppends(r: Registry, m: Option<FeatureModule>)
    requires WellFormed(r) && Accepted(m) && m.value.info.value.id !in r.records
    ensures Values(Registered(r, m)) == Values(r) + [Record(m.value.info.value, m.value)]
  {
    PutNew(r, m.value.info.value.id, Record(m.value.info.value, m.value));
  }

  /** Registration keeps the registry well formed. */
  lemma RegisterValid(r: Registry, m: Option<FeatureModule>)
    requires WellFormed(r)
    ensures WellFormed(Registered(r, m))
  {
    if Accepted(m) {
      PutValid(r, m.value.info.value.id, Record(m.value.info.value, m.value));
    }
  }

  // ---------------------------------------------------------------------
  // The feature list
  // ---------------------------------------------------------------------

  /** The markup shown when no module is registered. */
  const EMPTY_LIST := "<div class=\"jtw-assistant-empty\">" + EMPTY_MESSAGE + "</div>"
  /** "No feature module available". */
  const EMPTY_MESSAGE := "暂无可用的功能模块"

  /** `info.icon || '📦'` */
  function IconOf(info: ModuleInfo): (s: string)
    ensures s != ""
  {
    if info.icon != "" then info.icon else "📦"
  }

  /** The fixed text of an item's template, around the four values
      it interpolates. */
  const ITEM_OPEN := "\n        <div class=\"jtw-assistant-item\""
  const ITEM_ID := " data-module-id=\""
  const ITEM_ICON := "\">\n            <div class=\"jtw-assistant-item-icon\">"
  const ITEM_NAME := "</div>\n            <div class=\"jtw-assistant-item-info\">\n                <div class=\"jtw-assistant-item-name\">"
  const ITEM_DESC := "</div>\n                <div class=\"jtw-assistant-item-desc\">"
  const ITEM_CLOSE := "</div>\n            </div>\n            <div class=\"jtw-assistant-item-arrow\">→</div>\n        </div>\n    "

  /** One item of the list; `escape` is the page's `escapeHtml`, which goes
      through the DOM. */
  function ItemHtml(info: ModuleInfo, escape: string -> string): (s: string)
    ensures |ITEM_OPEN| <= |s| && s[..|ITEM_OPEN|] == ITEM_OPEN
    ensures |ITEM_CLOSE| <= |s| && s[|s| - |ITEM_CLOSE|..] == ITEM_CLOSE
    ensures |s| > 0 && s[0] == ITEM_OPEN[0]
    ensures Occurs(s, ITEM_ID + info.id + ITEM_ICON)
    ensures Occurs(s, ITEM_ID + info.id + ITEM_ICON + IconOf(info) + ITEM_NAME)
    ensures Occurs(s, ITEM_NAME + escape(info.name) + ITEM_DESC)
    ensures Occurs(s, ITEM_DESC + escape(info.description) + ITEM_CLOSE)
  {
    var id := ITEM_ID + info.id + ITEM_ICON;
    ItemParts(ITEM_OPEN, id, IconOf(info), ITEM_NAME, escape(info.name), ITEM_DESC, escape(info.description), ITEM_CLOSE);
    ITEM_OPEN + id + IconOf(info) + ITEM_NAME + escape(info.name) + ITEM_DESC + escape(info.description) + ITEM_CLOSE
  }

  /** An item's text, cut around its opening, its closing and each of its
      interpolated runs. */
  lemma ItemParts(open: string, id: string, icon: string, nameTag: string, name: string, desc: string,
                  description: string, close: string)
    ensures var s := open + id + icon + nameTag + name + desc + description + close;
            && |open| <= |s| && s[..|open|] == open
            && |close| <= |s| && s[|s| - |close|..] == close
            && Occurs(s, id) && Occurs(s, id + icon + nameTag)
            && Occurs(s, nameTag + name + desc) && Occurs(s, desc + description + close)
  {
    ItemStart(open, id, icon, nameTag, name, desc, description, close);
    IdInItem(open, id, icon, nameTag, name, desc, description, close);
    NameInItem(open, id, icon, nameTag, name, desc, description, close);
    DescInItem(open + id + icon + nameTag + name, desc, description, close);
  }

  lemma ItemStart(open: string, id: string, icon: string, nameTag: string, name: string, desc: string,
                  description: string, close: string)
    ensures var s := open + id + icon + nameTag + name + desc + description + close;
            && |open| <= |s| && s[..|open|] == open
            && |close| <= |s| && s[|s| - |close|..] == close
  {
    var s := open + id + icon + nameTag + name + desc + description + close;
    PrefixKept(open, open, id);
    PrefixKept(open, open + id, icon);
    PrefixKept(open, open + id + icon, nameTag);
    PrefixKept(open, open + id + icon + nameTag, name);
    PrefixKept(open, open + id + icon + nameTag + name, desc);
    PrefixKept(open, open + id + icon + nameTag + name + desc, description);
    PrefixKept(open, open + id + icon + nameTag + name + desc + description, close);
  }

  lemma PrefixKept(p: string, x: string, y: string)
    ensures |p| <= |x| && x[..|p|] == p ==> (x + y)[..|p|] == p
    ensures (x + y)[|x + y| - |y|..] == y
  {
  }

  lemma IdInItem(open: string, id: string, icon: string, nameTag: string, name: string, desc: string,
                 description: string, close: string)
    ensures Occurs(open + id + icon + nameTag + name + desc + description + close, id)
    ensures Occurs(open + id + icon + nameTag + name + desc + description + close, id + icon + nameTag)
  {
    var a := open + id;
    var b := open + id + icon + nameTag;
    var run := id + icon + nameTag;
    OccursItself(id);
    OccursRight(open, id, id);
    OccursItself(run);
    OccursRight(open, run, run);
    assert open + run == b;
    OccursLeft(a, icon, id);
    OccursLeft(a + icon, nameTag, id);
    OccursLeft(b, name, id);
    OccursLeft(b, name, run);
    OccursLeft(b + name, desc, id);
    OccursLeft(b + name, desc, run);
    OccursLeft(b + name + desc, description, id);
    OccursLeft(b + name + desc, description, run);
    OccursLeft(b + name + desc + description, close, id);
    OccursLeft(b + name + desc + description, close, run);
  }

  lemma NameInItem(open: string, id: string, icon: string, nameTag: string, name: string, desc: string,
                   description: string, close: string)
    ensures Occurs(open + id + icon + nameTag + name + desc + description + close, nameTag + name + desc)
  {
    var a := open + id + icon;
    var run := nameTag + name + desc;
    OccursItself(run);
    OccursRight(a, run, run);
    assert a + run == a + nameTag + name + desc;
    OccursLeft(a + nameTag + name + desc, description, run);
    OccursLeft(a + nameTag + name + desc + description, close, run);
  }

  lemma DescInItem(c: string, desc: string, description: string, close: string)
    ensures Occurs(c + desc + description + close, desc + description + close)
  {
    var tail := desc + description + close;
    OccursItself(tail);
    OccursRight(c, tail, tail);
    assert c + tail == c + desc + description + close;
  }

  lemma Infix(a: string, m: string, b: string)
    ensures Occurs(a + m + b, m)
  {
    OccursItself(m);
    OccursWithin(a, m, b, m);
  }

  /** `modules.map(...).join('')` */
  function Items(records: seq<Record>, escape: string -> string): (s: string)
    ensures records != [] ==> |s| > 0 && s[0] == ITEM_OPEN[0]
  {
    var items := ItemTexts(records, escape);
    JoinEnds(items, "");
    Join(items, "")
  }

  function ItemTexts(records: seq<Record>, escape: string -> string): (items: seq<string>)
    ensures |items| == |records|
    ensures forall k :: 0 <= k < |records| ==> items[k] == ItemHtml(records[k].info, escape)
  {
    Mapped(records, (r: Record) => ItemHtml(r.info, escape))
  }

  /** `renderFeatureList` over the given records. */
  function FeatureList(records: seq<Record>, escape: string -> string): (s: string)
    ensures records == [] ==> s == EMPTY_LIST
    ensures records != [] ==> |s| > 0 && s[0] == ITEM_OPEN[0] != EMPTY_LIST[0]
  {
    if |records| == 0 then EMPTY_LIST else Items(records, escape)
  }

  /** Every registered module is listed: its id in an item's attribute and
      its escaped name in an item's name field. */
  lemma EveryModuleListed(records: seq<Record>, escape: string -> string, k: nat)
    requires k < |records|
    ensures Occurs(FeatureList(records, escape), ITEM_ID + records[k].info.id + ITEM_ICON)
    ensures Occurs(FeatureList(records, escape), ITEM_NAME + escape(records[k].info.name) + ITEM_DESC)
  {
    var items := ItemTexts(records, escape);
    var item := items[k];
    var info := records[k].info;
    PartsOccurInJoin(items, "");
    assert Occurs(FeatureList(records, escape), item);
    OccursInOccurrence(FeatureList(records, escape), item, ITEM_ID + info.id + ITEM_ICON);
    OccursInOccurrence(FeatureList(records, escape), item, ITEM_NAME + escape(info.name) + ITEM_DESC);
  }

  /** The fixed placeholder is shown exactly when there is no module. */
  lemma EmptyListIffNoModules(records: seq<Record>, escape: string -> string)
    ensures FeatureList(records, escape) == EMPTY_LIST <==> records == []
  {
    if records != [] {
      assert FeatureList(records, escape)[0] != EMPTY_LIST[0];
    }
  }

  // ---------------------------------------------------------------------
  // The manager's state
  // ---------------------------------------------------------------------

  /** The module-level state: the registry `Map`, whether dependencies were
      given, and the modules whose `init` has run, in call order. */
  class Manager {
    var registry: Registry
    var dependencies: bool
    var initCalls: seq<nat>

    ghost predicate Valid()
      reads this
    {
      WellFormed(registry)
    }

    constructor()
      ensures Valid() && registry == EMPTY && !dependencies && initCalls == []
    {
      registry := EMPTY;
      dependencies := false;
      initCalls := [];
    }

    /** `initStoryAssistant(deps)` */
    method InitStoryAssistant(deps: bool)
      modifies this
      ensures dependencies == deps
      ensures registry == old(registry) && initCalls == old(initCalls)
    {
      dependencies := deps;
    }

    /** `registerModule(module)` */
    method RegisterModule(m: Option<FeatureModule>)
      requires Valid()
      modifies this
      ensures Valid()
      ensures registry == Registered(old(registry), m)
      ensures initCalls == old(initCalls) + (if CallsInit(m, dependencies) then [m.value.key] else [])
      ensures dependencies == old(dependencies)
    {
      if m.None? || m.value.info.None? {
        return;
      }
      var info := m.value.info.value;
      if info.id == "" {
        return;
      }
      if m.value.hasInit && dependencies {
        initCalls := initCalls + [m.value.key];
      }
      RegisterValid(registry, m);
      registry := Put(registry, info.id, Record(info, m.value));
    }

    /** `getRegisteredModules()` */
    function GetRegisteredModules(): (vs: seq<Record>)
      requires Valid()
      reads this
      ensures |vs| == |registry.keys|
      ensures forall i :: 0 <= i < |vs| ==> vs[i].info.id == registry.keys[i] && vs[i] in registry.records.Values
    {
      Values(registry)
    }

    /** `getModule(id)` */
    function GetModule(id: string): (o: Option<FeatureModule>)
      reads this
      ensures o.None? <==> id !in registry.records
      ensures o.Some? ==> o.value == registry.records[id].feature
    {
      ModuleOf(registry, id)
    }

    /** `renderFeatureList()` */
    function RenderFeatureList(escape: string -> string): (s: string)
      requires Valid()
      reads this
      ensures s == EMPTY_LIST <==> |registry.keys| == 0
    {
      EmptyListIffNoModules(Values(registry), escape);
      FeatureList(Values(registry), escape)
    }
  }
}

=== FILE: templates.dfy ===
/**
 * The `replaceVars` helpers of the plugin: a prompt template is rewritten by
 * a chain of global replacements `.replace(/\{\{name\}\}/g, value)`, one per
 * variable, in a fixed order.
 */
module Templates {
  import opened Text

  /** A template variable and the text that stands in for it. */
  datatype Var = Var(name: string, value: string)

  /** The placeholder `{{name}}`. */
  function Placeholder(name: string): (r: string)
    ensures |r| == |name| + 4 && r[0] == '{' && r[1] == '{'
  {
    "{{" + name + "}}"
  }

  predicate BraceFree(s: string) {
    '{' !in s && '}' !in s
  }

  /** Variable names as the plugin writes them: non-empty, without braces,
      pairwise distinct. */
  predicate WellNamed(vars: seq<Var>) {
    && (forall i :: 0 <= i < |vars| ==> vars[i].name != [] && BraceFree(vars[i].name))
    && (forall i, j :: 0 <= i < j < |vars| ==> vars[i].name != vars[j].name)
  }

  /** Replace every `{{name}}` by its value, one variable after the other;
      text produced by an earlier variable is seen by the later ones. Text
      without an opening brace holds no placeholder and comes out unchanged. */
  function Substitute(template: string, vars: seq<Var>): (r: string)
    ensures vars == [] ==> r == template
    ensures '{' !in template ==> r == template
    decreases |vars|
  {
    if vars == [] then template
    else
      PlainTextKept(template, vars[0]);
      Substitute(ReplaceAll(template, Placeholder(vars[0].name), vars[0].value), vars[1..])
  }

  /** Substituting one more variable is one more global replacement applied
      to the result: the chain can be cut anywhere. */
  lemma {:induction false} SubstituteSnoc(template: string, vars: seq<Var>, v: Var)
    ensures Substitute(template, vars + [v]) == ReplaceAll(Substitute(template, vars), Placeholder(v.name), v.value)
    decreases |vars|
  {
    if vars != [] {
      var t := ReplaceAll(template, Placeholder(vars[0].name), vars[0].value);
      assert (vars + [v])[1..] == vars[1..] + [v];
      SubstituteSnoc(t, vars[1..], v);
    }
  }

  /** A template without an opening brace holds no placeholder. */
  lemma NoBraceNoPlaceholder(s: string, name: string)
    requires '{' !in s
    ensures !Occurs(s, Placeholder(name))
  {
    var p := Placeholder(name);
    forall i: nat ensures !OccursAt(s, p, i) {
      if i + |p| <= |s| {
        assert s[i..i + |p|][0] == s[i] != p[0];
      }
    }
  }

  /** One replacement leaves text without an opening brace as it is. */
  lemma PlainTextKept(template: string, v: Var)
    ensures '{' !in template ==> ReplaceAll(template, Placeholder(v.name), v.value) == template
  {
    if '{' !in template {
      NoBraceNoPlaceholder(template, v.name);
    }
  }

  /** A placeholder of one name does not occur inside the placeholder of
      another, given text around it without braces. */
  lemma OtherPlaceholderAbsent(a: string, k: string, b: string, n: string)
    requires BraceFree(a) && BraceFree(k) && BraceFree(n) && '{' !in b && k != [] && n != k
    ensures !Occurs(a + Placeholder(k) + b, Placeholder(n))
  {
    var s := a + Placeholder(k) + b;
    var p := Placeholder(n);
    forall i: nat ensures !OccursAt(s, p, i) {
      if i + |p| <= |s| {
        var w := s[i..i + |p|];
        // a position of the window where it differs from the placeholder
        if i < |a| {
          assert w[0] == a[i] != p[0];
        } else if i == |a| + 1 {
          var pk := Placeholder(k);
          assert pk == "{{" + k + "}}" && pk[2] == k[0];
          assert s == (a + pk) + b && |a + pk| > |a| + 2;
          assert s[|a| + 2] == (a + pk)[|a| + 2] == pk[2] && k[0] in k;
          assert w[1] == k[0] != p[1];
        } else if |a| + 2 <= i < |a| + 2 + |k| {
          assert w[0] == k[i - |a| - 2] != p[0];
        } else if |a| + 2 + |k| <= i < |a| + |k| + 4 {
          assert w[0] == '}' != p[0];
        } else if i >= |a| + |k| + 4 {
          assert w[0] == b[i - |a| - |k| - 4] != p[0];
        } else if |n| < |k| {
          assert w[2 + |n|] == k[|n|] != p[2 + |n|];
        } else if |n| > |k| {
          assert w[2 + |k|] == '}' != p[2 + |k|];
        } else {
          var m :| 0 <= m < |n| && n[m] != k[m];
          assert w[2 + m] == k[m] != p[2 + m];
        }
      }
    }
  }

  /** One placeholder in otherwise plain text is replaced by its variable's
      value, and by nothing else, whatever its position in the chain. */
  lemma {:induction false} SubstituteOne(a: string, b: string, vars: seq<Var>, j: nat)
    requires WellNamed(vars) && j < |vars|
    requires BraceFree(a) && '{' !in b && '{' !in vars[j].value
    ensures Substitute(a + Placeholder(vars[j].name) + b, vars) == a + vars[j].value + b
  {
    var s := a + Placeholder(vars[j].name) + b;
    if j == 0 {
      var p := Placeholder(vars[0].name);
      ReplaceAllFirst(a, p, vars[0].value, b);
      NoBraceNoPlaceholder(b, vars[0].name);
      assert '{' !in a + vars[0].value + b;
    } else {
      OtherPlaceholderAbsent(a, vars[j].name, b, vars[0].name);
      assert vars[1..][j - 1] == vars[j];
      SubstituteOne(a, b, vars[1..], j - 1);
    }
  }
}

=== FILE: text.dfy ===
/**
 * String operations of the JavaScript runtime that the plugin relies on:
 * `trim`/`trimStart`, `split` on one character, `join`, a global
 * replacement of a literal pattern, ASCII case folding and the decimal
 * form of an integer.  Strings are sequences of characters.
 */
module Text {

  datatype Option<T> = None | Some(value: T)

  /** The value of a call, or the message of the error it throws. */
  datatype Result<T> = Ok(value: T) | Err(message: string)

  /** The code points ECMAScript counts as WhiteSpace or LineTerminator:
      what `trim` removes and what the regular-expression class `\s` matches. */
  predicate IsSpace(c: char) {
    || c == '\t' || c == '\n' || c == '\U{000B}' || c == '\U{000C}' || c == '\r'
    || c == ' ' || c == '\U{00A0}' || c == '\U{1680}'
    || ('\U{2000}' <= c <= '\U{200A}')
    || c == '\U{2028}' || c == '\U{2029}' || c == '\U{202F}' || c == '\U{205F}'
    || c == '\U{3000}' || c == '\U{FEFF}'
  }

  /** The line terminators that the regular-expression `.` refuses to match. */
  predicate IsLineTerminator(c: char) {
    c == '\n' || c == '\r' || c == '\U{2028}' || c == '\U{2029}'
  }

  predicate AllSpace(s: string) {
    forall i :: 0 <= i < |s| ==> IsSpace(s[i])
  }

  /** `s.trimStart()` */
  function TrimStart(s: string): (r: string)
    ensures |r| <= |s| && r == s[|s| - |r|..]
    ensures AllSpace(s[..|s| - |r|])
    ensures r == [] || !IsSpace(r[0])
  {
    if s == [] || !IsSpace(s[0]) then s
    else
      var r := TrimStart(s[1..]);
      assert AllSpace(s[..|s| - |r|]) by {
        assert s[1..][..|s[1..]| - |r|] == s[1..|s| - |r|];
      }
      assert r == s[|s| - |r|..];
      r
  }

  /** `s.trimEnd()` */
  function TrimEnd(s: string): (r: string)
    ensures |r| <= |s| && r == s[..|r|]
    ensures AllSpace(s[|r|..])
    ensures r == [] || !IsSpace(r[|r| - 1])
  {
    if s == [] || !IsSpace(s[|s| - 1]) then s
    else
      var r := TrimEnd(s[..|s| - 1]);
      assert s[..|s| - 1][|r|..] == s[|r|..|s| - 1];
      r
  }

  /** `s.trim()`: the middle of `s` between its leading and trailing white space. */
  function Trim(s: string): (r: string)
    ensures exists i, j :: 0 <= i <= j <= |s| && r == s[i..j] && AllSpace(s[..i]) && AllSpace(s[j..])
    ensures r == [] || (!IsSpace(r[0]) && !IsSpace(r[|r| - 1]))
    ensures r == [] <==> AllSpace(s)
  {
    var t := TrimStart(s);
    var r := TrimEnd(t);
    TrimParts(s, t, r);
    r
  }

  /** Trimming adds no character. */
  lemma TrimKeepsOut(s: string, c: char)
    requires c !in s
    ensures c !in Trim(s)
  {
    SliceKeepsOut(s, |s| - |TrimStart(s)|, |s|, c);
    SliceKeepsOut(TrimStart(s), 0, |TrimEnd(TrimStart(s))|, c);
  }

  /** Leading white space makes no difference to the trimmed text. */
  lemma TrimSkipsSpace(s: string, t: nat)
    requires t <= |s| && AllSpace(s[..t])
    ensures Trim(s[t..]) == Trim(s)
  {
    TrimStartSkipsSpace(s, t);
  }

  lemma {:induction false} TrimStartSkipsSpace(s: string, t: nat)
    requires t <= |s| && AllSpace(s[..t])
    ensures TrimStart(s[t..]) == TrimStart(s)
  {
    if t > 0 {
      assert IsSpace(s[..t][0]);
      assert s[1..][..t - 1] == s[1..t];
      assert s[1..][t - 1..] == s[t..];
      TrimStartSkipsSpace(s[1..], t - 1);
    }
  }

  lemma SliceKeepsOut(s: string, i: nat, j: nat, c: char)
    requires i <= j <= |s| && c !in s
    ensures c !in s[i..j]
  {
    forall k | 0 <= k < j - i
      ensures s[i..j][k] != c
    {
      assert s[i..j][k] == s[i + k];
    }
  }

  /** The trimmed text as a slice of the original, from the facts about
      `TrimStart` and `TrimEnd` alone. */
  lemma TrimParts(s: string, t: string, r: string)
    requires |t| <= |s| && t == s[|s| - |t|..] && AllSpace(s[..|s| - |t|]) && (t == [] || !IsSpace(t[0]))
    requires |r| <= |t| && r == t[..|r|] && AllSpace(t[|r|..]) && (r == [] || !IsSpace(r[|r| - 1]))
    ensures exists i, j :: 0 <= i <= j <= |s| && r == s[i..j] && AllSpace(s[..i]) && AllSpace(s[j..])
    ensures r == [] || (!IsSpace(r[0]) && !IsSpace(r[|r| - 1]))
    ensures r == [] <==> AllSpace(s)
  {
    var i := |s| - |t|;
    SliceParts(s, i, |r|);
    assert r == s[i..i + |r|] && AllSpace(s[..i]) && AllSpace(s[i + |r|..]);
    if r == [] {
      AllSpaceJoin(s, i);
    } else {
      assert r[0] == t[0] == s[i];
    }
  }

  lemma AllSpaceJoin(s: string, i: nat)
    requires i <= |s| && AllSpace(s[..i]) && AllSpace(s[i..])
    ensures AllSpace(s)
  {
    forall k | 0 <= k < |s| ensures IsSpace(s[k]) {
      if k < i { assert s[k] == s[..i][k]; } else { assert s[k] == s[i..][k - i]; }
    }
  }

  /** The two halves of a suffix of `s`, cut at `n`, as slices of `s`. */
  lemma SliceParts<T>(s: seq<T>, i: nat, n: nat)
    requires i + n <= |s|
    ensures s[i..][..n] == s[i..i + n] && s[i..][n..] == s[i + n..]
  {
  }

  /** JavaScript's notion of a blank prompt: `!s.trim()`. */
  predicate IsBlank(s: string) {
    Trim(s) == []
  }

  /** JavaScript's `s.length`: UTF-16 code units, so a character above U+FFFF
      (a surrogate pair) counts twice. */
  function Utf16Length(s: string): (n: nat)
    ensures |s| <= n <= 2 * |s|
    ensures (forall i :: 0 <= i < |s| ==> s[i] as int <= 0xFFFF) ==> n == |s|
  {
    if s == [] then 0
    else (if s[0] as int > 0xFFFF then 2 else 1) + Utf16Length(s[1..])
  }

  /** `String.prototype.repeat` of a one-character string. */
  function Repeat(c: char, n: nat): (r: string)
    ensures |r| == n && forall i :: 0 <= i < n ==> r[i] == c
  {
    if n == 0 then [] else [c] + Repeat(c, n - 1)
  }

  lemma RepeatSnoc(c: char, n: nat)
    requires n > 0
    ensures Repeat(c, n) == Repeat(c, n - 1) + [c]
  {
    assert Repeat(c, n)[..n - 1] == Repeat(c, n - 1);
  }

  /** `parts.join(sep)` */
  function Join(parts: seq<string>, sep: string): (r: string)
    ensures parts == [] ==> r == []
    ensures |parts| == 1 ==> r == parts[0]
  {
    if parts == [] then []
    else if |parts| == 1 then parts[0]
    else parts[0] + sep + Join(parts[1..], sep)
  }

  /** The index of the first occurrence of `c` in `s`, if any. */
  function IndexOf(s: string, c: char): (r: Option<nat>)
    ensures r.None? <==> c !in s
    ensures r.Some? ==> r.value < |s| && s[r.value] == c && c !in s[..r.value]
  {
    if s == [] then None
    else if s[0] == c then Some(0)
    else
      match IndexOf(s[1..], c)
      case None => None
      case Some(k) =>
        assert s[..k + 1] == [s[0]] + s[1..][..k];
        Some(k + 1)
  }

  /** The index of the last occurrence of `c` in `s`, if any (`lastIndexOf`). */
  function LastIndexOf(s: string, c: char): (r: Option<nat>)
    ensures r.None? <==> c !in s
    ensures r.Some? ==> r.value < |s| && s[r.value] == c && c !in s[r.value + 1..]
  {
    if s == [] then None
    else if s[|s| - 1] == c then Some(|s| - 1)
    else
      var r := LastIndexOf(s[..|s| - 1], c);
      if r.Some? then
        assert s[r.value + 1..] == s[..|s| - 1][r.value + 1..] + [s[|s| - 1]];
        r
      else
        assert s == s[..|s| - 1] + [s[|s| - 1]];
        r
  }

  /** `s.split(c)` for a one-character separator. */
  function Split(s: string, c: char): (r: seq<string>)
    ensures |r| >= 1
    ensures forall i :: 0 <= i < |r| ==> c !in r[i]
    decreases |s|
  {
    match IndexOf(s, c)
    case None => [s]
    case Some(k) => [s[..k]] + Split(s[k + 1..], c)
  }

  /** Splitting on `c` and joining again with `c` gives the original text back. */
  lemma {:induction false} JoinSplit(s: string, c: char)
    ensures Join(Split(s, c), [c]) == s
    decreases |s|
  {
    match IndexOf(s, c)
    case None =>
    case Some(k) =>
      var rest := Split(s[k + 1..], c);
      JoinSplit(s[k + 1..], c);
      JoinCons(s[..k], rest, [c]);
      assert s == s[..k] + [c] + s[k + 1..];
  }

  /** Splitting at a separator placed between two texts splits each of them. */
  lemma {:induction false} SplitAround(a: string, b: string, c: char)
    ensures Split(a + [c] + b, c) == Split(a, c) + Split(b, c)
    decreases |a|
  {
    match IndexOf(a, c)
    case None =>
      SplitAroundPlain(a, b, c);
    case Some(k) =>
      SplitAround(a[k + 1..], b, c);
      SplitAroundStep(a, b, c, k);
  }

  lemma SplitAroundPlain(a: string, b: string, c: char)
    requires c !in a
    ensures Split(a + [c] + b, c) == Split(a, c) + Split(b, c)
  {
    var s := a + [c] + b;
    assert s[..|a|] == a && s[|a| + 1..] == b;
    IndexOfAt(s, c, |a|);
  }

  lemma SplitAroundStep(a: string, b: string, c: char, k: nat)
    requires IndexOf(a, c) == Some(k)
    requires Split(a[k + 1..] + [c] + b, c) == Split(a[k + 1..], c) + Split(b, c)
    ensures Split(a + [c] + b, c) == Split(a, c) + Split(b, c)
  {
    FirstSeparatorKept(a, b, c, k);
    SplitAt(a + [c] + b, c, k);
    SplitAt(a, c, k);
    PartsRegrouped(a[..k], Split(a[k + 1..], c), Split(b, c));
  }

  lemma PartsRegrouped(h: string, x: seq<string>, y: seq<string>)
    ensures [h] + (x + y) == ([h] + x) + y
  {
  }

  lemma FirstSeparatorKept(a: string, b: string, c: char, k: nat)
    requires IndexOf(a, c) == Some(k)
    ensures var s := a + [c] + b;
            IndexOf(s, c) == Some(k) && s[..k] == a[..k] && s[k + 1..] == a[k + 1..] + [c] + b
  {
    var s := a + [c] + b;
    assert s[..k] == a[..k] && s[k + 1..] == a[k + 1..] + [c] + b;
    IndexOfAt(s, c, k);
  }

  /** Splitting at the first separator: the text before it, then the parts
      of the rest. */
  lemma SplitAt(s: string, c: char, k: nat)
    requires IndexOf(s, c) == Some(k)
    ensures Split(s, c) == [s[..k]] + Split(s[k + 1..], c)
  {
  }

  lemma IndexOfAt(s: string, c: char, k: nat)
    requires k < |s| && s[k] == c && c !in s[..k]
    ensures IndexOf(s, c) == Some(k)
  {
  }

  /** A text without the separator is a single part. */
  lemma SplitWithout(s: string, c: char)
    requires c !in s
    ensures Split(s, c) == [s]
  {
  }

  /** Two separators at the end add two empty parts. */
  lemma SplitTwoAtEnd(a: string, c: char)
    ensures Split(a + [c, c], c) == Split(a, c) + [[], []]
  {
    assert a + [c, c] == (a + [c]) + [c];
    SplitOneAtEnd(a + [c], c);
    SplitOneAtEnd(a, c);
    EmptyPartsAppended(Split(a, c));
  }

  lemma EmptyPartsAppended(x: seq<string>)
    ensures (x + [[]]) + [[]] == x + [[], []]
  {
  }

  lemma SplitOneAtEnd(a: string, c: char)
    ensures Split(a + [c], c) == Split(a, c) + [[]]
  {
    var e: string := [];
    assert a + [c] == a + [c] + e;
    SplitAround(a, e, c);
    SplitWithout(e, c);
  }

  /** A separator at the start adds an empty first part. */
  lemma SplitOneAtStart(b: string, c: char)
    ensures Split([c] + b, c) == [[]] + Split(b, c)
  {
    assert [c] + b == [] + [c] + b;
    SplitAround([], b, c);
    SplitWithout([], c);
  }

  /** Joining with one or two separators keeps every part's pieces among
      the pieces of the whole. */
  lemma {:induction false} PieceOfJoin(parts: seq<string>, c: char, sep: string, i: nat, piece: string)
    requires sep == [c] || sep == [c, c]
    requires i < |parts| && piece in Split(parts[i], c)
    ensures piece in Split(Join(parts, sep), c)
    decreases |parts|
  {
    if |parts| > 1 {
      var rest := Join(parts[1..], sep);
      if sep == [c] {
        assert Join(parts, sep) == parts[0] + [c] + rest;
        SplitAround(parts[0], rest, c);
      } else {
        assert Join(parts, sep) == parts[0] + [c] + ([c] + rest);
        SplitAround(parts[0], [c] + rest, c);
        SplitOneAtStart(rest, c);
      }
      if i > 0 {
        PieceOfJoin(parts[1..], c, sep, i - 1, piece);
      }
    }
  }

  /** The lines `part` occur in `whole` as a contiguous run. */
  ghost predicate IsRun(part: seq<string>, whole: seq<string>) {
    exists a, b :: whole == a + part + b
  }

  lemma RunIntro(a: seq<string>, part: seq<string>, b: seq<string>, whole: seq<string>)
    requires whole == a + part + b
    ensures IsRun(part, whole)
  {
  }

  /** A run of a run is a run. */
  lemma RunOfRun(x: seq<string>, y: seq<string>, z: seq<string>)
    requires IsRun(x, y) && IsRun(y, z)
    ensures IsRun(x, z)
  {
    var a, b :| y == a + x + b;
    var c, d :| z == c + y + d;
    assert z == (c + a) + x + (b + d);
  }

  /** The lines of each part of a text joined with one separator are a
      contiguous run of the lines of the whole. */
  lemma {:induction false} LinesOfJoin(parts: seq<string>, c: char, i: nat)
    requires i < |parts|
    ensures IsRun(Split(parts[i], c), Split(Join(parts, [c]), c))
    decreases |parts|
  {
    if |parts| == 1 {
      RunIntro([], Split(parts[0], c), [], Split(Join(parts, [c]), c));
    } else {
      var rest := Join(parts[1..], [c]);
      assert Join(parts, [c]) == parts[0] + [c] + rest;
      SplitAround(parts[0], rest, c);
      RunIntro(Split(parts[0], c), Split(rest, c), [], Split(Join(parts, [c]), c));
      if i == 0 {
        RunIntro([], Split(parts[0], c), Split(rest, c), Split(Join(parts, [c]), c));
      } else {
        LinesOfJoin(parts[1..], c, i - 1);
        RunOfRun(Split(parts[i], c), Split(rest, c), Split(Join(parts, [c]), c));
      }
    }
  }

  /** A prefix without the separator joins the first part. */
  lemma SplitPrefixed(p: string, s: string, c: char)
    requires c !in p
    ensures Split(p + s, c) == [p + Split(s, c)[0]] + Split(s, c)[1..]
  {
    match IndexOf(s, c)
    case None =>
      assert c !in p + s;
      SplitWithout(p + s, c);
      SplitWithout(s, c);
    case Some(k) =>
      SplitPrefixedAt(p, s, c, k);
  }

  lemma SplitPrefixedAt(p: string, s: string, c: char, k: nat)
    requires c !in p && IndexOf(s, c) == Some(k)
    ensures Split(p + s, c) == [p + Split(s, c)[0]] + Split(s, c)[1..]
  {
    var rest := Split(s[k + 1..], c);
    assert Split(p + s, c) == [p + s[..k]] + rest by {
      PrefixedIndex(p, s, c, k);
      SplitFirst(p + s, c, |p| + k, p + s[..k], s[k + 1..]);
    }
    assert Split(s, c)[0] == s[..k] && Split(s, c)[1..] == rest by {
      SplitFirst(s, c, k, s[..k], s[k + 1..]);
    }
  }

  lemma SplitFirst(t: string, c: char, j: nat, head: string, tail: string)
    requires IndexOf(t, c) == Some(j) && t[..j] == head && t[j + 1..] == tail
    ensures Split(t, c) == [head] + Split(tail, c)
    ensures Split(t, c)[0] == head && Split(t, c)[1..] == Split(tail, c)
  {
  }

  lemma PrefixedIndex(p: string, s: string, c: char, k: nat)
    requires c !in p && IndexOf(s, c) == Some(k)
    ensures IndexOf(p + s, c) == Some(|p| + k)
    ensures (p + s)[..|p| + k] == p + s[..k] && (p + s)[|p| + k + 1..] == s[k + 1..]
  {
    var t := p + s;
    assert t[..|p| + k] == p + s[..k];
    assert t[|p| + k + 1..] == s[k + 1..];
    assert c !in p + s[..k];
    IndexOfAt(t, c, |p| + k);
  }

  /** Joining with one more part at the end appends the separator and the part. */
  lemma {:induction false} JoinSnoc(parts: seq<string>, x: string, sep: string)
    requires parts != []
    ensures Join(parts + [x], sep) == Join(parts, sep) + sep + x
    decreases |parts|
  {
    if |parts| == 1 {
      assert (parts + [x])[1..] == [x];
    } else {
      assert (parts + [x])[1..] == parts[1..] + [x];
      JoinSnoc(parts[1..], x, sep);
    }
  }

  lemma JoinCons(x: string, rest: seq<string>, sep: string)
    requires rest != []
    ensures Join([x] + rest, sep) == x + sep + Join(rest, sep)
  {
    assert ([x] + rest)[1..] == rest;
  }

  /** A joined text starts with its first part and ends with its last. */
  lemma {:induction false} JoinEnds(parts: seq<string>, sep: string)
    ensures parts != [] ==> |parts[0]| <= |Join(parts, sep)| && Join(parts, sep)[..|parts[0]|] == parts[0]
    ensures parts != [] ==> var last := parts[|parts| - 1];
            |last| <= |Join(parts, sep)| && Join(parts, sep)[|Join(parts, sep)| - |last|..] == last
    decreases |parts|
  {
    if |parts| > 1 {
      var rest := Join(parts[1..], sep);
      JoinEnds(parts[1..], sep);
      var last := parts[|parts| - 1];
      assert parts[1..][|parts[1..]| - 1] == last;
      var j := Join(parts, sep);
      assert j == parts[0] + (sep + rest);
      assert j[..|parts[0]|] == parts[0];
      assert j[|j| - |last|..] == rest[|rest| - |last|..];
    }
  }

  /** Does `pat` occur in `s` at index `i`? */
  predicate OccursAt(s: string, pat: string, i: nat) {
    i + |pat| <= |s| && s[i..i + |pat|] == pat
  }

  ghost predicate Occurs(s: string, pat: string) {
    exists i: nat :: OccursAt(s, pat, i)
  }

  /** A text occurs in any text built around it. */
  lemma OccursWithin(a: string, x: string, b: string, pat: string)
    requires Occurs(x, pat)
    ensures Occurs(a + x + b, pat)
  {
    var i: nat :| OccursAt(x, pat, i);
    assert (a + x + b)[|a| + i..|a| + i + |pat|] == x[i..i + |pat|];
    assert OccursAt(a + x + b, pat, |a| + i);
  }

  lemma OccursItself(pat: string)
    ensures Occurs(pat, pat)
  {
    assert OccursAt(pat, pat, 0);
  }

  lemma OccursLeft(x: string, y: string, pat: string)
    requires Occurs(x, pat)
    ensures Occurs(x + y, pat)
  {
    var i: nat :| OccursAt(x, pat, i);
    assert (x + y)[i..i + |pat|] == x[i..i + |pat|];
    assert OccursAt(x + y, pat, i);
  }

  lemma OccursRight(x: string, y: string, pat: string)
    requires Occurs(y, pat)
    ensures Occurs(x + y, pat)
  {
    var i: nat :| OccursAt(y, pat, i);
    assert (x + y)[|x| + i..|x| + i + |pat|] == y[i..i + |pat|];
    assert OccursAt(x + y, pat, |x| + i);
  }

  /** What occurs in a run of `s` occurs in `s`. */
  lemma OccursInOccurrence(s: string, x: string, pat: string)
    requires Occurs(s, x) && Occurs(x, pat)
    ensures Occurs(s, pat)
  {
    var i: nat :| OccursAt(s, x, i);
    var j: nat :| OccursAt(x, pat, j);
    forall t | 0 <= t < |pat|
      ensures s[i + j..i + j + |pat|][t] == pat[t]
    {
      assert s[i + j + t] == s[i..i + |x|][j + t] == x[j + t] == x[j..j + |pat|][t];
    }
    assert OccursAt(s, pat, i + j);
  }

  /** Every part occurs in the joined text. */
  lemma {:induction false} PartsOccurInJoin(parts: seq<string>, sep: string)
    ensures forall i :: 0 <= i < |parts| ==> Occurs(Join(parts, sep), parts[i])
    decreases |parts|
  {
    if |parts| == 1 {
      OccursItself(parts[0]);
    } else if |parts| > 1 {
      var rest := Join(parts[1..], sep);
      assert Join(parts, sep) == parts[0] + (sep + rest);
      OccursItself(parts[0]);
      OccursWithin([], parts[0], sep + rest, parts[0]);
      assert [] + parts[0] + (sep + rest) == Join(parts, sep);
      PartsOccurInJoin(parts[1..], sep);
      forall i | 1 <= i < |parts|
        ensures Occurs(Join(parts, sep), parts[i])
      {
        assert parts[1..][i - 1] == parts[i];
        OccursWithin(parts[0] + sep, rest, [], parts[i]);
        assert parts[0] + sep + rest + [] == Join(parts, sep);
      }
    }
  }

  /** The leftmost occurrence of `pat` in `s` at or after `from`. */
  function FindFrom(s: string, pat: string, from: nat): (r: Option<nat>)
    requires pat != []
    ensures r.Some? ==> from <= r.value && OccursAt(s, pat, r.value)
    ensures forall i: nat :: from <= i && (r.None? || i < r.value) ==> !OccursAt(s, pat, i)
    decreases |s| - from
  {
    if from + |pat| > |s| then None
    else if s[from..from + |pat|] == pat then Some(from)
    else FindFrom(s, pat, from + 1)
  }

  /** `s.replace(/pat/g, rep)` for a literal pattern: every occurrence, left to
      right and without overlap, is replaced by `rep`. */
  function ReplaceAll(s: string, pat: string, rep: string): (r: string)
    requires pat != []
    ensures !Occurs(s, pat) ==> r == s
    decreases |s|
  {
    match FindFrom(s, pat, 0)
    case None => s
    case Some(k) =>
      assert Occurs(s, pat) by { assert OccursAt(s, pat, k); }
      s[..k] + rep + ReplaceAll(s[k + |pat|..], pat, rep)
  }

  /** A placeholder preceded by text without its opening character is
      replaced there, and the rest of the text is processed after it. */
  lemma ReplaceAllFirst(a: string, pat: string, rep: string, b: string)
    requires pat != [] && pat[0] !in a
    ensures ReplaceAll(a + pat + b, pat, rep) == a + rep + ReplaceAll(b, pat, rep)
  {
    var s := a + pat + b;
    assert OccursAt(s, pat, |a|);
    var k := FindFrom(s, pat, 0);
    assert k.Some?;
    forall i: nat | i < |a|
      ensures !OccursAt(s, pat, i)
    {
      if i + |pat| <= |s| {
        assert s[i..i + |pat|][0] == a[i];
      }
    }
    assert k.value == |a|;
    assert s[..|a|] == a;
    assert s[|a| + |pat|..] == b;
  }

  /** ASCII lower-casing of one character. */
  function LowerChar(c: char): (r: char)
    ensures 'A' <= c <= 'Z' ==> r != c && 'a' <= r <= 'z'
    ensures !('A' <= c <= 'Z') ==> r == c
  {
    if 'A' <= c <= 'Z' then (c as int + 32) as char else c
  }

  /** `s.toLowerCase()`, restricted to the ASCII letters. */
  function Lower(s: string): (r: string)
    ensures |r| == |s| && forall i :: 0 <= i < |s| ==> r[i] == LowerChar(s[i])
  {
    seq(|s|, i requires 0 <= i < |s| => LowerChar(s[i]))
  }

  predicate IsDigit(c: char) { '0' <= c <= '9' }

  function DigitChar(d: nat): (c: char)
    requires d < 10
    ensures IsDigit(c) && DigitValue(c) == d
  {
    ('0' as int + d) as char
  }

  /** The decimal digits of `n`, without leading zeros. */
  function NatToString(n: nat): (r: string)
    ensures r != [] && forall i :: 0 <= i < |r| ==> IsDigit(r[i])
    ensures |r| > 1 ==> r[0] != '0'
  {
    if n < 10 then [DigitChar(n)]
    else NatToString(n / 10) + [DigitChar(n % 10)]
  }

  function DigitValue(c: char): nat
    requires IsDigit(c)
  {
    c as int - '0' as int
  }

  /** The value of a string of decimal digits. */
  function DigitsValue(s: string): nat
    requires forall i :: 0 <= i < |s| ==> IsDigit(s[i])
  {
    if s == [] then 0
    else 10 * DigitsValue(s[..|s| - 1]) + DigitValue(s[|s| - 1])
  }

  /** Reading the digits back gives the number. */
  lemma {:induction false} NatToStringValue(n: nat)
    ensures DigitsValue(NatToString(n)) == n
  {
    if n >= 10 {
      NatToStringValue(n / 10);
      var r := NatToString(n);
      assert r[..|r| - 1] == NatToString(n / 10);
    }
  }

  /** `String(n)` for an integer. */
  function IntToString(n: int): (r: string)
    ensures n >= 0 ==> r == NatToString(n)
    ensures n < 0 ==> r == "-" + NatToString(-n)
  {
    if n >= 0 then NatToString(n) else "-" + NatToString(-n)
  }
}

=== FILE: worldbook.dfy ===
/**
 * The world-book entries that the story assistant writes its results to.
 * Both writers (the "ask Amber" result and the character list) look an entry
 * up by its `comment`, create one through the host when there is none, and
 * then overwrite a fixed set of its fields with `Object.assign`.
 */
module Worldbook {
  import opened Text

  /** A world-book entry; `depth` is `None` where it was set to `undefined`. */
  datatype Entry = Entry(
    uid: int,
    comment: string,
    content: string,
    key: seq<string>,
    constant: bool,
    selective: bool,
    disable: bool,
    position: int,
    depth: Option<int>,
    order: int)

  /** The fields a writer assigns; a writer that leaves the keys alone has
      `key == None`.  Every writer also sets `selective` and clears `disable`. */
  datatype Fields = Fields(
    comment: string,
    content: string,
    key: Option<seq<string>>,
    constant: bool,
    position: int,
    depth: Option<int>,
    order: int)

  /** `Object.assign(entry, {...})`: the assigned fields replaced, the uid
      (and the keys, when not assigned) kept. */
  function Assign(e: Entry, f: Fields): (r: Entry)
    ensures r.uid == e.uid && r.comment == f.comment && r.content == f.content
    ensures r.key == (if f.key.Some? then f.key.value else e.key)
    ensures r.constant == f.constant && r.selective && !r.disable
    ensures r.position == f.position && r.depth == f.depth && r.order == f.order
  {
    Entry(e.uid, f.comment, f.content, if f.key.Some? then f.key.value else e.key,
          f.constant, true, false, f.position, f.depth, f.order)
  }

  /** `Object.values(entries).find(e => e && e.comment === name)`: the index
      of the first entry with that comment. */
  function FindByComment(entries: seq<Entry>, name: string): (r: Option<nat>)
    ensures r.None? <==> forall k :: 0 <= k < |entries| ==> entries[k].comment != name
    ensures r.Some? ==> r.value < |entries| && entries[r.value].comment == name
                        && forall k :: 0 <= k < r.value ==> entries[k].comment != name
  {
    if entries == [] then None
    else if entries[0].comment == name then Some(0)
    else
      match FindByComment(entries[1..], name)
      case None => None
      case Some(k) => Some(k + 1)
  }

  /** The content of the entry with that comment, `''` when there is none. */
  function ExistingContent(entries: seq<Entry>, name: string): (r: string)
    ensures FindByComment(entries, name).None? ==> r == ""
    ensures FindByComment(entries, name).Some? ==> r == entries[FindByComment(entries, name).value].content
  {
    match FindByComment(entries, name)
    case None => ""
    case Some(i) => entries[i].content
  }

  /** What a write did: updated the entry found, created one, or failed
      because the host created none. */
  datatype Written = Updated | Created | CreateFailed

  /** The entries after writing `f` under the name `f.comment`: the first entry
      with that comment updated in place, or else the host's new entry
      (`created`, `None` when the host returned none) appended with the fields
      assigned. */
  function Upserted(entries: seq<Entry>, f: Fields, created: Option<Entry>): (r: seq<Entry>)
    ensures |entries| <= |r| <= |entries| + 1
    ensures forall k :: 0 <= k < |entries| && entries[k].comment != f.comment ==> r[k] == entries[k]
    ensures forall k :: 0 <= k < |entries| ==> r[k] == entries[k] || r[k] == Assign(entries[k], f)
    ensures |r| == |entries| + 1 <==> created.Some? && forall k :: 0 <= k < |entries| ==> entries[k].comment != f.comment
  {
    match FindByComment(entries, f.comment)
    case Some(i) => entries[i := Assign(entries[i], f)]
    case None => if created.Some? then entries + [Assign(created.value, f)] else entries
  }

  function Outcome(entries: seq<Entry>, f: Fields, created: Option<Entry>): Written {
    if FindByComment(entries, f.comment).Some? then Updated
    else if created.Some? then Created
    else CreateFailed
  }

  /** A write updates one entry or appends one; every other entry is kept. */
  lemma UpsertShape(entries: seq<Entry>, f: Fields, created: Option<Entry>)
    ensures var r := Upserted(entries, f, created);
            match Outcome(entries, f, created)
            case Updated =>
              && |r| == |entries|
              && (exists i :: 0 <= i < |entries| && entries[i].comment == f.comment
                              && r[i] == Assign(entries[i], f)
                              && forall k :: 0 <= k < |entries| && k != i ==> r[k] == entries[k])
            case Created =>
              |r| == |entries| + 1 && r[..|entries|] == entries && r[|entries|] == Assign(created.value, f)
            case CreateFailed =>
              r == entries
  {
    var r := Upserted(entries, f, created);
    match FindByComment(entries, f.comment)
    case Some(i) =>
      assert r[i] == Assign(entries[i], f);
    case None =>
      if created.Some? {
        assert r[..|entries|] == entries;
      }
  }

  /** After a successful write, looking the name up finds an entry that holds
      exactly the written fields. */
  lemma WrittenEntryFound(entries: seq<Entry>, f: Fields, created: Option<Entry>)
    requires Outcome(entries, f, created) != CreateFailed
    ensures var r := Upserted(entries, f, created);
            var i := FindByComment(r, f.comment);
            i.Some? && r[i.value].comment == f.comment && r[i.value].content == f.content
            && r[i.value].position == f.position && r[i.value].depth == f.depth && r[i.value].order == f.order
            && r[i.value].constant == f.constant && r[i.value].selective && !r[i.value].disable
            && (f.key.Some? ==> r[i.value].key == f.key.value)
  {
    var r := Upserted(entries, f, created);
    match FindByComment(entries, f.comment)
    case Some(i) =>
      assert r[i] == Assign(entries[i], f);
      assert forall k :: 0 <= k < i ==> r[k] == entries[k];
      assert FindByComment(r, f.comment) == Some(i);
    case None =>
      var n := |entries|;
      assert r[n] == Assign(created.value, f);
      assert forall k :: 0 <= k < n ==> r[k] == entries[k];
      assert FindByComment(r, f.comment) == Some(n);
  }

  /** Writing under the same name a second time updates the entry the first
      write left, so the list does not grow again. */
  lemma SecondWriteUpdates(entries: seq<Entry>, f: Fields, g: Fields, c1: Option<Entry>, c2: Option<Entry>)
    requires Outcome(entries, f, c1) != CreateFailed && g.comment == f.comment
    ensures Outcome(Upserted(entries, f, c1), g, c2) == Updated
    ensures |Upserted(Upserted(entries, f, c1), g, c2)| == |Upserted(entries, f, c1)|
  {
    WrittenEntryFound(entries, f, c1);
  }

  /** The host's world data: `entries` in `Object.values` order. */
  class WorldData {
    var entries: seq<Entry>

    constructor(entries: seq<Entry>)
      ensures this.entries == entries
    {
      this.entries := entries;
    }

    /** Find the entry named `f.comment` or create it, then assign `f`. */
    method Write(f: Fields, created: Option<Entry>) returns (outcome: Written)
      modifies this
      ensures outcome == Outcome(old(entries), f, created)
      ensures entries == Upserted(old(entries), f, created)
    {
      var found := FindByComment(entries, f.comment);
      if found.Some? {
        var i := found.value;
        entries := entries[i := Assign(entries[i], f)];
        return Updated;
      }
      if created.None? {
        return CreateFailed;
      }
      entries := entries + [Assign(created.value, f)];
      return Created;
    }
  }
}

=== FILE: yaml.dfy ===
/**
 * `jsonToYaml` of index.js: a small recursive serialiser that renders a JSON
 * value as block-style, YAML-like text, two spaces deeper per nesting level.
 */
module YamlText {
  import opened Text
  import opened JsonValue

  function Indent(n: nat): string {
    Repeat(' ', n)
  }

  /** `jsonToYaml(data, indent)`; `None` is `undefined`. */
  function JsonToYaml(data: Option<Json>, indent: nat): (r: string)
    ensures Nullish(data) ==> r == ""
    ensures data.Some? && !data.value.JNull? && !IsObjectLike(data.value) ==> r == ToJsString(data.value)
  {
    if data.None? then "" else Block(data.value, indent)
  }

  /** The text of a present value: arrays one item per line, objects one entry
      per line, scalars as `String(x)`. */
  function Block(v: Json, indent: nat): (r: string)
    ensures v.JNull? || v == JArr([]) || v == JObj([]) ==> r == ""
    ensures !v.JNull? && !IsObjectLike(v) ==> r == ToJsString(v)
    decreases v, 1
  {
    match v
    case JNull => ""
    case JArr(items) => Join(seq(|items|, i requires 0 <= i < |items| => ItemLine(items[i], indent)), "\n")
    case JObj(entries) => Join(seq(|entries|, i requires 0 <= i < |entries| => EntryLine(entries[i], indent)), "\n")
    case _ => ToJsString(v)
  }

  /** One array item: `- ` and the item, a nested value starting on the same line. */
  function ItemLine(item: Json, indent: nat): (r: string)
    ensures |r| >= indent + 2 && r[..indent + 2] == Indent(indent) + "- "
    ensures !IsObjectLike(item) ==> r[indent + 2..] == ToJsString(item)
    decreases item, 2
  {
    if IsObjectLike(item) then Indent(indent) + "- " + TrimStart(Block(item, indent + 2))
    else Indent(indent) + "- " + ToJsString(item)
  }

  /** One object entry: empty containers inline, other nested values on the
      following lines two spaces deeper, scalars after `key: `. */
  function EntryLine(e: Entry, indent: nat): (r: string)
    ensures var head := Indent(indent) + e.key + ":";
            |r| > |head| && r[..|head|] == head
    ensures IsObjectLike(e.value) && e.value != JArr([]) && e.value != JObj([]) ==>
              r[indent + |e.key| + 1] == '\n'
    ensures !e.value.JNull? && !IsObjectLike(e.value) ==> r[indent + |e.key| + 1..] == " " + ToJsString(e.value)
    decreases e, 2
  {
    if e.value == JArr([]) then Indent(indent) + e.key + ": []"
    else if e.value == JObj([]) then Indent(indent) + e.key + ": {}"
    else if IsObjectLike(e.value) then Indent(indent) + e.key + ":\n" + Block(e.value, indent + 2)
    else Indent(indent) + e.key + ": " + ToJsString(e.value)
  }

  // ---------------------------------------------------------------------
  // Layout

  /** No key and no string anywhere in `v` holds a line feed. */
  predicate SingleLine(v: Json) {
    match v
    case JStr(s) => '\n' !in s
    case JArr(items) => forall i :: 0 <= i < |items| ==> SingleLine(items[i])
    case JObj(entries) => forall i :: 0 <= i < |entries| ==> '\n' !in entries[i].key && SingleLine(entries[i].value)
    case _ => true
  }

  /** Every line after the first starts with `n` spaces. */
  predicate Continued(r: string, n: nat) {
    forall i :: 0 <= i < |r| && r[i] == '\n' ==> i + 1 + n <= |r| && r[i + 1..i + 1 + n] == Indent(n)
  }

  /** Every line starts with `n` spaces. */
  predicate Indented(r: string, n: nat) {
    n <= |r| && r[..n] == Indent(n) && Continued(r, n)
  }

  /** The layout of the output: every line of a rendered array or object is
      indented by at least `indent` spaces, and a non-empty one is not empty.
      Nested values sit on their own lines two spaces deeper. */
  lemma {:induction false} BlockLayout(v: Json, indent: nat)
    requires IsObjectLike(v) && SingleLine(v)
    ensures Continued(Block(v, indent), indent)
    ensures v != JArr([]) && v != JObj([]) ==> Indented(Block(v, indent), indent)
    decreases v, 1
  {
    match v
    case JArr(items) =>
      var lines := seq(|items|, i requires 0 <= i < |items| => ItemLine(items[i], indent));
      forall i | 0 <= i < |lines| ensures Indented(lines[i], indent) {
        ItemLayout(items[i], indent);
      }
      JoinIndented(lines, indent);
    case JObj(entries) =>
      var lines := seq(|entries|, i requires 0 <= i < |entries| => EntryLine(entries[i], indent));
      forall i | 0 <= i < |lines| ensures Indented(lines[i], indent) {
        EntryLayout(entries[i], indent);
      }
      JoinIndented(lines, indent);
  }

  lemma {:induction false} ItemLayout(item: Json, indent: nat)
    requires SingleLine(item)
    ensures Indented(ItemLine(item, indent), indent)
    decreases item, 2
  {
    if IsObjectLike(item) {
      BlockLayout(item, indent + 2);
      NestedItemLayout(item, indent);
    } else {
      ScalarSingleLine(item);
      ScalarItemLayout(item, indent);
    }
  }

  lemma NestedItemLayout(item: Json, indent: nat)
    requires IsObjectLike(item) && Continued(Block(item, indent + 2), indent + 2)
    ensures Indented(ItemLine(item, indent), indent)
  {
    var b := Block(item, indent + 2);
    var t := TrimStart(b);
    assert ItemLine(item, indent) == Indent(indent) + "- " + t;
    SuffixContinued(b, |b| - |t|, indent + 2);
    Deeper(t, indent + 2, indent);
    PrefixIndented("- ", t, indent);
  }

  lemma ScalarItemLayout(item: Json, indent: nat)
    requires !IsObjectLike(item) && '\n' !in ToJsString(item)
    ensures Indented(ItemLine(item, indent), indent)
  {
    var t := ToJsString(item);
    assert ItemLine(item, indent) == Indent(indent) + "- " + t;
    NoLineFeedContinued(t, indent);
    PrefixIndented("- ", t, indent);
  }

  lemma {:induction false} EntryLayout(e: Entry, indent: nat)
    requires '\n' !in e.key && SingleLine(e.value)
    ensures Indented(EntryLine(e, indent), indent)
    decreases e, 2
  {
    if e.value == JArr([]) || e.value == JObj([]) {
      EmptyEntryLayout(e, indent);
    } else if IsObjectLike(e.value) {
      BlockLayout(e.value, indent + 2);
      NestedEntryLayout(e, indent);
    } else {
      ScalarSingleLine(e.value);
      ScalarEntryLayout(e, indent);
    }
  }

  lemma EmptyEntryLayout(e: Entry, indent: nat)
    requires '\n' !in e.key && (e.value == JArr([]) || e.value == JObj([]))
    ensures Indented(EntryLine(e, indent), indent)
  {
    var t := if e.value == JArr([]) then ": []" else ": {}";
    assert EntryLine(e, indent) == Indent(indent) + e.key + t;
    PrefixIndented(e.key, t, indent);
  }

  lemma NestedEntryLayout(e: Entry, indent: nat)
    requires '\n' !in e.key && IsObjectLike(e.value) && e.value != JArr([]) && e.value != JObj([])
    requires Indented(Block(e.value, indent + 2), indent + 2)
    ensures Indented(EntryLine(e, indent), indent)
  {
    var b := Block(e.value, indent + 2);
    var t := ":\n" + b;
    assert EntryLine(e, indent) == Indent(indent) + e.key + t;
    KeyBlockContinued(b, indent);
    PrefixIndented(e.key, t, indent);
  }

  lemma ScalarEntryLayout(e: Entry, indent: nat)
    requires '\n' !in e.key && !IsObjectLike(e.value) && '\n' !in ToJsString(e.value)
    ensures Indented(EntryLine(e, indent), indent)
  {
    var t := ": " + ToJsString(e.value);
    assert EntryLine(e, indent) == Indent(indent) + e.key + t;
    PrefixIndented(e.key, t, indent);
  }

  /** A key's colon, then a block two spaces deeper on the following lines. */
  lemma KeyBlockContinued(b: string, indent: nat)
    requires Indented(b, indent + 2)
    ensures Continued(":\n" + b, indent)
  {
    Deeper(b, indent + 2, indent);
    assert b[..indent] == b[..indent + 2][..indent];
    LineFeedIndented(b, indent);
    NoLineFeedContinued(":", indent);
    ConcatContinued(":", "\n" + b, indent);
    assert ":" + ("\n" + b) == ":\n" + b;
  }

  /** A line's indent, then text without a line feed, then continued lines. */
  lemma PrefixIndented(p: string, t: string, n: nat)
    requires '\n' !in p && Continued(t, n)
    ensures Indented(Indent(n) + p + t, n)
  {
    var h := Indent(n) + p;
    assert '\n' !in h;
    NoLineFeedContinued(h, n);
    ConcatContinued(h, t, n);
    assert (h + t)[..n] == Indent(n);
  }

  lemma ScalarSingleLine(v: Json)
    requires SingleLine(v) && !IsObjectLike(v)
    ensures '\n' !in ToJsString(v)
  {
    match v
    case JNum(n) =>
      var d := NatToString(if n >= 0 then n else -n);
      assert '\n' !in d;
    case _ =>
  }

  // ---------------------------------------------------------------------
  // Facts about indented text

  lemma NoLineFeedContinued(r: string, n: nat)
    requires '\n' !in r
    ensures Continued(r, n)
  {
  }

  lemma Deeper(r: string, n: nat, m: nat)
    requires m <= n && Continued(r, n)
    ensures Continued(r, m)
  {
    forall i | 0 <= i < |r| && r[i] == '\n' ensures i + 1 + m <= |r| && r[i + 1..i + 1 + m] == Indent(m) {
      assert r[i + 1..i + 1 + m] == r[i + 1..i + 1 + n][..m];
    }
  }

  lemma SuffixContinued(r: string, k: nat, n: nat)
    requires k <= |r| && Continued(r, n)
    ensures Continued(r[k..], n)
  {
    var t := r[k..];
    forall i | 0 <= i < |t| && t[i] == '\n' ensures i + 1 + n <= |t| && t[i + 1..i + 1 + n] == Indent(n) {
      assert r[k + i] == '\n';
      assert t[i + 1..i + 1 + n] == r[k + i + 1..k + i + 1 + n];
    }
  }

  lemma ConcatContinued(a: string, b: string, n: nat)
    requires Continued(a, n) && Continued(b, n)
    ensures Continued(a + b, n)
  {
    var r := a + b;
    forall i | 0 <= i < |r| && r[i] == '\n' ensures i + 1 + n <= |r| && r[i + 1..i + 1 + n] == Indent(n) {
      if i < |a| {
        assert a[i] == '\n';
        assert r[i + 1..i + 1 + n] == a[i + 1..i + 1 + n];
      } else {
        var j := i - |a|;
        assert b[j] == '\n';
        assert r[i + 1..i + 1 + n] == b[j + 1..j + 1 + n];
      }
    }
  }

  /** A line feed followed by an indented block. */
  lemma LineFeedIndented(t: string, n: nat)
    requires Indented(t, n)
    ensures Continued("\n" + t, n)
  {
    var r := "\n" + t;
    forall i | 0 <= i < |r| && r[i] == '\n' ensures i + 1 + n <= |r| && r[i + 1..i + 1 + n] == Indent(n) {
      if i == 0 {
        assert r[1..1 + n] == t[..n];
      } else {
        assert t[i - 1] == '\n';
        assert r[i + 1..i + 1 + n] == t[i..i + n];
      }
    }
  }

  /** Indented lines joined by line feeds stay indented. */
  lemma {:induction false} JoinIndented(lines: seq<string>, n: nat)
    requires forall i :: 0 <= i < |lines| ==> Indented(lines[i], n)
    ensures Continued(Join(lines, "\n"), n)
    ensures lines != [] ==> Indented(Join(lines, "\n"), n)
  {
    if |lines| > 1 {
      JoinIndented(lines[1..], n);
      var rest := Join(lines[1..], "\n");
      LineFeedIndented(rest, n);
      ConcatContinued(lines[0], "\n" + rest, n);
      assert Join(lines, "\n") == lines[0] + ("\n" + rest);
    }
  }

  // ---------------------------------------------------------------------
  // Lines of a rendered object or array

  /** The lines of a text, as `split('\n')` gives them. */
  function Lines(s: string): seq<string> {
    Split(s, '\n')
  }

  /** The lines of one entry's or item's text are a contiguous run of the
      lines of the whole block. */
  lemma EntryLinesInBlock(es: seq<Entry>, indent: nat, i: nat)
    requires i < |es|
    ensures IsRun(Lines(EntryLine(es[i], indent)), Lines(Block(JObj(es), indent)))
  {
    var parts := seq(|es|, k requires 0 <= k < |es| => EntryLine(es[k], indent));
    assert parts[i] == EntryLine(es[i], indent);
    LinesOfJoin(parts, '\n', i);
  }

  lemma ItemLinesInBlock(items: seq<Json>, indent: nat, i: nat)
    requires i < |items|
    ensures IsRun(Lines(ItemLine(items[i], indent)), Lines(Block(JArr(items), indent)))
  {
    var parts := seq(|items|, k requires 0 <= k < |items| => ItemLine(items[k], indent));
    assert parts[i] == ItemLine(items[i], indent);
    LinesOfJoin(parts, '\n', i);
  }

  lemma IndentWithoutLineFeed(n: nat)
    ensures '\n' !in Indent(n)
  {
  }

  /** An entry whose value is an empty array renders as the single line
      `key: []`, and one whose value is an empty object as `key: {}`, among
      the lines of the whole object. */
  lemma EmptyValuesInline(es: seq<Entry>, indent: nat, i: nat)
    requires i < |es| && '\n' !in es[i].key
    ensures es[i].value == JArr([]) ==> IsRun([Indent(indent) + es[i].key + ": []"], Lines(Block(JObj(es), indent)))
    ensures es[i].value == JObj([]) ==> IsRun([Indent(indent) + es[i].key + ": {}"], Lines(Block(JObj(es), indent)))
  {
    EntryLinesInBlock(es, indent, i);
    if es[i].value == JArr([]) || es[i].value == JObj([]) {
      IndentWithoutLineFeed(indent);
      SplitWithout(EntryLine(es[i], indent), '\n');
    }
  }

  /** Each array item opens a line with `- ` at the array's indent: a scalar
      item on that line alone, a nested value with its first line after the
      dash and its other lines below, unchanged. */
  lemma ItemsDashed(items: seq<Json>, indent: nat, i: nat)
    requires i < |items|
    ensures !IsObjectLike(items[i]) && '\n' !in ToJsString(items[i]) ==>
              IsRun([Indent(indent) + "- " + ToJsString(items[i])], Lines(Block(JArr(items), indent)))
    ensures IsObjectLike(items[i]) ==>
              var nested := Lines(TrimStart(Block(items[i], indent + 2)));
              IsRun([Indent(indent) + "- " + nested[0]] + nested[1..], Lines(Block(JArr(items), indent)))
  {
    ItemLinesInBlock(items, indent, i);
    IndentWithoutLineFeed(indent);
    var dash := Indent(indent) + "- ";
    if IsObjectLike(items[i]) {
      SplitPrefixed(dash, TrimStart(Block(items[i], indent + 2)), '\n');
    } else if '\n' !in ToJsString(items[i]) {
      SplitWithout(dash + ToJsString(items[i]), '\n');
    }
  }

  /** A non-empty nested value: its key alone on a line, then exactly the
      lines of the value's block two spaces deeper. */
  lemma NestedValueBelowKey(es: seq<Entry>, indent: nat, i: nat)
    requires i < |es| && '\n' !in es[i].key
    requires IsObjectLike(es[i].value) && es[i].value != JArr([]) && es[i].value != JObj([])
    ensures IsRun([Indent(indent) + es[i].key + ":"] + Lines(Block(es[i].value, indent + 2)), Lines(Block(JObj(es), indent)))
  {
    EntryLinesInBlock(es, indent, i);
    NestedEntryLines(es[i], indent);
  }

  lemma NestedEntryLines(e: Entry, indent: nat)
    requires '\n' !in e.key
    requires IsObjectLike(e.value) && e.value != JArr([]) && e.value != JObj([])
    ensures Lines(EntryLine(e, indent)) == [Indent(indent) + e.key + ":"] + Lines(Block(e.value, indent + 2))
  {
    IndentWithoutLineFeed(indent);
    var head := Indent(indent) + e.key + ":";
    assert EntryLine(e, indent) == head + ['\n'] + Block(e.value, indent + 2);
    SplitAround(head, Block(e.value, indent + 2), '\n');
    SplitWithout(head, '\n');
  }
}
